=== FILE: README.md ===
# Shoppy, modelled in Dafny

Shoppy is a shopping-list web app. This project models its core:

- **The IndexedDB store** (`storageService.js`). The lists, items, favourite stores, reminders and settings are held as immutable maps keyed by `nat` ids, together with the three auto-increment key generators. Every exported operation is one pure transition: the seed, the v1→v2 migration, the list and item CRUD with default-flag maintenance, promotion and cascade, and the favourite, reminder and settings CRUD. `getAll` order is ascending key order.
- **The invariant "exactly one list is the default"**, proved only where the code keeps it, with the two ways the code breaks it.
- **The location-reminder evaluation** and the add/delete reminder handlers (`Reminders.jsx`). Distance is a function parameter.
- **The place search post-processing** (`locationService.js`): mapping, the radius filter and the sort by distance. The fetch outcome is an input.
- **The grocery grid helpers** (`GroceryGrid.jsx`): the recently-used strip, the icon lookup with its hue hash, the add guard, and the store filter.
- **The three list views** (`ListManager.jsx`, `ShoppingLists.jsx`, `ShoppingList.jsx`). Each is a reducer over the store and the component's local state. Each handler is paired with a lemma that the local copy stays in step with the store.

JavaScript truthiness of ids is explicit: `IsTruthy` treats `None` and `0` as falsy. A `window.confirm` answer is a `bool` argument. The current time, the permission state and the distance function are parameters as well.

## Model

| member | source | states |
|---|---|---|
| Storage.Seed | src/services/storageService.js:18-29 | A fresh store holds one list, key 1, named "My Shopping List", and it is the only default; every other store is empty |
| Storage.MigrationTarget | src/services/storageService.js:43-46 | The migration target is a default list when one exists, otherwise the id 1 |
| Storage.MigrateItems | src/services/storageService.js:37-53 | Upgrading v1→v2 keeps every item key, sets each item's listId to the target, changes no other field and touches no other store |
| StorageLemmas.MigrateFilesEveryItem | src/services/storageService.js:43-52 | After the upgrade the target list's items are every item, in key order |
| StorageLemmas.MigrateLeavesOtherListsEmpty | src/services/storageService.js:43-52 | After the upgrade every other list has no items |
| Storage.GetLists | src/services/storageService.js:74-77 | getLists yields each stored list once, in ascending key order |
| Storage.ListedInGetLists | src/services/storageService.js:74-77 | Every stored list appears in getLists |
| Storage.GetList | src/services/storageService.js:79-82 | getList finds a list exactly when its key is stored |
| StorageLemmas.GetListFindsInGetLists | src/services/storageService.js:74-82 | getList(id) is the list with that id found in getLists() |
| Storage.FirstDefault | src/services/storageService.js:88-89 | The first default in key order: absent exactly when no list is default |
| Storage.GetDefaultList | src/services/storageService.js:84-96 | getDefaultList returns a stored default list with the least key among defaults, and nothing exactly when no list is default |
| Storage.AddList | src/services/storageService.js:98-123 | addList stores the record under a key above every existing key; with isDefault it clears the flag on every other list, without it no existing list changes |
| Storage.UpdateList | src/services/storageService.js:125-153 | updateList stores the record under its id; with isDefault every other list is cleared, without it every other list is unchanged |
| Storage.ClearDefaults | src/services/storageService.js:104-108 | Clearing the flags keeps every key, id and name, and leaves no default |
| Storage.Promoted | src/services/storageService.js:159-170 | A list is promoted exactly when the deleted id is a default list with company; it is then the least other key |
| Storage.Cascade | src/services/storageService.js:179-184 | Exactly the items filed under the deleted list are removed, and the others are unchanged |
| Storage.DeleteList | src/services/storageService.js:155-191 | deleteList fails with "Cannot delete the only shopping list" exactly for the sole default list. Otherwise it drops that key, promotes as above, removes exactly that list's items and leaves everything else alone |
| Storage.ItemsOfList | src/services/storageService.js:198 | The items of a list are exactly the stored items whose listId is that list |
| Storage.GetItems | src/services/storageService.js:194-207 | getItems with a truthy id gives that list's items; otherwise it gives the default list's items, or none without a default |
| Storage.ResolveList | src/services/storageService.js:212-222 | addItem's list is the given truthy id, else the default list, else a new default "My Shopping List" |
| Storage.AddItem | src/services/storageService.js:209-229 | addItem stores a new item under a fresh key, in the resolved list, with completed false unless it was set true |
| Storage.UpdateItem | src/services/storageService.js:231-237 | updateItem puts the item under its id and changes nothing else |
| Storage.DeleteItem | src/services/storageService.js:239-242 | deleteItem removes exactly that key |
| Storage.MoveItemToList | src/services/storageService.js:244-260 | moveItemToList rewrites only that item's listId; a missing item is a no-op; itemId is returned either way |
| Storage.GetFavoriteStores | src/services/storageService.js:263-266 | Lists exactly the stored favourites |
| Storage.AddFavoriteStore | src/services/storageService.js:268-274 | Puts the store under its own id, changing nothing else |
| Storage.DeleteFavoriteStore | src/services/storageService.js:276-279 | Removes exactly that key |
| Storage.GetReminders | src/services/storageService.js:282-285 | Lists exactly the stored reminders |
| Storage.AddReminder | src/services/storageService.js:287-293 | Stores the reminder under a fresh key above every existing key |
| Storage.UpdateReminder | src/services/storageService.js:295-301 | Puts the reminder under its id, changing nothing else |
| StorageLemmas.UpdateReminderThenGetReminders | src/services/storageService.js:282-301 | Updating a stored reminder replaces exactly its entry in getReminders, in place |
| StorageLemmas.UpdateNewReminderThenGetReminders | src/services/storageService.js:282-301 | Updating under a key above every stored key appends the reminder to getReminders |
| Storage.DeleteReminder | src/services/storageService.js:303-306 | Removes exactly that key |
| Storage.GetSetting | src/services/storageService.js:309-312 | Finds a setting exactly when its key is stored |
| Storage.SaveSetting | src/services/storageService.js:314-317 | Puts the setting under its id, changing nothing else, and returns that id |
| DefaultInvariant.SeedHasOneDefault | src/services/storageService.js:18-29 | The seed satisfies the one-default invariant |
| DefaultInvariant.AddDefaultListIsSoleDefault | src/services/storageService.js:101-116 | After addList with isDefault the new list is the only default |
| DefaultInvariant.AddPlainListKeepsDefaults | src/services/storageService.js:117-122 | addList without isDefault leaves the set of default lists as it was |
| DefaultInvariant.AddPlainListKeepsOneDefault | src/services/storageService.js:117-122 | addList without isDefault keeps exactly one default when there was one |
| DefaultInvariant.AddPlainListToEmptyBreaksInvariant | src/services/storageService.js:117-122 | addList without isDefault on an empty store leaves one list and no default |
| DefaultInvariant.UpdateDefaultListIsSoleDefault | src/services/storageService.js:129-146 | After updateList with isDefault the updated list is the only default |
| DefaultInvariant.UpdateClearingDefaultBreaksInvariant | src/services/storageService.js:147-152 | updateList clearing the flag of the current default leaves no default |
| DefaultInvariant.DeleteListKeepsOneDefault | src/services/storageService.js:155-191 | A successful deleteList keeps exactly one default |
| DefaultInvariant.DeletingSoleListFails | src/services/storageService.js:161-166 | Deleting the only list, being the default, fails |
| DefaultInvariant.AddItemKeepsOneDefault | src/services/storageService.js:209-222 | addItem keeps one default, and creates it when it files into a new default list |
| DefaultInvariant.ApplyKeepsOneDefault | src/services/storageService.js:98-191 | Any sequence of the invariant-keeping list operations keeps exactly one default |
| StorageLemmas.AddListThenGetLists | src/services/storageService.js:117-122 | getLists after addList is the old listing with the new record appended |
| StorageLemmas.AddReminderThenGetReminders | src/services/storageService.js:287-293 | getReminders after addReminder is the old listing with the new reminder appended |
| StorageLemmas.DeleteReminderThenGetReminders | src/services/storageService.js:303-306 | getReminders after deleteReminder holds exactly the others |
| StorageLemmas.DeleteReminderKeepsOrder | src/services/storageService.js:303-306 | getReminders after deleteReminder is the earlier listing with that id filtered out, the rest in their order |
| StorageLemmas.AddFavoriteThenGetFavorites | src/services/storageService.js:263-274 | getFavoriteStores after addFavoriteStore holds the added store and every earlier store of another id |
| StorageLemmas.DeleteFavoriteThenGetFavorites | src/services/storageService.js:263-279 | getFavoriteStores after deleteFavoriteStore holds exactly the earlier stores of other ids |
| StorageLemmas.SaveThenGetSetting | src/services/storageService.js:309-317 | getSetting after saveSetting reads the saved setting under its id and every other id as before |
| StorageLemmas.DeleteListKeepsOtherItems | src/services/storageService.js:179-187 | After deleteList every other list's items are unchanged and the deleted list has none |
| StorageLemmas.MoveThenGetItems | src/services/storageService.js:244-260 | A moved item is listed under its target and no longer under its old list |
| StorageLemmas.DeleteDefaultOfTwoPromotesOther | src/services/storageService.js:167-176 | Deleting the default of two lists makes the other the default |
| StorageLemmas.GroceriesScenario | src/services/storageService.js:194-229 | An item added with no list goes to the default list and getItems() returns it, incomplete |
| Keys.SortedKeys | src/services/storageService.js:76 | A key set in ascending order: increasing, with the same members and the same size |
| Keys.InKeyOrder | src/services/storageService.js:76 | A store's records in ascending key order |
| Keys.InKeyOrderRemove | src/services/storageService.js:303-306 | Deleting a key removes exactly its record from the key-order listing and keeps the others in order |
| Keys.InKeyOrderAppend | src/services/storageService.js:118-121 | Storing under a key above all others appends the record to the key-order listing |
| Keys.IncreasingUnique | src/services/storageService.js:76 | Two increasing sequences with the same members are equal |
| Keys.LeastOf | src/services/storageService.js:169 | A non-empty key set has a least element |
| Reminders.CheckReminder | src/components/Reminders.jsx:62-81 | A reminder notifies exactly when it is a location reminder with a truthy storeId, its store is found with a location within 0.5, and its item is found and not completed; the title is "Shopping Reminder", the body is the message or the default text, and the tag is reminder-{id} |
| Reminders.OrphanedOrTimedRemindersAreSilent | src/components/Reminders.jsx:63-70 | Time reminders and reminders whose store or item is missing produce nothing |
| Reminders.Evaluate | src/components/Reminders.jsx:60-83 | One position update requests at most one notification per reminder, all titled "Shopping Reminder" |
| Reminders.EvaluateOne | src/components/Reminders.jsx:62-81 | A single reminder requests its notification exactly when it fires, and nothing otherwise |
| Reminders.EvaluateConcat | src/components/Reminders.jsx:62 | Reminders are visited in order: the notifications of two runs of reminders are those of the first, then those of the second |
| Reminders.EvaluateSound | src/components/Reminders.jsx:60-83 | Every requested notification comes from a reminder that fires |
| Reminders.EvaluateComplete | src/components/Reminders.jsx:60-83 | Every reminder that fires has its notification requested |
| Reminders.EvaluateTagsDistinct | src/components/Reminders.jsx:62-75 | Reminders with distinct ids get notifications with distinct tags |
| Reminders.TagInjective | src/components/Reminders.jsx:75 | Distinct reminder ids give distinct tags |
| Reminders.Schedule | src/components/Reminders.jsx:125-139 | A time reminder is scheduled exactly when permission is granted, the item exists and the time is strictly in the future; the body is the message or "Don't forget to buy {name}!" |
| Reminders.HandleAddReminderAsWritten | src/components/Reminders.jsx:109-152 | An incomplete form stores nothing; otherwise the reminder is stored with the form's strings as item and store references, appended to the panel under its new key and the form reset; what is scheduled is the scheduling decision for that stored reminder |
| Reminders.AsWrittenAddSchedulesNothing | src/components/Reminders.jsx:125-137 | As written, adding a reminder never schedules a notification, since the stored item reference is a string |
| Reminders.HandleAddReminder | src/components/Reminders.jsx:109-152 | The corrected handler: the same steps with the form's references read back as numbers; a notification is scheduled exactly when the stored reminder is a time reminder, permission is granted, its item exists and its time is strictly in the future, with the body and tag Schedule fixes |
| Reminders.AddedTimeReminderIsScheduled | src/components/Reminders.jsx:125-137 | With the corrected handler, a time reminder for an existing item due in the future is scheduled at its time, with the message or "Don't forget to buy {name}!" and tag reminder-{id} |
| Reminders.AddKeepsPanelInStep | src/components/Reminders.jsx:119-122 | After adding, the local reminders equal getReminders |
| Reminders.HandleDeleteReminder | src/components/Reminders.jsx:155-162 | Deleting removes exactly that id locally and in the store |
| Reminders.DeleteKeepsPanelInStep | src/components/Reminders.jsx:155-162 | After deleting, the local reminders still equal getReminders, in the same order |
| Reminders.FormReminderAsWrittenNeverResolves | src/components/Reminders.jsx:64-69 | As written, a reminder made from the form never finds its item or store, so it never notifies nor schedules |
| Reminders.FormKeyFindsOfferedItem | src/components/Reminders.jsx:127 | With the form's reference read back as a number, the chosen item is found |
| Reminders.FormReminderFires | src/components/Reminders.jsx:62-70 | With the form's references read back as numbers, a reminder for a nearby store and an open item fires |
| Text.TrimSpec | src/components/ListManager.jsx:14 | A string is blank exactly when every character is white space, and a trimmed string has none at either end |
| Text.Contains | src/components/GroceryGrid.jsx:104 | includes is true exactly when the substring occurs at some index |
| Text.BeforeFirst | src/services/locationService.js:103 | split(',')[0] is the longest comma-free prefix |
| Text.ParseRendered | src/components/Reminders.jsx:196 | Reading back a rendered id as a number gives the id |
| Places.Convert | src/services/locationService.js:101-113 | A raw result becomes a place with id = place_id, address = display_name, name its comma-free prefix, and its distance from the centre |
| Places.Within | src/services/locationService.js:100-114 | A place is kept exactly when some response entry converts to it within the radius; there are no more places than entries |
| Places.WithinOne | src/services/locationService.js:100-114 | One entry yields its converted place when both coordinates parse and it lies within the radius, and nothing otherwise |
| Places.WithinConcat | src/services/locationService.js:100-114 | The filter keeps response order and multiplicity: the places kept from two runs of entries are those of the first, then those of the second |
| Places.SearchNearbyPlaces | src/services/locationService.js:85-120 | A failed fetch gives []; otherwise the result is a permutation of the in-radius mapped results, sorted by ascending distance |
| Places.RadiusIsInclusive | src/services/locationService.js:114 | A place exactly at the radius is kept and one beyond it is dropped |
| Places.NoRadiusMeansFiveKilometres | src/services/locationService.js:85 | Omitting the radius is the same as passing 5 |
| Sorting.Sort | src/services/locationService.js:115 | Sorting yields an ascending permutation of its input |
| Sorting.SortStable | src/services/locationService.js:115 | The sort is stable: the elements of any one key appear in the same order as in the input |
| Places.SearchKeepsResponseOrderAtEqualDistance | src/services/locationService.js:114-115 | Places at the same distance are returned in response order |
| GroceryGrid.FirstOfEachName | src/components/GroceryGrid.jsx:71-80 | Scanning newest first: at most six entries, distinct lower-cased names, each the newest of its name, and a name is missing only when six newer entries filled the strip |
| GroceryGrid.RecentlyUsed | src/components/GroceryGrid.jsx:66-82 | The recently-used strip from the stored items: at most six, distinct names, newest first, each the newest item of its name, a name left out only behind six newer ones |
| GroceryGrid.AddToRecent | src/components/GroceryGrid.jsx:163-165 | After adding, the item is first and is followed by the older entries of other names in their order, cut so the strip holds at most six; no other entry shares its name, and other entries all survive while there is room |
| GroceryGrid.OtherNames | src/components/GroceryGrid.jsx:163-165 | The filter keeps exactly the entries of other names, no more of them than there were, with distinct names kept distinct |
| GroceryGrid.OtherNamesConcat | src/components/GroceryGrid.jsx:163-165 | The filter distributes over concatenation, so the surviving entries keep their order |
| GroceryGrid.OtherNamesOne | src/components/GroceryGrid.jsx:163-165 | A single entry survives exactly when its lower-cased name differs |
| GroceryGrid.OtherNamesShorter | src/components/GroceryGrid.jsx:163-165 | An entry with the new item's name is dropped, so the filtered strip is shorter |
| GroceryGrid.OtherNamesKeepsAll | src/components/GroceryGrid.jsx:163-165 | With no entry of that name the filter keeps the whole strip |
| GroceryGrid.FullStripDropsOldest | src/components/GroceryGrid.jsx:163-165 | Adding a new name to a full strip of six puts it first and drops the oldest entry, keeping the other five in order |
| GroceryGrid.SameNameKeepsOthers | src/components/GroceryGrid.jsx:163-165 | Adding a name already in a strip of at most six replaces that entry: the new item first, then every entry of another name in order |
| GroceryGrid.IconFor | src/components/GroceryGrid.jsx:94-116 | An exact entry gives its picture; else the first key other than default contained in the name; else a hue below 360 |
| GroceryGrid.ExactNameShowsItsPicture | src/components/GroceryGrid.jsx:95-100 | A name whose lower case is a table key shows that key's picture |
| GroceryGrid.GetItemIcon | src/components/GroceryGrid.jsx:94-116 | A generated icon's hue is the hash of the lower-cased name, a degree in [0, 360) |
| GroceryGrid.IconKeysDistinct | src/components/GroceryGrid.jsx:7-43 | The icon table has no repeated key |
| GroceryGrid.IconIgnoresCase | src/components/GroceryGrid.jsx:95 | Names equal up to case get the same icon |
| GroceryGrid.Hue | src/components/GroceryGrid.jsx:110-116 | The hue lies in [0, 360) |
| GroceryGrid.ToInt32 | src/components/GroceryGrid.jsx:113 | The 32-bit wrap of a shift is a signed 32-bit value congruent to its operand |
| GroceryGrid.HandleAddItem | src/components/GroceryGrid.jsx:145-173 | A blank name or no active list adds nothing; otherwise the trimmed, incomplete item of the active list and selected store is stored, appended, and put first in the strip |
| StoreFilter.SelectedStoreId | src/components/GroceryGrid.jsx:153 | An added item is assigned to the selected store's id, or to no store when none is selected or its id is 0 |
| StoreFilter.ShownItems | src/components/GroceryGrid.jsx:195-197 | With a store selected, exactly the items assigned to it and never a new entry; with none, every item as it is |
| StoreFilter.ShownItemsConcat | src/components/GroceryGrid.jsx:195-197 | The store filter distributes over concatenation, so the shown items keep their order |
| StoreFilter.UnassignedHiddenUnderAnyStore | src/components/ShoppingList.jsx:158-160 | Items without a store are hidden whenever a store is selected |
| ListViews.AddKeepsMirror | src/components/ListManager.jsx:17-27 | Adding locally (default exactly when no list is shown) matches getLists after addList, and the store keeps one default |
| ListViews.FlagKeepsMirror | src/components/ListManager.jsx:97-102 | Flagging one shown list locally matches getLists after updateList with the flag, which leaves one default |
| ListViews.Without | src/components/ListManager.jsx:75 | The local lists without an id hold exactly the others |
| ListViews.PromotedBecomesDefault | src/services/storageService.js:167-176 | Deleting the default of several lists makes the promoted list what getDefaultList returns |
| ListViews.KeptHasNoDefault | src/components/ListManager.jsx:75-80 | After dropping the only default locally no shown list is flagged |
| ListManager.HandleAddList | src/components/ListManager.jsx:12-35 | A blank name adds nothing; otherwise the trimmed list is stored, default exactly when no list is shown, appended with its key and made active |
| ListManager.AddListKeepsMirror | src/components/ListManager.jsx:12-35 | Adding keeps the shown lists equal to getLists and one default |
| ListManager.HandleEditList | src/components/ListManager.jsx:38-62 | With a list being edited and a non-blank name, the renamed list is stored and replaces the local entries of its id |
| ListManager.EditRenamesLocally | src/components/ListManager.jsx:43-51 | Editing a shown list changes only that list's name locally |
| ListManager.EditRenamesInStore | src/components/ListManager.jsx:43-48 | Editing a shown list keeps the keys and changes only that list's name in the store |
| ListManager.Reselect | src/components/ListManager.jsx:79-82 | The replacement is a remaining default list if there is one, otherwise the first remaining list |
| ListManager.HandleDeleteList | src/components/ListManager.jsx:65-87 | A falsy id or a refusal does nothing; a store error leaves everything and is alerted; otherwise exactly that id is dropped and, if active, another list is selected |
| ListManager.DeleteActiveDefaultFollowsPromotion | src/components/ListManager.jsx:74-82 | Deleting the active default of several lists selects exactly the list the store made default |
| ListManager.HandleSetDefault | src/components/ListManager.jsx:90-108 | A falsy or unknown id does nothing; otherwise the list is stored as default and locally it alone is flagged |
| ListManager.SetDefaultKeepsMirror | src/components/ListManager.jsx:90-108 | Setting a default keeps the shown lists equal to getLists, with the chosen list the only default |
| ShoppingLists.Load | src/components/ShoppingLists.jsx:13-35 | Loading shows getLists; with no active list the first default list is selected when there is one |
| ShoppingLists.LoadSelectsTheDefault | src/components/ShoppingLists.jsx:20-24 | With exactly one default and nothing active, loading selects it and shows it |
| ShoppingLists.HandleCreateList | src/components/ShoppingLists.jsx:38-69 | A blank name creates nothing; otherwise the trimmed list is stored, default exactly when none is shown, appended and selected |
| ShoppingLists.CreateKeepsMirror | src/components/ShoppingLists.jsx:38-69 | Creating keeps the shown lists equal to getLists and one default |
| ShoppingLists.CreateMatchesManager | src/components/ShoppingLists.jsx:45-59 | The picker and the list manager create lists identically |
| ShoppingLists.HandleSetDefault | src/components/ShoppingLists.jsx:72-87 | A list already flagged is left alone; otherwise it is stored as default and locally it alone is flagged, names and ids unchanged |
| ShoppingLists.SetDefaultKeepsMirror | src/components/ShoppingLists.jsx:72-87 | Setting a default keeps the shown lists equal to getLists, with the chosen list the only default |
| ShoppingLists.DeleteGuardMatchesStore | src/components/ShoppingLists.jsx:159 | With one default, deleting a shown list fails in the store exactly when the delete button is disabled |
| ShoppingLists.HandleDeleteListAsWritten | src/components/ShoppingLists.jsx:90-118 | A refusal does nothing; a store error shows the banner; otherwise exactly that id is dropped and the replacement is sought among the stale local flags |
| ShoppingLists.AsWrittenKeepsDeletedSelection | src/components/ShoppingLists.jsx:103-108 | Deleting the active default of several lists leaves the deleted id selected |
| ShoppingLists.StaleSelectionExample | src/components/ShoppingLists.jsx:103-108 | With lists 1 (default, active) and 2, deleting 1 leaves 1 selected after it is gone |
| ShoppingLists.HandleDeleteList | src/components/ShoppingLists.jsx:90-118 | As above, with the replacement read from the store after the delete |
| ShoppingLists.DeleteActiveSelectsLiveDefault | src/components/ShoppingLists.jsx:102-108 | With one default, deleting the active list selects a list the store still holds and that is its default |
| ShoppingList.ShowsIsItemsOfList | src/components/ShoppingList.jsx:24-25 | The view invariant is membership in getItems of the active list |
| ShoppingList.LoadItems | src/components/ShoppingList.jsx:17-40 | With a truthy active list the view shows exactly its stored items; otherwise nothing changes |
| ShoppingList.HandleAddItem | src/components/ShoppingList.jsx:59-77 | A blank name or no active list adds nothing; otherwise the trimmed, incomplete item of the active list and selected store is stored and appended |
| ShoppingList.AddKeepsShows | src/components/ShoppingList.jsx:59-77 | Adding keeps the view equal to the active list's stored items |
| ShoppingList.HandleToggleComplete | src/components/ShoppingList.jsx:80-88 | The item is stored with completed flipped; only entries of its id change, locally and in the store |
| ShoppingList.ToggleKeepsShows | src/components/ShoppingList.jsx:80-88 | Toggling keeps the view equal to the active list's stored items |
| ShoppingList.ToggleTwiceRestores | src/components/ShoppingList.jsx:80-88 | Toggling a shown item twice restores both the store and the view |
| ShoppingList.HandleDeleteItem | src/components/ShoppingList.jsx:91-98 | Exactly that key is deleted and exactly the entries of that id dropped |
| ShoppingList.DeleteKeepsShows | src/components/ShoppingList.jsx:91-98 | Deleting keeps the view equal to the active list's stored items |
| ShoppingList.HandleAssignToStore | src/components/ShoppingList.jsx:101-111 | Without a selected store nothing changes; otherwise only that item's storeId is set, locally and in the store |
| ShoppingList.AssignKeepsShows | src/components/ShoppingList.jsx:101-111 | Assigning keeps the view in step, and the item is then shown under that store |
| ShoppingList.MoveTargets | src/components/ShoppingList.jsx:246-247 | The dialog offers exactly the lists other than the active one |
| ShoppingList.HandleMoveItem | src/components/ShoppingList.jsx:114-128 | A falsy item or target does nothing; otherwise the item is moved in the store and exactly its entries leave the view |
| ShoppingList.MoveKeepsShows | src/components/ShoppingList.jsx:114-128 | Moving to an offered list keeps the view in step, and the item is then listed under the target |
| ShoppingList.HandleListDelete | src/components/ShoppingList.jsx:143-149 | Deleting the active list empties the view; any other list leaves it alone |
| ShoppingList.ListDeleteKeepsShows | src/components/ShoppingList.jsx:143-149 | After the store deletes any list the view is still in step |

## Left out

- The idb plumbing (`openDB`, transactions, `tx.done`) is left out. Each exported operation is one atomic transition, and the only throw modelled is the only-list guard of `deleteList`.
- The `isDefault` index lookups are modelled as a filter on `isDefault == true`. Booleans are not valid keys under the W3C Indexed Database API, so a real browser's index lookups behave differently.
- Storage.DeleteList: the code refuses only to delete the sole list when that list is the default. A non-default sole list can exist only once the invariant is already broken, and deleting it succeeds. The model follows the code.
- Timestamps (`createdAt` of lists and reminders, `updatedAt`, `addedAt`) are not modelled. An item's `createdAt` is a `now: int` parameter, since the recently-used strip orders by it.
- ShoppingList.HandleAddItem: the local copy carries the stored `createdAt`. The component's copy has none, and the view never reads it.
- The haversine `calculateDistance` is left out; distance is a parameter `dist: (Position, Position) -> real`. `parseFloat` is an `Option<real>`, where `None` stands for NaN, so such a result is never within the radius.
- The fetch URL and `response.json()` parsing are left out; the response is an input.
- GroceryGrid.GetItemIcon: its own contract states only the hue of a generated icon. The table semantics are stated on `GroceryGrid.IconFor` and `GroceryGrid.ExactNameShowsItsPicture`.
- The SVG data URL and its capital letter are left out. The icon is either a picture path or a generated hue.
- The hue hash computes with exact integers and wraps `hash << 5` to 32 bits. This agrees with JavaScript while the intermediate sum stays below 2^53. `charCodeAt` is taken as the Dafny `char` value, not UTF-16 units.
- `toLowerCase` is ASCII lower-casing.
- A JavaScript object lookup also sees prototype keys such as `constructor`; the table lookup does not model that.
- Reminders.Schedule: `nowMs` and `timeMs` are parameters standing for `Date.now()` and `new Date(addedReminder.time).getTime()` (Reminders.jsx:126,129). Date parsing is left out, so nothing relates `timeMs` to the stored `time` string.
- Notifications, `setTimeout` and the geolocation watch lifecycle are left out. Notifications are emitted `(title, body, tag)` values. The stale React closure over `reminders` is left out; evaluation takes its sequences as arguments.
- Error banners and console logging for I/O failures are left out; only store errors the model can produce are shown.
- `handleAddRecentItem` of the grocery grid is left out. It is the add path without the strip update.
- The grid's toggle handler is left out. It is the same as `ShoppingList.HandleToggleComplete`.
- The start-up in `App.jsx` is left out. So are `StoreLocator.jsx`, `Header.jsx`, `CreateListButton.jsx`, `sw.js`, `app.js` and the tests, which target a different `app.js` than the one shown.
- React effects, renders and the move dialog's open/close state are left out.

## Findings

| source | as written | input that shows it | evidently intended | confidence | as-written member | corrected member |
|---|---|---|---|---|---|---|
| src/components/Reminders.jsx:118-127 | The form stores the `<select>` value, a string, as `itemId` and `storeId`, and the handler stores it unchanged. The scheduling lookup compares it with the numeric item ids using `===`, so nothing is found and nothing is scheduled; the location lookups at lines 64 and 69 fail the same way (`Reminders.FormReminderAsWrittenNeverResolves`). | Item 3 and store 7 chosen in the form: the reminder holds "3" and "7", and `3 === "3"` is false. | The chosen item and store are found, so the reminder notifies near the store and the time reminder is scheduled. | not executed | Reminders.AsWrittenAddSchedulesNothing | Reminders.AddedTimeReminderIsScheduled |
| src/components/ShoppingLists.jsx:103-107 | After deleting the active default list, the replacement is sought among the remaining local lists. Their `isDefault` flags predate the store's promotion, so none is flagged and the deleted id stays selected. | Lists 1 (default, active) and 2: deleting list 1 promotes list 2 in the store, but the selection stays on 1. | The list the store now holds as default is selected. | not executed | ShoppingLists.StaleSelectionExample | ShoppingLists.DeleteActiveSelectsLiveDefault |

=== FILE: default_list.dfy ===
/** The "exactly one list has `isDefault`" invariant. The store does not enforce
    it unconditionally; these lemmas say which list operations keep it and which
    two break it. */
module DefaultInvariant {
  import opened Wrappers
  import opened Keys
  import opened Records
  import opened Storage

  lemma SingletonDefault(lists: map<Id, ShoppingList>) returns (d: Id)
    requires OneDefault(lists)
    ensures DefaultIds(lists) == {d}
  {
    var ds := DefaultIds(lists);
    d :| d in ds;
    assert |ds - {d}| == 0;
  }

  /** The seeded database starts with exactly one default list. */
  lemma SeedHasOneDefault()
    ensures OneDefault(Seed().lists)
  {
  }

  /** `addList` with `isDefault` true leaves the new list as the only default. */
  lemma AddDefaultListIsSoleDefault(db: Db, name: string)
    ensures var r := AddList(db, name, true); DefaultIds(r.db.lists) == {r.key}
  {
    var r := AddList(db, name, true);
    assert r.key in DefaultIds(r.db.lists);
  }

  /** `addList` with `isDefault` false keeps the default flags as they were. */
  lemma AddPlainListKeepsDefaults(db: Db, name: string)
    ensures DefaultIds(AddList(db, name, false).db.lists) == DefaultIds(db.lists)
  {
    var r := AddList(db, name, false);
    assert forall k :: k in DefaultIds(db.lists) ==> k in DefaultIds(r.db.lists);
  }

  /** ...so it keeps the invariant once some list exists with it. */
  lemma AddPlainListKeepsOneDefault(db: Db, name: string)
    requires OneDefault(db.lists)
    ensures OneDefault(AddList(db, name, false).db.lists)
  {
    AddPlainListKeepsDefaults(db, name);
  }

  /** ...but on an empty store it yields one list and no default list:
      nothing is promoted on add. */
  lemma AddPlainListToEmptyBreaksInvariant(db: Db, name: string)
    requires db.lists == map[]
    ensures var lists := AddList(db, name, false).db.lists;
      |lists| == 1 && DefaultIds(lists) == {} && !OneDefault(lists)
  {
    AddPlainListKeepsDefaults(db, name);
    var r := AddList(db, name, false);
    assert r.db.lists.Keys == {r.key};
  }

  /** `updateList` with `isDefault` true leaves the updated list as the only default. */
  lemma UpdateDefaultListIsSoleDefault(db: Db, list: ShoppingList)
    requires list.isDefault
    ensures DefaultIds(UpdateList(db, list).db.lists) == {list.id}
  {
    var r := UpdateList(db, list);
    assert list.id in DefaultIds(r.db.lists);
  }

  /** `updateList` with `isDefault` false on the current default list leaves
      lists but no default list. */
  lemma UpdateClearingDefaultBreaksInvariant(db: Db, list: ShoppingList)
    requires OneDefault(db.lists)
    requires list.id in DefaultIds(db.lists) && !list.isDefault
    ensures var lists := UpdateList(db, list).db.lists;
      lists != map[] && DefaultIds(lists) == {} && !OneDefault(lists)
  {
    var d := SingletonDefault(db.lists);
    var r := UpdateList(db, list);
    forall k | k in r.db.lists
      ensures !r.db.lists[k].isDefault
    {
      if k != list.id {
        assert k !in DefaultIds(db.lists);
      }
    }
    assert list.id in r.db.lists;
  }

  /** A successful `deleteList` keeps the invariant: deleting the default list
      promotes exactly one other list, deleting another list keeps the default. */
  lemma DeleteListKeepsOneDefault(db: Db, id: Id)
    requires OneDefault(db.lists)
    requires DeleteList(db, id).Ok?
    ensures OneDefault(DeleteList(db, id).value.lists)
  {
    var d := SingletonDefault(db.lists);
    var r := DeleteList(db, id).value;
    match Promoted(db.lists, id)
    case Some(p) =>
      assert id in DefaultIds(db.lists);
      forall k | k in r.lists
        ensures r.lists[k].isDefault <==> k == p
      {
        if k != p {
          assert k !in DefaultIds(db.lists);
        }
      }
      assert DefaultIds(r.lists) == {p};
    case None =>
      assert d in DefaultIds(db.lists);
      assert DefaultIds(r.lists) == {d};
  }

  /** With the invariant holding, the only list cannot be deleted. */
  lemma DeletingSoleListFails(db: Db, id: Id)
    requires OneDefault(db.lists)
    requires db.lists.Keys == {id}
    ensures DeleteList(db, id) == Err(OnlyListError)
  {
    var d := SingletonDefault(db.lists);
    assert d in db.lists.Keys;
  }

  /** `addItem` keeps the invariant, and restores it when no list is default and
      the item names no list: the store then creates a default list. */
  lemma AddItemKeepsOneDefault(db: Db, draft: ItemDraft, now: int)
    requires OneDefault(db.lists) || (DefaultIds(db.lists) == {} && !IsTruthy(draft.listId))
    ensures OneDefault(AddItem(db, draft, now).db.lists)
  {
    var target := ResolveList(db, draft.listId);
    if !IsTruthy(draft.listId) && GetDefaultList(db).None? {
      AddDefaultListIsSoleDefault(db, DefaultListName);
    }
  }

  /** The list operations that keep the invariant. */
  datatype ListOp =
    | AddDefaultList(name: string)
    | AddPlainList(name: string)
    | MakeDefault(list: ShoppingList)
    | Delete(id: Id)

  /** Applies the operations in order; an operation that throws has no effect. */
  function Apply(db: Db, ops: seq<ListOp>): Db
    decreases |ops|
  {
    if ops == [] then db
    else
      var next := match ops[0]
        case AddDefaultList(name) => AddList(db, name, true).db
        case AddPlainList(name) => AddList(db, name, false).db
        case MakeDefault(list) => UpdateList(db, list.(isDefault := true)).db
        case Delete(id) => match DeleteList(db, id)
          case Ok(d) => d
          case Err(_) => db;
      Apply(next, ops[1..])
  }

  /** From a store satisfying the invariant (the seeded one, say), every sequence
      of default adds, plain adds, set-defaults and deletes keeps exactly one
      default list. */
  lemma {:induction false} ApplyKeepsOneDefault(db: Db, ops: seq<ListOp>)
    requires OneDefault(db.lists)
    ensures OneDefault(Apply(db, ops).lists)
    decreases |ops|
  {
    if ops != [] {
      var next := match ops[0]
        case AddDefaultList(name) => AddList(db, name, true).db
        case AddPlainList(name) => AddList(db, name, false).db
        case MakeDefault(list) => UpdateList(db, list.(isDefault := true)).db
        case Delete(id) => match DeleteList(db, id)
          case Ok(d) => d
          case Err(_) => db;
      match ops[0] {
        case AddDefaultList(name) => AddDefaultListIsSoleDefault(db, name);
        case AddPlainList(name) => AddPlainListKeepsOneDefault(db, name);
        case MakeDefault(list) => UpdateDefaultListIsSoleDefault(db, list.(isDefault := true));
        case Delete(id) =>
          if DeleteList(db, id).Ok? {
            DeleteListKeepsOneDefault(db, id);
          }
      }
      assert Apply(db, ops) == Apply(next, ops[1..]);
      ApplyKeepsOneDefault(next, ops[1..]);
    }
  }
}

=== FILE: grocery_grid.dfy ===
/** The grocery grid (`GroceryGrid.jsx`): the recently-used strip, the icon
    lookup with its generated fallback colour, and adding an item. */
module GroceryGrid {
  import opened Wrappers
  import opened Keys
  import opened Records
  import opened Text
  import opened Sorting
  import Seqs
  import Storage
  import StoreFilter

  // ---------------------------------------------------------------- recently used

  /** The most entries the recently-used strip holds. */
  const RecentLimit: nat := 6

  /** Recently-used entries are unique by lower-cased name. */
  function NameKey(x: Item): string {
    Lower(x.name)
  }

  /** The sort key of `(a, b) => b.createdAt - a.createdAt`: newest first. */
  function NewestFirst(x: Item): real {
    -(x.createdAt as real)
  }

  predicate NamesDistinct(s: seq<Item>) {
    forall i, j :: 0 <= i < j < |s| ==> NameKey(s[i]) != NameKey(s[j])
  }

  predicate Newest(s: seq<Item>) {
    forall i, j :: 0 <= i < j < |s| ==> s[i].createdAt >= s[j].createdAt
  }

  /** The lower-cased names a strip holds: the `uniqueNames` set. */
  function Names(s: seq<Item>): (r: set<string>)
  {
    set i | 0 <= i < |s| :: NameKey(s[i])
  }

  lemma NamesAppend(s: seq<Item>, x: Item)
    ensures Names(s + [x]) == Names(s) + {NameKey(x)}
  {
    var t := s + [x];
    forall n
      ensures n in Names(t) <==> n in Names(s) + {NameKey(x)}
    {
      if n in Names(t) {
        var i :| 0 <= i < |t| && NameKey(t[i]) == n;
        if i < |s| {
          assert t[i] == s[i];
        }
      }
      if n in Names(s) {
        var i :| 0 <= i < |s| && NameKey(s[i]) == n;
        assert t[i] == s[i];
      }
      assert t[|s|] == x;
    }
  }

  /** Sorting by `NewestFirst` orders by `createdAt`, newest first. */
  lemma SortedIsNewest(sorted: seq<Item>)
    requires SortedOn(sorted, NewestFirst)
    ensures Newest(sorted)
  {
    forall i, j | 0 <= i < j < |sorted|
      ensures sorted[i].createdAt >= sorted[j].createdAt
    {
      assert NewestFirst(sorted[i]) <= NewestFirst(sorted[j]);
    }
  }

  /** What the loop of lines 74-80 knows after scanning `sorted[..k]`. */
  predicate Scanned(sorted: seq<Item>, recent: seq<Item>, k: int) {
    && 0 <= k <= |sorted|
    && NamesDistinct(recent)
    && Newest(recent)
    && (forall i :: 0 <= i < |recent| ==> recent[i] in sorted[..k])
    && (forall j :: 0 <= j < k ==> NameKey(sorted[j]) in Names(recent))
    && (forall i, j :: 0 <= i < |recent| && k <= j < |sorted| ==> sorted[j].createdAt <= recent[i].createdAt)
    && (forall i, j :: 0 <= i < |recent| && 0 <= j < k && NameKey(sorted[j]) == NameKey(recent[i]) ==>
          sorted[j].createdAt <= recent[i].createdAt)
  }

  /** Taking an item whose name is new keeps the scan's facts. */
  lemma TakeKeepsScanned(sorted: seq<Item>, recent: seq<Item>, k: int)
    requires Newest(sorted) && Scanned(sorted, recent, k) && k < |sorted|
    requires NameKey(sorted[k]) !in Names(recent)
    ensures Scanned(sorted, recent + [sorted[k]], k + 1)
  {
    NamesAppend(recent, sorted[k]);
    TakeKeepsOrder(sorted, recent, k);
    TakeKeepsMembers(sorted, recent, k);
    TakeKeepsBounds(sorted, recent, k);
  }

  /** The strip stays distinct by name and newest first. */
  lemma TakeKeepsOrder(sorted: seq<Item>, recent: seq<Item>, k: int)
    requires Scanned(sorted, recent, k) && k < |sorted|
    requires NameKey(sorted[k]) !in Names(recent)
    ensures NamesDistinct(recent + [sorted[k]]) && Newest(recent + [sorted[k]])
  {
    var r := recent + [sorted[k]];
    forall i, j | 0 <= i < j < |r|
      ensures NameKey(r[i]) != NameKey(r[j]) && r[i].createdAt >= r[j].createdAt
    {
      assert r[i] == recent[i];
      if j == |recent| {
        assert NameKey(recent[i]) in Names(recent);
      }
    }
  }

  /** The strip holds only scanned items and covers every scanned name. */
  lemma TakeKeepsMembers(sorted: seq<Item>, recent: seq<Item>, k: int)
    requires Scanned(sorted, recent, k) && k < |sorted|
    requires Names(recent + [sorted[k]]) == Names(recent) + {NameKey(sorted[k])}
    ensures forall i :: 0 <= i < |recent| + 1 ==> (recent + [sorted[k]])[i] in sorted[..k + 1]
    ensures forall j :: 0 <= j < k + 1 ==> NameKey(sorted[j]) in Names(recent + [sorted[k]])
  {
    assert sorted[..k + 1] == sorted[..k] + [sorted[k]];
  }

  /** No unscanned item is newer than a strip entry, and no scanned item is newer
      than the entry with its name. */
  lemma TakeKeepsBounds(sorted: seq<Item>, recent: seq<Item>, k: int)
    requires Newest(sorted) && Scanned(sorted, recent, k) && k < |sorted|
    requires NameKey(sorted[k]) !in Names(recent)
    ensures var r := recent + [sorted[k]];
      forall i, j :: 0 <= i < |r| && k + 1 <= j < |sorted| ==> sorted[j].createdAt <= r[i].createdAt
    ensures var r := recent + [sorted[k]];
      forall i, j :: 0 <= i < |r| && 0 <= j < k + 1 && NameKey(sorted[j]) == NameKey(r[i]) ==>
        sorted[j].createdAt <= r[i].createdAt
  {
    var r := recent + [sorted[k]];
    forall i, j | 0 <= i < |r| && 0 <= j < k + 1 && NameKey(sorted[j]) == NameKey(r[i])
      ensures sorted[j].createdAt <= r[i].createdAt
    {
      if i < |recent| {
        assert r[i] == recent[i];
        assert NameKey(recent[i]) in Names(recent);
      }
    }
  }

  /** Skipping an item whose name was already taken keeps the scan's facts. */
  lemma SkipKeepsScanned(sorted: seq<Item>, recent: seq<Item>, k: int)
    requires Newest(sorted) && Scanned(sorted, recent, k) && k < |sorted|
    requires NameKey(sorted[k]) in Names(recent)
    ensures Scanned(sorted, recent, k + 1)
  {
    assert sorted[..k + 1] == sorted[..k] + [sorted[k]];
  }

  /** What the strip promises about the items it was built from: distinct
      names, newest first, drawn from the items, each entry the newest of its
      name, and a name is missing only when six entries, all at least as new
      as it, filled the strip. */
  predicate RecentStrip(sorted: seq<Item>, recent: seq<Item>) {
    && |recent| <= RecentLimit
    && NamesDistinct(recent)
    && Newest(recent)
    && (forall i :: 0 <= i < |recent| ==> recent[i] in sorted)
    && (forall i, j :: 0 <= i < |recent| && 0 <= j < |sorted| && NameKey(sorted[j]) == NameKey(recent[i]) ==>
          sorted[j].createdAt <= recent[i].createdAt)
    && (forall j :: 0 <= j < |sorted| && NameKey(sorted[j]) !in Names(recent) ==>
          |recent| == RecentLimit && sorted[j].createdAt <= recent[RecentLimit - 1].createdAt)
  }

  /** When the scan stops, at the end of the items or with six entries, its
      facts give the strip's guarantees. */
  lemma ScanFinished(sorted: seq<Item>, recent: seq<Item>, k: int)
    requires Scanned(sorted, recent, k) && |recent| <= RecentLimit
    requires k == |sorted| || |recent| == RecentLimit
    ensures RecentStrip(sorted, recent)
  {
    assert forall y :: y in sorted[..k] ==> y in sorted;
  }

  /** The loop of lines 74-80 over items already ordered newest first: the
      first item of each lower-cased name, stopping at six. */
  method FirstOfEachName(sorted: seq<Item>) returns (recent: seq<Item>)
    requires Newest(sorted)
    ensures RecentStrip(sorted, recent)
  {
    recent := [];
    var seen: set<string> := {};
    var k := 0;
    while k < |sorted| && |recent| < RecentLimit
      invariant |recent| <= RecentLimit
      invariant seen == Names(recent)
      invariant Scanned(sorted, recent, k)
    {
      if NameKey(sorted[k]) !in seen {
        TakeKeepsScanned(sorted, recent, k);
        NamesAppend(recent, sorted[k]);
        seen := seen + {NameKey(sorted[k])};
        recent := recent + [sorted[k]];
      } else {
        SkipKeepsScanned(sorted, recent, k);
      }
      k := k + 1;
    }
    ScanFinished(sorted, recent, k);
  }

  /** The strip computed when the list's items load (lines 66-82): the items,
      newest first, keeping the first of each lower-cased name, stopping at six.
      Each entry is the newest item of its name, and any name left out is no
      newer than the sixth entry. */
  method RecentlyUsed(stored: seq<Item>) returns (recent: seq<Item>)
    ensures |recent| <= RecentLimit
    ensures NamesDistinct(recent)
    ensures Newest(recent)
    ensures forall i :: 0 <= i < |recent| ==> recent[i] in stored
    ensures forall i, x :: 0 <= i < |recent| && x in stored && NameKey(x) == NameKey(recent[i]) ==>
      x.createdAt <= recent[i].createdAt
    ensures forall x :: x in stored && NameKey(x) !in Names(recent) ==>
      |recent| == RecentLimit && x.createdAt <= recent[RecentLimit - 1].createdAt
  {
    var sorted := Sort(stored, NewestFirst);
    SortedIsNewest(sorted);
    recent := FirstOfEachName(sorted);
    forall x | x in stored
      ensures exists j :: 0 <= j < |sorted| && sorted[j] == x
    {
      assert x in multiset(sorted);
    }
    forall y | y in sorted
      ensures y in stored
    {
      assert y in multiset(sorted);
    }
  }

  /** `recent.filter(x => x.name.toLowerCase() !== name)`. Its order is fixed by
      `OtherNamesConcat` and `OtherNamesOne`. */
  function OtherNames(recent: seq<Item>, name: string): (r: seq<Item>)
    ensures |r| <= |recent|
    ensures forall x :: x in r <==> x in recent && NameKey(x) != name
    ensures NamesDistinct(recent) ==> NamesDistinct(r)
  {
    if recent == [] then []
    else
      var rest := OtherNames(recent[1..], name);
      assert recent == [recent[0]] + recent[1..];
      assert NamesDistinct(recent) ==>
        (NamesDistinct(recent[1..]) && forall x :: x in recent[1..] ==> NameKey(x) != NameKey(recent[0]));
      if NameKey(recent[0]) != name then [recent[0]] + rest else rest
  }

  /** Dropping an entry of that name shortens the strip. */
  lemma {:induction false} OtherNamesShorter(recent: seq<Item>, name: string, j: nat)
    requires j < |recent| && NameKey(recent[j]) == name
    ensures |OtherNames(recent, name)| < |recent|
  {
    if j > 0 {
      OtherNamesShorter(recent[1..], name, j - 1);
    }
  }

  /** With no entry of that name, the filter keeps the whole strip. */
  lemma {:induction false} OtherNamesKeepsAll(recent: seq<Item>, name: string)
    requires forall x :: x in recent ==> NameKey(x) != name
    ensures OtherNames(recent, name) == recent
  {
    if recent != [] {
      assert recent[0] in recent;
      OtherNamesKeepsAll(recent[1..], name);
      assert recent == [recent[0]] + recent[1..];
    }
  }

  /** A single entry survives the filter exactly when its name differs. */
  lemma OtherNamesOne(x: Item, name: string)
    ensures OtherNames([x], name) == if NameKey(x) != name then [x] else []
  {
    assert [x][1..] == [];
  }

  /** The filter distributes over concatenation: the survivors keep their order. */
  lemma {:induction false} OtherNamesConcat(a: seq<Item>, b: seq<Item>, name: string)
    ensures OtherNames(a + b, name) == OtherNames(a, name) + OtherNames(b, name)
  {
    if a == [] {
      assert a + b == b;
    } else {
      var head := if NameKey(a[0]) != name then [a[0]] else [];
      assert (a + b)[1..] == a[1..] + b;
      assert OtherNames(a + b, name) == head + OtherNames(a[1..] + b, name);
      assert OtherNames(a, name) == head + OtherNames(a[1..], name);
      OtherNamesConcat(a[1..], b, name);
      Seqs.ConcatAssoc(head, OtherNames(a[1..], name), OtherNames(b, name));
    }
  }

  /** The strip after adding `item` (lines 163-165): the new item first, then the
      older entries of other names in their order, cut to six, so that a full
      strip loses its oldest entries. */
  function AddToRecent(recent: seq<Item>, item: Item): (r: seq<Item>)
    ensures 1 <= |r| <= RecentLimit && r[0] == item
    ensures forall i :: 1 <= i < |r| ==> NameKey(r[i]) != NameKey(item) && r[i] in recent
    ensures NamesDistinct(recent) ==> NamesDistinct(r)
    ensures |recent| < RecentLimit ==>
      forall x :: x in recent && NameKey(x) != NameKey(item) ==> x in r
    ensures var others := OtherNames(recent, NameKey(item));
      |r| == (if |others| < RecentLimit then 1 + |others| else RecentLimit)
      && forall i :: 1 <= i < |r| ==> r[i] == others[i - 1]
  {
    var others := OtherNames(recent, NameKey(item));
    var n := if |others| < RecentLimit then |others| else RecentLimit - 1;
    LeadFacts(recent, item, others, n);
    [item] + others[..n]
  }

  /** The facts `AddToRecent` states, for any `others` holding exactly the
      entries of other names. */
  lemma LeadFacts(recent: seq<Item>, item: Item, others: seq<Item>, n: nat)
    requires |others| <= |recent| && n <= |others| && n < RecentLimit
    requires forall x :: x in others <==> x in recent && NameKey(x) != NameKey(item)
    requires NamesDistinct(recent) ==> NamesDistinct(others)
    requires n == |others| || n == RecentLimit - 1
    ensures var r := [item] + others[..n];
      && (forall i :: 1 <= i < |r| ==> NameKey(r[i]) != NameKey(item) && r[i] in recent)
      && (NamesDistinct(recent) ==> NamesDistinct(r))
      && (|recent| < RecentLimit ==> forall x :: x in recent && NameKey(x) != NameKey(item) ==> x in r)
      && forall i :: 1 <= i < |r| ==> r[i] == others[i - 1]
  {
    var r := [item] + others[..n];
    assert forall i :: 1 <= i < |r| ==> r[i] == others[i - 1] && others[i - 1] in others;
    if NamesDistinct(recent) {
      LeadDistinct(item, others, n);
    }
    if |recent| < RecentLimit {
      assert others[..n] == others;
      forall x | x in recent && NameKey(x) != NameKey(item)
        ensures x in r
      {
        assert x in others;
      }
    }
  }

  /** The new item followed by entries of other, distinct names has distinct names. */
  lemma LeadDistinct(item: Item, others: seq<Item>, n: nat)
    requires n <= |others| && NamesDistinct(others)
    requires forall x :: x in others ==> NameKey(x) != NameKey(item)
    ensures NamesDistinct([item] + others[..n])
  {
    var r := [item] + others[..n];
    forall i, j | 0 <= i < j < |r|
      ensures NameKey(r[i]) != NameKey(r[j])
    {
      assert r[j] == others[j - 1] && others[j - 1] in others;
      if i > 0 {
        assert r[i] == others[i - 1];
      }
    }
  }

  /** A full strip without the new item's name drops its oldest entry. */
  lemma FullStripDropsOldest(recent: seq<Item>, item: Item)
    requires |recent| == RecentLimit
    requires forall x :: x in recent ==> NameKey(x) != NameKey(item)
    ensures AddToRecent(recent, item) == [item] + recent[..RecentLimit - 1]
  {
    var r := AddToRecent(recent, item);
    OtherNamesKeepsAll(recent, NameKey(item));
    assert |r| == RecentLimit;
  }

  /** A strip of at most six holding an entry of the new item's name keeps every
      entry of another name, in order, after the new item. */
  lemma SameNameKeepsOthers(recent: seq<Item>, item: Item)
    requires |recent| <= RecentLimit
    requires exists j :: 0 <= j < |recent| && NameKey(recent[j]) == NameKey(item)
    ensures AddToRecent(recent, item) == [item] + OtherNames(recent, NameKey(item))
  {
    var j :| 0 <= j < |recent| && NameKey(recent[j]) == NameKey(item);
    OtherNamesShorter(recent, NameKey(item), j);
    LeadWhole(AddToRecent(recent, item), item, OtherNames(recent, NameKey(item)));
  }

  /** A sequence that is `item` followed by all of `others` equals their concatenation. */
  lemma LeadWhole(r: seq<Item>, item: Item, others: seq<Item>)
    requires |r| == 1 + |others| && r[0] == item
    requires forall i :: 1 <= i < |r| ==> r[i] == others[i - 1]
    ensures r == [item] + others
  {
  }

  // ---------------------------------------------------------------- icons

  /** `groceryIcons`, in declaration order: name → picture path. */
  const IconTable: seq<(string, string)> := [
    ("avocado", "/icons/avocado.svg"),
    ("bananas", "/icons/bananas.svg"),
    ("cabbage", "/icons/cabbage.svg"),
    ("carrots", "/icons/carrots.svg"),
    ("cucumber", "/icons/cucumber.svg"),
    ("cheese", "/icons/cheese.svg"),
    ("cottage cheese", "/icons/cottage-cheese.svg"),
    ("eggs", "/icons/eggs.svg"),
    ("milk", "/icons/milk.svg"),
    ("bread", "/icons/bread.svg"),
    ("apples", "/icons/apples.svg"),
    ("chicken", "/icons/chicken.svg"),
    ("beef", "/icons/beef.svg"),
    ("fish", "/icons/fish.svg"),
    ("rice", "/icons/rice.svg"),
    ("pasta", "/icons/pasta.svg"),
    ("cereal", "/icons/cereal.svg"),
    ("yogurt", "/icons/yogurt.svg"),
    ("butter", "/icons/butter.svg"),
    ("tomatoes", "/icons/tomatoes.svg"),
    ("potatoes", "/icons/potatoes.svg"),
    ("onions", "/icons/onions.svg"),
    ("garlic", "/icons/garlic.svg"),
    ("laundry soap", "/icons/laundry-soap.svg"),
    ("dish soap", "/icons/dish-soap.svg"),
    ("dishwasher tabs", "/icons/dishwasher-tabs.svg"),
    ("toilet paper", "/icons/toilet-paper.svg"),
    ("wipes", "/icons/wipes.svg"),
    ("paper towels", "/icons/paper-towels.svg"),
    ("shampoo", "/icons/shampoo.svg"),
    ("toothpaste", "/icons/toothpaste.svg"),
    ("trash bags", "/icons/trash-bags.svg"),
    ("coffee", "/icons/coffee.svg"),
    ("default", "/icons/grocery.svg")
  ]

  const DefaultKey: string := "default"

  /** A picture from the table, or a generated circle of hue `hue`. */
  datatype Icon = Picture(path: string) | Generated(hue: nat)

  /** No two table entries share a name. */
  lemma IconKeysDistinct()
    ensures KeysDistinct(IconTable)
  {
    RowsDistinctA();
    RowsDistinctB();
    RowsDistinctC();
    RowsDistinctD();
    RowsDistinctE();
  }

  /** Rows 0-4 against every later row. */
  lemma RowsDistinctA()
    ensures forall i, j :: 0 <= i < 5 && i < j < |IconTable| ==> IconTable[i].0 != IconTable[j].0
  {
  }

  /** Rows 5-9 against every later row. */
  lemma RowsDistinctB()
    ensures forall i, j :: 5 <= i < 10 && i < j < |IconTable| ==> IconTable[i].0 != IconTable[j].0
  {
  }

  /** Rows 10-15 against every later row. */
  lemma RowsDistinctC()
    ensures forall i, j :: 10 <= i < 16 && i < j < |IconTable| ==> IconTable[i].0 != IconTable[j].0
  {
  }

  /** Rows 16-23 against every later row. */
  lemma RowsDistinctD()
    ensures forall i, j :: 16 <= i < 24 && i < j < |IconTable| ==> IconTable[i].0 != IconTable[j].0
  {
  }

  /** Rows 24-33 against every later row. */
  lemma RowsDistinctE()
    ensures forall i, j :: 24 <= i < j < |IconTable| ==> IconTable[i].0 != IconTable[j].0
  {
  }

  /** `x | 0` and the operand conversion of `<<`: the integer modulo 2^32, read
      as a signed 32-bit value. */
  function ToInt32(x: int): (r: int)
    ensures -0x8000_0000 <= r < 0x8000_0000
    ensures (x - r) % 0x1_0000_0000 == 0
  {
    var m := x % 0x1_0000_0000;
    if m >= 0x8000_0000 then m - 0x1_0000_0000 else m
  }

  /** One step of `hash = charCode + ((hash << 5) - hash)`. */
  function HashStep(h: int, c: char): int {
    c as int + (ToInt32(ToInt32(h) * 32) - h)
  }

  /** The hash of the whole name, folded from the left. */
  function Hash(s: string): int
    decreases |s|
  {
    if s == [] then 0 else HashStep(Hash(s[..|s| - 1]), s[|s| - 1])
  }

  /** `Math.abs(hash) % 360`. */
  function Hue(s: string): (h: nat)
    ensures h < 360
  {
    (if Hash(s) < 0 then -Hash(s) else Hash(s)) % 360
  }

  predicate ContainedKey(name: string, e: (string, string)) {
    e.0 != DefaultKey && Contains(name, e.0)
  }

  predicate KeysDistinct(table: seq<(string, string)>) {
    forall i, j :: 0 <= i < j < |table| ==> table[i].0 != table[j].0
  }

  /** The lookup of `getItemIcon` against a name → picture table: the first
      exact entry (with distinct names, the exact entry), else the first
      contained name other than `default`, else a hue. */
  function IconFor(table: seq<(string, string)>, name: string): (r: Icon)
    ensures KeysDistinct(table) ==>
      forall i :: 0 <= i < |table| && table[i].0 == name ==> r == Picture(table[i].1)
    ensures (forall i :: 0 <= i < |table| ==> table[i].0 != name) && r.Picture? ==>
      exists i :: 0 <= i < |table| && ContainedKey(name, table[i]) && r == Picture(table[i].1)
        && forall j :: 0 <= j < i ==> !ContainedKey(name, table[j])
    ensures r.Generated? <==> forall i :: 0 <= i < |table| ==> table[i].0 != name && !ContainedKey(name, table[i])
    ensures r.Generated? ==> r.hue == Hue(name)
  {
    match Seqs.Find(table, (e: (string, string)) => e.0 == name)
    case Some(e) => Picture(e.1)
    case None =>
      match Seqs.Find(table, (e: (string, string)) => ContainedKey(name, e))
      case Some(e) => Picture(e.1)
      case None => Generated(Hue(name))
  }

  /** `getItemIcon(itemName)` up to the drawing of the generated picture: the
      table lookup on the lower-cased name, whose generated hue is a degree. */
  function GetItemIcon(itemName: string): (r: Icon)
    ensures r.Generated? ==> r.hue == Hue(Lower(itemName)) && r.hue < 360
  {
    IconFor(IconTable, Lower(itemName))
  }

  /** A name that is, up to case, a table name shows that entry's picture. */
  lemma ExactNameShowsItsPicture(itemName: string, i: nat)
    requires i < |IconTable| && IconTable[i].0 == Lower(itemName)
    ensures GetItemIcon(itemName) == Picture(IconTable[i].1)
  {
    IconKeysDistinct();
  }

  /** The icon depends on the name only up to case. */
  lemma IconIgnoresCase(a: string, b: string)
    requires Lower(a) == Lower(b)
    ensures GetItemIcon(a) == GetItemIcon(b)
  {
  }

  // ---------------------------------------------------------------- adding

  /** The grid's local state: the list's items and the recently-used strip. */
  datatype Grid = Grid(items: seq<Item>, recent: seq<Item>)

  /** `handleAddItem`: a blank name or no active list adds nothing; otherwise the
      trimmed name is stored as an incomplete item of the active list, assigned to
      the selected store, appended to the grid and put first in the strip. */
  function HandleAddItem(db: Storage.Db, grid: Grid, text: string, activeListId: Option<Id>,
                         selected: Option<FavoriteStore>, now: int): (r: (Storage.Db, Grid))
    ensures Blank(text) || !IsTruthy(activeListId) ==> r == (db, grid)
    ensures !Blank(text) && IsTruthy(activeListId) ==>
      var w := Storage.AddItem(db, Storage.ItemDraft(Trim(text), Some(false), StoreFilter.SelectedStoreId(selected), activeListId), now);
      var added := w.db.items[w.key];
      && r.0 == w.db
      && r.1.items == grid.items + [added]
      && added == Item(w.key, Trim(text), false, StoreFilter.SelectedStoreId(selected), activeListId, now)
      && r.1.recent == AddToRecent(grid.recent, added)
  {
    if Blank(text) || !IsTruthy(activeListId) then (db, grid)
    else
      var draft := Storage.ItemDraft(Trim(text), Some(false), StoreFilter.SelectedStoreId(selected), activeListId);
      var w := Storage.AddItem(db, draft, now);
      var item := Item(w.key, Trim(text), false, StoreFilter.SelectedStoreId(selected), activeListId, now);
      (w.db, Grid(grid.items + [item], AddToRecent(grid.recent, item)))
  }
}

=== FILE: keys.dfy ===
/** Numeric record keys and the ascending key order in which an object store
    hands out its records. */
module Keys {
  import opened Wrappers
  import Seqs

  /** A key drawn from an auto-increment key generator (which starts at 1). */
  type Id = nat

  /** JavaScript truthiness of an optional numeric id: absent and 0 are falsy. */
  predicate IsTruthy(id: Option<nat>) {
    id.Some? && id.value != 0
  }

  /** Every element is smaller than every later one. */
  predicate Increasing(s: seq<nat>) {
    forall i, j :: 0 <= i < j < |s| ==> s[i] < s[j]
  }

  /** A least element of a non-empty key set, found by removing one element at a time. */
  lemma {:induction false} LeastOf(s: set<nat>) returns (m: nat)
    requires s != {}
    ensures m in s
    ensures forall k :: k in s ==> m <= k
  {
    var x :| x in s;
    if s == {x} {
      m := x;
    } else {
      var rest := LeastOf(s - {x});
      m := if x < rest then x else rest;
      forall k | k in s
        ensures m <= k
      {
        if k != x {
          assert k in s - {x};
        }
      }
    }
  }

  lemma LeastExists(s: set<nat>)
    requires s != {}
    ensures exists m :: m in s && forall k :: k in s ==> m <= k
  {
    var m := LeastOf(s);
  }

  /** The smallest key of a non-empty key set. */
  function Least(s: set<nat>): (m: nat)
    requires s != {}
    ensures m in s
    ensures forall k :: k in s ==> m <= k
  {
    LeastExists(s);
    var m :| m in s && forall k :: k in s ==> m <= k;
    m
  }

  /** The keys of `s` in ascending order: the order of an object store's `getAll`.
      It is the one increasing sequence holding exactly the keys of `s`. */
  function SortedKeys(s: set<nat>): (r: seq<nat>)
    ensures Increasing(r)
    ensures forall k :: k in r <==> k in s
    ensures |r| == |s|
  {
    var w := Ascending(s);
    AscendingIsUnique(s);
    var r :| Increasing(r) && (forall k :: k in r ==> k in s) && (forall k :: k in s ==> k in r);
    assert r == w;
    r
  }

  /** Builds the ascending order by taking the least key first. */
  function Ascending(s: set<nat>): (r: seq<nat>)
    ensures Increasing(r)
    ensures forall k :: k in r <==> k in s
    ensures |r| == |s|
    decreases |s|
  {
    if s == {} then []
    else
      var m := Least(s);
      [m] + Ascending(s - {m})
  }

  lemma AscendingIsUnique(s: set<nat>)
    ensures forall a, b :: Increasing(a) && Increasing(b) && (forall k :: k in a <==> k in s) && (forall k :: k in b <==> k in s) ==> a == b
  {
    forall a, b | Increasing(a) && Increasing(b) && (forall k :: k in a <==> k in s) && (forall k :: k in b <==> k in s)
      ensures a == b
    {
      IncreasingUnique(a, b);
    }
  }

  /** Two increasing sequences with the same elements are equal: ascending key
      order is determined by the key set alone. */
  lemma {:induction false} IncreasingUnique(a: seq<nat>, b: seq<nat>)
    requires Increasing(a) && Increasing(b)
    requires forall x :: x in a <==> x in b
    ensures a == b
    decreases |a|
  {
    SameMembersBothEmpty(a, b);
    if a != [] {
      HeadIsLeast(a, b[0]);
      HeadIsLeast(b, a[0]);
      TailMembers(a);
      TailMembers(b);
      IncreasingUnique(a[1..], b[1..]);
      assert a == [a[0]] + a[1..] && b == [b[0]] + b[1..];
    }
  }

  /** Sequences with the same elements are both empty or both not. */
  lemma SameMembersBothEmpty(a: seq<nat>, b: seq<nat>)
    requires forall x :: x in a <==> x in b
    ensures a == [] <==> b == []
  {
    if a != [] {
      assert a[0] in a;
    }
    if b != [] {
      assert b[0] in b;
    }
  }

  /** The first element of an increasing sequence is at most each of its elements. */
  lemma HeadIsLeast(a: seq<nat>, x: nat)
    requires Increasing(a) && x in a
    ensures a[0] <= x
  {
    var i :| 0 <= i < |a| && a[i] == x;
  }

  /** The tail of an increasing sequence holds every element but the first. */
  lemma TailMembers(a: seq<nat>)
    requires Increasing(a) && a != []
    ensures forall x :: x in a[1..] <==> x in a && x != a[0]
  {
    forall x
      ensures x in a[1..] <==> x in a && x != a[0]
    {
      if x in a && x != a[0] {
        var j :| 0 <= j < |a| && a[j] == x;
        assert a[1..][j - 1] == x;
      }
    }
  }

  /** Adding a key above every existing key appends it to the ascending order. */
  lemma SortedKeysAppend(s: set<nat>, m: nat)
    requires forall k :: k in s ==> k < m
    ensures SortedKeys(s + {m}) == SortedKeys(s) + [m]
  {
    var a := SortedKeys(s) + [m];
    assert forall i :: 0 <= i < |SortedKeys(s)| ==> SortedKeys(s)[i] in s;
    assert Increasing(a);
    IncreasingUnique(SortedKeys(s + {m}), a);
  }

  /** The values of a map listed in ascending key order. */
  function InKeyOrder<V>(m: map<nat, V>): (r: seq<V>)
    ensures |r| == |m|
    ensures forall i :: 0 <= i < |r| ==> SortedKeys(m.Keys)[i] in m && r[i] == m[SortedKeys(m.Keys)[i]]
  {
    var ks := SortedKeys(m.Keys);
    assert forall i :: 0 <= i < |ks| ==> ks[i] in m.Keys;
    seq(|ks|, i requires 0 <= i < |ks| => m[ks[i]])
  }

  /** Storing a value under a key above every key appends it to the key order. */
  lemma InKeyOrderAppend<V>(m: map<nat, V>, k: nat, v: V)
    requires forall j :: j in m ==> j < k
    ensures InKeyOrder(m[k := v]) == InKeyOrder(m) + [v]
  {
    var a := InKeyOrder(m[k := v]);
    var b := InKeyOrder(m) + [v];
    forall i | 0 <= i < |a|
      ensures a[i] == b[i]
    {
      InKeyOrderAppendAt(m, k, v, i);
    }
  }

  /** Storing under a key above every key appends it to the ascending keys. */
  lemma KeysAppend<V>(m: map<nat, V>, k: nat, v: V)
    requires forall j :: j in m ==> j < k
    ensures SortedKeys(m[k := v].Keys) == SortedKeys(m.Keys) + [k]
  {
    assert m[k := v].Keys == m.Keys + {k};
    SortedKeysAppend(m.Keys, k);
  }

  /** One position of `InKeyOrderAppend`. */
  lemma InKeyOrderAppendAt<V>(m: map<nat, V>, k: nat, v: V, i: nat)
    requires forall j :: j in m ==> j < k
    requires i <= |m|
    ensures |InKeyOrder(m[k := v])| == |m| + 1
    ensures InKeyOrder(m[k := v])[i] == (InKeyOrder(m) + [v])[i]
  {
    var ks := SortedKeys(m.Keys);
    var ks' := SortedKeys(m[k := v].Keys);
    KeysAppend(m, k, v);
    if i < |ks| {
      assert ks'[i] == ks[i] && ks[i] in m;
    } else {
      assert ks'[i] == k;
    }
  }

  /** The key-ordered values are exactly the map's values. */
  lemma InKeyOrderValues<V>(m: map<nat, V>)
    ensures forall v :: v in InKeyOrder(m) <==> v in m.Values
  {
    var r := InKeyOrder(m);
    var ks := SortedKeys(m.Keys);
    forall v | v in m.Values
      ensures v in r
    {
      var k :| k in m && m[k] == v;
      assert k in ks;
      var i :| 0 <= i < |ks| && ks[i] == k;
      assert r[i] == v;
    }
  }

  /** The values stored under a sequence of keys, in that sequence's order. */
  function Values<V>(ks: seq<nat>, m: map<nat, V>): (r: seq<V>)
    requires forall i :: 0 <= i < |ks| ==> ks[i] in m
    ensures |r| == |ks|
    ensures forall i :: 0 <= i < |ks| ==> r[i] == m[ks[i]]
  {
    seq(|ks|, i requires 0 <= i < |ks| => m[ks[i]])
  }

  /** Dropping elements keeps an increasing sequence increasing. */
  lemma {:induction false} KeptIncreasing(s: seq<nat>, q: nat -> bool)
    requires Increasing(s)
    ensures Increasing(Seqs.Kept(s, q))
  {
    if s != [] {
      KeptIncreasing(s[1..], q);
      Seqs.FilterMembers(s[1..], q);
      var rest := Seqs.Kept(s[1..], q);
      assert forall x :: x in rest ==> s[0] < x by {
        forall x | x in rest
          ensures s[0] < x
        {
          var j :| 0 <= j < |s[1..]| && s[1..][j] == x;
          assert s[j + 1] == x;
        }
      }
      if q(s[0]) {
        var r := [s[0]] + rest;
        assert Seqs.Kept(s, q) == r;
        forall i, j | 0 <= i < j < |r|
          ensures r[i] < r[j]
        {
          assert r[j] == rest[j - 1] && r[j] in rest;
          if i > 0 {
            assert r[i] == rest[i - 1];
          }
        }
      }
    }
  }

  /** Filtering the values read under some keys is reading under the filtered
      keys, when each value's filter verdict is its key's. */
  lemma {:induction false} KeptValues<V>(ks: seq<nat>, m: map<nat, V>, p: V -> bool, q: nat -> bool)
    requires forall i :: 0 <= i < |ks| ==> ks[i] in m
    requires forall j :: j in m ==> p(m[j]) == q(j)
    ensures forall i :: 0 <= i < |Seqs.Kept(ks, q)| ==> Seqs.Kept(ks, q)[i] in m
    ensures Seqs.Kept(Values(ks, m), p) == Values(Seqs.Kept(ks, q), m)
  {
    Seqs.FilterMembers(ks, q);
    if ks != [] {
      KeptValues(ks[1..], m, p, q);
      assert Values(ks, m) == [m[ks[0]]] + Values(ks[1..], m);
      Seqs.FilterMembers(ks[1..], q);
    }
  }

  /** Removing a key from a map removes its value from the key order, and keeps
      the other values in order: when each value names its key (`p` tells the
      values under other keys), the key order is filtered by `p`. */
  lemma InKeyOrderRemove<V>(m: map<nat, V>, k: nat, p: V -> bool)
    requires forall j :: j in m ==> p(m[j]) == (j != k)
    ensures InKeyOrder(m - {k}) == Seqs.Filter(InKeyOrder(m), p)
  {
    var ks := SortedKeys(m.Keys);
    var q := (j: nat) => j != k;
    assert forall i :: 0 <= i < |ks| ==> ks[i] in m;
    KeptValues(ks, m, p, q);
    var kept := Seqs.Kept(ks, q);
    KeptIncreasing(ks, q);
    Seqs.FilterMembers(ks, q);
    Seqs.FilterComplete(ks, q);
    Seqs.FilterKeeps(ks, q);
    assert forall x :: x in kept <==> x in (m - {k}).Keys by {
      forall x
        ensures x in kept <==> x in (m - {k}).Keys
      {
        if x in (m - {k}).Keys {
          var i :| 0 <= i < |ks| && ks[i] == x;
        }
        if x in kept {
          var i :| 0 <= i < |kept| && kept[i] == x;
          assert q(kept[i]);
        }
      }
    }
    IncreasingUnique(kept, SortedKeys((m - {k}).Keys));
    assert InKeyOrder(m) == Values(ks, m);
    assert InKeyOrder(m - {k}) == Values(kept, m);
  }
}

=== FILE: list_manager.dfy ===
/** The list manager (`ListManager.jsx`): adding, renaming, deleting and
    flagging lists, as reducers of the store and of the parent's lists and
    active id. A `window.confirm` answer is the `confirmed` argument; an `alert`
    is the outcome's `alert`. */
module ListManager {
  import opened Wrappers
  import opened Keys
  import opened Records
  import opened Text
  import opened Storage
  import opened ListViews
  import Seqs
  import DefaultInvariant

  /** The parent's state the manager reads and replaces. */
  datatype View = View(lists: seq<ShoppingList>, active: Option<Id>)

  datatype Outcome = Outcome(db: Db, view: View, alert: Option<string>)

  /** `handleAddList`: a blank name adds nothing; otherwise the trimmed name is
      stored, flagged default exactly when there were no lists, appended under
      its new key and made active. */
  function HandleAddList(db: Db, view: View, text: string): (r: Outcome)
    ensures Blank(text) ==> r == Outcome(db, view, None)
    ensures !Blank(text) ==>
      var w := AddList(db, Trim(text), view.lists == []);
      && r.db == w.db
      && r.view.lists == view.lists + [w.db.lists[w.key]]
      && r.view.active == Some(w.key)
      && r.alert.None?
    ensures !Blank(text) ==> |r.view.lists| == |view.lists| + 1 && r.view.lists[..|view.lists|] == view.lists
    ensures !Blank(text) ==> (r.view.lists[|view.lists|].isDefault <==> view.lists == [])
  {
    if Blank(text) then Outcome(db, view, None)
    else
      var isDefault := view.lists == [];
      var w := AddList(db, Trim(text), isDefault);
      Outcome(w.db, View(view.lists + [NewList(w, Trim(text), isDefault)], Some(w.key)), None)
  }

  /** Adding keeps the local lists equal to the store's and exactly one default. */
  lemma AddListKeepsMirror(db: Db, view: View, text: string)
    requires Mirrors(view.lists, db)
    requires OneDefault(db.lists) || db.lists == map[]
    ensures var r := HandleAddList(db, view, text);
      Mirrors(r.view.lists, r.db) && (OneDefault(r.db.lists) || r.db.lists == map[])
  {
    if !Blank(text) {
      AddKeepsMirror(db, view.lists, Trim(text));
    }
  }

  /** `handleEditList`: with a list being edited and a non-blank name, the list is
      stored with the trimmed name and replaces every local list with its id. */
  function HandleEditList(db: Db, view: View, editing: Option<ShoppingList>, text: string): (r: Outcome)
    ensures editing.None? || Blank(text) ==> r == Outcome(db, view, None)
    ensures editing.Some? && !Blank(text) ==>
      var renamed := editing.value.(name := Trim(text));
      && r.db == UpdateList(db, renamed).db
      && |r.view.lists| == |view.lists|
      && (forall i :: 0 <= i < |view.lists| ==>
            r.view.lists[i] == if view.lists[i].id == renamed.id then renamed else view.lists[i])
      && r.view.active == view.active
      && r.alert.None?
  {
    match editing
    case None => Outcome(db, view, None)
    case Some(e) =>
      if Blank(text) then Outcome(db, view, None)
      else
        var renamed := e.(name := Trim(text));
        var w := UpdateList(db, renamed);
        var lists := Seqs.Map(view.lists, (l: ShoppingList) => if l.id == renamed.id then renamed else l);
        Outcome(w.db, View(lists, view.active), None)
  }

  /** Renaming a list taken from the local lists changes that list's name and
      nothing else locally... */
  lemma EditRenamesLocally(db: Db, view: View, list: ShoppingList, text: string)
    requires Mirrors(view.lists, db) && list in view.lists && !Blank(text)
    ensures var r := HandleEditList(db, view, Some(list), text);
      forall i :: 0 <= i < |view.lists| ==>
        r.view.lists[i] == view.lists[i].(name := if view.lists[i].id == list.id then Trim(text) else view.lists[i].name)
  {
    MirrorIdsUnique(db);
    SameIdSameList(view.lists, list);
  }

  /** ...and in the store, where the keys stay as they were. */
  lemma EditRenamesInStore(db: Db, view: View, list: ShoppingList, text: string)
    requires Mirrors(view.lists, db) && list in view.lists && !Blank(text)
    ensures var r := HandleEditList(db, view, Some(list), text);
      && r.db.lists.Keys == db.lists.Keys
      && forall k :: k in db.lists ==>
           r.db.lists[k].name == (if k == list.id then Trim(text) else db.lists[k].name)
  {
    MirrorMember(db, view.lists, list);
    RenameInStore(db, list, Trim(text));
  }

  /** Storing a stored list under a new name keeps the keys and changes only that name. */
  lemma RenameInStore(db: Db, list: ShoppingList, name: string)
    requires list.id in db.lists
    ensures var after := UpdateList(db, list.(name := name)).db;
      && after.lists.Keys == db.lists.Keys
      && forall k :: k in db.lists ==> after.lists[k].name == (if k == list.id then name else db.lists[k].name)
  {
  }

  /** With distinct ids, a list is the only one carrying its id. */
  lemma SameIdSameList(lists: seq<ShoppingList>, list: ShoppingList)
    requires IdsUnique(lists) && list in lists
    ensures forall i :: 0 <= i < |lists| && lists[i].id == list.id ==> lists[i] == list
  {
    var j :| 0 <= j < |lists| && lists[j] == list;
  }

  /** Lines 79-82: after the active list is deleted, the first remaining local
      list flagged default, else the first remaining list. */
  function Reselect(lists: seq<ShoppingList>): (id: Id)
    requires lists != []
    ensures exists i :: 0 <= i < |lists| && lists[i].id == id
    ensures (exists i :: 0 <= i < |lists| && lists[i].isDefault) ==>
      exists i :: 0 <= i < |lists| && lists[i].id == id && lists[i].isDefault
    ensures (forall i :: 0 <= i < |lists| ==> !lists[i].isDefault) ==> id == lists[0].id
  {
    match Seqs.Find(lists, (l: ShoppingList) => l.isDefault)
    case Some(d) => d.id
    case None => lists[0].id
  }

  /** `handleDeleteList(listId)`: a falsy id or a declined confirmation does
      nothing; a store error leaves the lists as they were and is alerted;
      otherwise the list is dropped locally and, if it was active, another is
      selected. */
  function HandleDeleteList(db: Db, view: View, listId: Id, confirmed: bool): (r: Outcome)
    ensures listId == 0 || !confirmed ==> r == Outcome(db, view, None)
    ensures listId != 0 && confirmed && DeleteList(db, listId).Err? ==>
      r == Outcome(db, view, Some(OnlyListError))
    ensures listId != 0 && confirmed && DeleteList(db, listId).Ok? ==>
      && r.db == DeleteList(db, listId).value
      && r.alert.None?
      && (forall l :: l in r.view.lists <==> l in view.lists && l.id != listId)
      && (view.active != Some(listId) || r.view.lists == [] ==> r.view.active == view.active)
      && (view.active == Some(listId) && r.view.lists != [] ==> r.view.active == Some(Reselect(r.view.lists)))
  {
    if listId == 0 || !confirmed then Outcome(db, view, None)
    else match DeleteList(db, listId)
      case Err(msg) => Outcome(db, view, Some(msg))
      case Ok(after) =>
        var lists := Without(view.lists, listId);
        var active := if view.active == Some(listId) && lists != [] then Some(Reselect(lists)) else view.active;
        Outcome(after, View(lists, active), None)
  }

  /** Deleting the active default list selects the list the store promoted: no
      remaining local list is flagged, so the first remaining one is chosen, and
      that is the first other list in key order. */
  lemma DeleteActiveDefaultFollowsPromotion(db: Db, view: View, listId: Id)
    requires Mirrors(view.lists, db) && DefaultOfSeveral(db, listId)
    requires view.active == Some(listId)
    ensures DeleteList(db, listId).Ok?
    ensures var r := HandleDeleteList(db, view, listId, true);
      r.view.active.Some? && GetDefaultList(r.db).Some? && r.view.active.value == GetDefaultList(r.db).value.id
  {
    if listId != 0 {
      DeleteSelectsPromoted(db, view, listId);
    } else {
      SoleDefaultIsFound(db, listId);
      PromotedBecomesDefault(db, listId);
    }
  }

  /** The handler's outcome when the active default list is deleted: the store
      after `deleteList`, with the promoted list selected. */
  lemma DeleteSelectsPromoted(db: Db, view: View, listId: Id)
    requires Mirrors(view.lists, db) && DefaultOfSeveral(db, listId)
    requires view.active == Some(listId) && listId != 0
    ensures DeleteList(db, listId).Ok?
    ensures var r := HandleDeleteList(db, view, listId, true);
      r.view.active == Some(GetDefaultList(r.db).value.id)
  {
    PromotedBecomesDefault(db, listId);
    ReselectFindsPromoted(db, view.lists, listId);
  }

  /** Locally, with the stale flags, the reselection after deleting the default
      list lands on the first other list in key order: the one promoted. */
  lemma ReselectFindsPromoted(db: Db, s: seq<ShoppingList>, listId: Id)
    requires Mirrors(s, db) && DefaultOfSeveral(db, listId)
    ensures Without(s, listId) != [] && Reselect(Without(s, listId)) == Promoted(db.lists, listId).value
  {
    FirstKeptIsPromoted(db, s, listId);
    KeptHasNoDefault(db, s, listId);
  }

  /** The first list left locally after dropping the default is the promoted one. */
  lemma FirstKeptIsPromoted(db: Db, s: seq<ShoppingList>, listId: Id)
    requires Mirrors(s, db) && DefaultOfSeveral(db, listId)
    ensures Without(s, listId) != [] && Without(s, listId)[0].id == Promoted(db.lists, listId).value
  {
    var p := Promoted(db.lists, listId).value;
    PromotedIsKept(db, s, listId);
    FirstKeptIsLeast(s, listId, db.lists[p]);
    KeptIsListed(db, s, listId);
  }

  /** The promoted list is still shown after dropping the deleted one. */
  lemma PromotedIsKept(db: Db, s: seq<ShoppingList>, listId: Id)
    requires Mirrors(s, db) && DefaultOfSeveral(db, listId)
    ensures var p := Promoted(db.lists, listId).value;
      p in db.lists && db.lists[p] in s && p != listId
  {
    ListedInGetLists(db, Promoted(db.lists, listId).value);
  }

  /** The first kept list is a stored list other than the deleted one. */
  lemma KeptIsListed(db: Db, s: seq<ShoppingList>, listId: Id)
    requires Mirrors(s, db) && Without(s, listId) != []
    ensures Without(s, listId)[0].id in db.lists && Without(s, listId)[0].id != listId
  {
    MirrorMember(db, s, Without(s, listId)[0]);
  }

  /** In a list ordered by id, something is kept and the first list kept has
      an id no greater than that of any other kept list `l`. */
  lemma FirstKeptIsLeast(s: seq<ShoppingList>, id: Id, l: ShoppingList)
    requires forall a, b :: 0 <= a < b < |s| ==> s[a].id < s[b].id
    requires l in s && l.id != id
    ensures Without(s, id) != [] && Without(s, id)[0].id <= l.id
  {
    var kept := Without(s, id);
    WithoutHead(s, id);
    var i :| 0 <= i < |s| && kept[0] == s[i] && forall j :: 0 <= j < i ==> s[j].id == id;
    var m :| 0 <= m < |s| && s[m] == l;
    assert i <= m;
  }

  /** `handleSetDefault(listId)`: a falsy or unknown id does nothing; otherwise
      the list is stored flagged default and, locally, it is the only flagged
      list; with distinct ids nothing else changes. */
  function HandleSetDefault(db: Db, view: View, listId: Id): (r: Outcome)
    ensures listId == 0 || (forall i :: 0 <= i < |view.lists| ==> view.lists[i].id != listId) ==>
      r == Outcome(db, view, None)
    ensures listId != 0 && (exists i :: 0 <= i < |view.lists| && view.lists[i].id == listId) ==>
      && (exists i :: 0 <= i < |view.lists| && view.lists[i].id == listId &&
            r.db == UpdateList(db, view.lists[i].(isDefault := true)).db)
      && |r.view.lists| == |view.lists|
      && (forall i :: 0 <= i < |r.view.lists| ==>
            r.view.lists[i].id == view.lists[i].id && (r.view.lists[i].isDefault <==> view.lists[i].id == listId))
      && (IdsUnique(view.lists) ==> r.view.lists == Flagged(view.lists, listId))
      && r.view.active == view.active
  {
    if listId == 0 then Outcome(db, view, None)
    else match Seqs.Find(view.lists, (l: ShoppingList) => l.id == listId)
      case None => Outcome(db, view, None)
      case Some(list) =>
        var updated := list.(isDefault := true);
        var w := UpdateList(db, updated);
        var lists := Seqs.Map(view.lists, (l: ShoppingList) => if l.id == listId then updated else l.(isDefault := false));
        SetDefaultFlags(view.lists, list, lists);
        Outcome(w.db, View(lists, view.active), None)
  }

  /** With distinct ids, flagging the found list and clearing the others is `Flagged`. */
  lemma SetDefaultFlags(s: seq<ShoppingList>, list: ShoppingList, lists: seq<ShoppingList>)
    requires list in s && |lists| == |s|
    requires forall i :: 0 <= i < |s| ==>
      lists[i] == if s[i].id == list.id then list.(isDefault := true) else s[i].(isDefault := false)
    ensures IdsUnique(s) ==> lists == Flagged(s, list.id)
  {
    if IdsUnique(s) {
      SameIdSameList(s, list);
    }
  }

  /** Setting a default keeps the local lists equal to the store's, which then has
      exactly one default, the chosen list. */
  lemma SetDefaultKeepsMirror(db: Db, view: View, listId: Id)
    requires Mirrors(view.lists, db) && listId in db.lists && listId != 0
    ensures var r := HandleSetDefault(db, view, listId);
      Mirrors(r.view.lists, r.db) && DefaultIds(r.db.lists) == {listId}
  {
    MirrorIdsUnique(db);
    var list := db.lists[listId];
    ListedInGetLists(db, listId);
    var r := HandleSetDefault(db, view, listId);
    assert r.db == UpdateList(db, list.(isDefault := true)).db by {
      SameIdSameList(view.lists, list);
    }
    FlagKeepsMirror(db, view.lists, list);
    DefaultInvariant.UpdateDefaultListIsSoleDefault(db, list.(isDefault := true));
  }
}

=== FILE: list_views.dfy ===
/** What the two list components share: their local copy of the lists, and the
    facts that keep that copy in step with the store. */
module ListViews {
  import opened Wrappers
  import opened Keys
  import opened Records
  import opened Storage
  import StorageLemmas
  import Seqs
  import DefaultInvariant

  /** The local lists are what `getLists` returns for `db`. */
  predicate Mirrors(lists: seq<ShoppingList>, db: Db) {
    lists == GetLists(db)
  }

  /** No two local lists share an id. */
  predicate IdsUnique(lists: seq<ShoppingList>) {
    forall i, j :: 0 <= i < j < |lists| ==> lists[i].id != lists[j].id
  }

  /** `getLists` yields each list once. */
  lemma MirrorIdsUnique(db: Db)
    ensures IdsUnique(GetLists(db))
  {
  }

  /** Two stores with the same list keys list them in the same key order. */
  lemma SameKeysSameOrder(a: Db, b: Db)
    requires a.lists.Keys == b.lists.Keys
    ensures |GetLists(b)| == |GetLists(a)|
    ensures forall i :: 0 <= i < |GetLists(a)| ==> GetLists(b)[i] == b.lists[GetLists(a)[i].id]
  {
    var ks := SortedKeys(a.lists.Keys);
    forall i | 0 <= i < |GetLists(a)|
      ensures GetLists(b)[i] == b.lists[GetLists(a)[i].id]
    {
      assert GetLists(a)[i] == a.lists[ks[i]];
      assert GetLists(b)[i] == b.lists[ks[i]];
    }
  }

  /** `lists.filter(list => list.id !== id)`: the local lists without `id`. */
  function Without(lists: seq<ShoppingList>, id: Id): (r: seq<ShoppingList>)
    ensures forall l :: l in r <==> l in lists && l.id != id
  {
    Seqs.Filter(lists, (l: ShoppingList) => l.id != id)
  }

  /** The first list kept is preceded only by lists carrying the dropped id. */
  lemma WithoutHead(lists: seq<ShoppingList>, id: Id)
    ensures Without(lists, id) != [] ==>
      exists i :: 0 <= i < |lists| && Without(lists, id)[0] == lists[i] && forall j :: 0 <= j < i ==> lists[j].id == id
  {
    Seqs.FilterHead(lists, (l: ShoppingList) => l.id != id);
  }

  /** A list shown in a mirror is the stored record under its own id. */
  lemma MirrorMember(db: Db, s: seq<ShoppingList>, l: ShoppingList)
    requires Mirrors(s, db) && l in s
    ensures l.id in db.lists && db.lists[l.id] == l
  {
    var i :| 0 <= i < |s| && s[i] == l;
  }

  /** The record the components append after `addList`: the name and flag they
      passed, under the returned key. */
  function NewList(w: Written, name: string, isDefault: bool): (l: ShoppingList)
    ensures l.id == w.key
  {
    ShoppingList(w.key, name, isDefault)
  }

  /** The local list after adding `name` (default exactly when there was no list
      locally) and appending it is what the store then lists, and the store keeps
      exactly one default. */
  lemma AddKeepsMirror(db: Db, lists: seq<ShoppingList>, name: string)
    requires Mirrors(lists, db)
    requires OneDefault(db.lists) || db.lists == map[]
    ensures var w := AddList(db, name, lists == []);
      && Mirrors(lists + [NewList(w, name, lists == [])], w.db)
      && OneDefault(w.db.lists)
  {
    var w := AddList(db, name, lists == []);
    if lists == [] {
      assert db.lists == map[];
      assert w.db.lists == map[w.key := NewList(w, name, true)];
      InKeyOrderAppend(db.lists, w.key, NewList(w, name, true));
      DefaultInvariant.AddDefaultListIsSoleDefault(db, name);
    } else {
      StorageLemmas.AddListThenGetLists(db, name);
      DefaultInvariant.AddPlainListKeepsOneDefault(db, name);
    }
  }

  /** The local lists after set-default: the chosen list flagged, every other list
      cleared. */
  function Flagged(lists: seq<ShoppingList>, id: Id): (r: seq<ShoppingList>)
    ensures |r| == |lists|
    ensures forall i :: 0 <= i < |r| ==> r[i] == lists[i].(isDefault := lists[i].id == id)
  {
    seq(|lists|, i requires 0 <= i < |lists| => lists[i].(isDefault := lists[i].id == id))
  }

  /** Flagging locally matches what `updateList` with the flag set does in the store. */
  lemma FlagKeepsMirror(db: Db, lists: seq<ShoppingList>, list: ShoppingList)
    requires Mirrors(lists, db) && list in lists
    ensures Mirrors(Flagged(lists, list.id), UpdateList(db, list.(isDefault := true)).db)
    ensures OneDefault(UpdateList(db, list.(isDefault := true)).db.lists)
  {
    FlaggedIsListed(db, lists, list);
    DefaultInvariant.UpdateDefaultListIsSoleDefault(db, list.(isDefault := true));
  }

  /** The flagged local lists are, index by index, what the store lists after the update. */
  lemma FlaggedIsListed(db: Db, lists: seq<ShoppingList>, list: ShoppingList)
    requires Mirrors(lists, db) && list in lists
    ensures Flagged(lists, list.id) == GetLists(UpdateList(db, list.(isDefault := true)).db)
  {
    FlaggedOrder(db, lists, list);
    FlaggedRecords(db, lists, list);
  }

  /** Flagging keeps the keys, so the store lists the updated records in the old order. */
  lemma FlaggedOrder(db: Db, lists: seq<ShoppingList>, list: ShoppingList)
    requires Mirrors(lists, db) && list in lists
    ensures var after := UpdateList(db, list.(isDefault := true)).db;
      && |GetLists(after)| == |lists|
      && forall i :: 0 <= i < |lists| ==> GetLists(after)[i] == after.lists[lists[i].id]
  {
    MirrorMember(db, lists, list);
    SameKeysSameOrder(db, UpdateList(db, list.(isDefault := true)).db);
  }

  /** Each local list's record after the update is the list with its flag recomputed. */
  lemma FlaggedRecords(db: Db, lists: seq<ShoppingList>, list: ShoppingList)
    requires Mirrors(lists, db) && list in lists
    ensures var after := UpdateList(db, list.(isDefault := true)).db;
      forall i :: 0 <= i < |lists| ==>
        lists[i].id in after.lists && after.lists[lists[i].id] == Flagged(lists, list.id)[i]
  {
    MirrorMember(db, lists, list);
    forall i | 0 <= i < |lists|
      ensures lists[i].id in db.lists && db.lists[lists[i].id] == lists[i]
    {
      MirrorMember(db, lists, lists[i]);
    }
  }

  /** The store has exactly one default list, `listId`, and at least one other list. */
  predicate DefaultOfSeveral(db: Db, listId: Id) {
    OneDefault(db.lists) && listId in db.lists && db.lists[listId].isDefault && |db.lists| > 1
  }

  /** With exactly one default list, `getDefaultList` finds it. */
  lemma SoleDefaultIsFound(db: Db, listId: Id)
    requires OneDefault(db.lists) && listId in db.lists && db.lists[listId].isDefault
    ensures GetDefaultList(db) == Some(db.lists[listId])
  {
    var d := DefaultInvariant.SingletonDefault(db.lists);
    assert listId in DefaultIds(db.lists);
    assert GetDefaultList(db).value.id in DefaultIds(db.lists);
  }

  /** Deleting the default list of several makes the promoted list the default. */
  lemma PromotedBecomesDefault(db: Db, listId: Id)
    requires DefaultOfSeveral(db, listId)
    ensures DeleteList(db, listId).Ok?
    ensures GetDefaultList(DeleteList(db, listId).value) == Some(DeleteList(db, listId).value.lists[Promoted(db.lists, listId).value])
  {
    var after := DeleteList(db, listId).value;
    var p := Promoted(db.lists, listId).value;
    DefaultInvariant.DeleteListKeepsOneDefault(db, listId);
    var d := DefaultInvariant.SingletonDefault(after.lists);
    assert p in DefaultIds(after.lists);
    var g := GetDefaultList(after).value;
    assert g.id in DefaultIds(after.lists);
  }

  /** After the only default is dropped, no local list is flagged. */
  lemma KeptHasNoDefault(db: Db, s: seq<ShoppingList>, listId: Id)
    requires Mirrors(s, db) && OneDefault(db.lists)
    requires listId in db.lists && db.lists[listId].isDefault
    ensures forall t :: 0 <= t < |Without(s, listId)| ==> !Without(s, listId)[t].isDefault
  {
    var kept := Without(s, listId);
    OnlyDefault(db, listId);
    forall t | 0 <= t < |kept|
      ensures !kept[t].isDefault
    {
      assert kept[t] in kept;
      MirrorMember(db, s, kept[t]);
    }
  }

  /** With exactly one default, no other list is flagged. */
  lemma OnlyDefault(db: Db, id: Id)
    requires OneDefault(db.lists) && id in db.lists && db.lists[id].isDefault
    ensures forall k :: k in db.lists && k != id ==> !db.lists[k].isDefault
  {
    var d := DefaultInvariant.SingletonDefault(db.lists);
    assert id in DefaultIds(db.lists);
    forall k | k in db.lists && k != id
      ensures !db.lists[k].isDefault
    {
      assert db.lists[k].isDefault ==> k in DefaultIds(db.lists);
    }
  }
}

=== FILE: places.dfy ===
/** `searchNearbyPlaces` of the location service: the geocoder's answer is
    turned into places with a distance from the search centre, those farther
    than the radius are dropped, and the rest are ordered nearest first. The
    HTTP request is the `Response` parameter; the haversine distance is the
    caller's `dist`. */
module Places {
  import opened Wrappers
  import opened Records
  import opened Text
  import opened Sorting
  import Seqs

  /** The default search radius, in kilometres. */
  const DefaultRadiusKm: real := 5.0

  /** One geocoder result. A coordinate is `None` when its text does not parse
      as a number (`parseFloat` yields NaN). */
  datatype RawPlace = RawPlace(placeId: nat, displayName: string, lat: Option<real>, lon: Option<real>)

  /** The outcome of the request: it threw, it answered with a non-2xx status,
      or it answered with a list of results. */
  datatype Response = Failed | NotOk | Body(places: seq<RawPlace>)

  /** A search result as the store locator receives it. */
  datatype Place = Place(id: nat, name: string, address: string, location: Position, distance: real)

  function Radius(radius: Option<real>): real {
    radius.GetOr(DefaultRadiusKm)
  }

  function PlaceDistance(p: Place): real {
    p.distance
  }

  /** The place a result becomes, or `None` when a coordinate is NaN: NaN is
      never `<=` the radius, so such a result is always filtered out. */
  function Convert(center: Position, raw: RawPlace, dist: (Position, Position) -> real): (p: Option<Place>)
    ensures p.Some? <==> raw.lat.Some? && raw.lon.Some?
    ensures p.Some? ==> p.value.id == raw.placeId && p.value.address == raw.displayName
    ensures p.Some? ==> p.value.location == Position(raw.lat.value, raw.lon.value)
    ensures p.Some? ==> p.value.distance == dist(center, p.value.location)
    ensures p.Some? ==> p.value.name <= p.value.address && ',' !in p.value.name
  {
    if raw.lat.None? || raw.lon.None? then None
    else
      var loc := Position(raw.lat.value, raw.lon.value);
      Some(Place(raw.placeId, BeforeFirst(raw.displayName, ','), raw.displayName, loc, dist(center, loc)))
  }

  /** The result at index `i` becomes `p`, which lies within `limit`. */
  predicate KeptAt(center: Position, raws: seq<RawPlace>, limit: real, dist: (Position, Position) -> real, i: int, p: Place) {
    0 <= i < |raws| && Convert(center, raws[i], dist) == Some(p) && p.distance <= limit
  }

  /** The `map` and `filter` steps, in response order. */
  function Within(center: Position, raws: seq<RawPlace>, limit: real, dist: (Position, Position) -> real): (r: seq<Place>)
    ensures |r| <= |raws|
    ensures forall p :: p in r <==> exists i :: KeptAt(center, raws, limit, dist, i, p)
  {
    if raws == [] then []
    else
      var rest := Within(center, raws[1..], limit, dist);
      assert forall i, p :: 1 <= i <= |raws[1..]| ==>
        (KeptAt(center, raws[1..], limit, dist, i - 1, p) <==> KeptAt(center, raws, limit, dist, i, p));
      var c := Convert(center, raws[0], dist);
      assert forall p :: KeptAt(center, raws, limit, dist, 0, p) <==> c == Some(p) && p.distance <= limit;
      assert forall p :: (exists i :: KeptAt(center, raws, limit, dist, i, p)) <==>
        (c == Some(p) && p.distance <= limit) || p in rest by {
        forall p | exists i :: KeptAt(center, raws, limit, dist, i, p)
          ensures (c == Some(p) && p.distance <= limit) || p in rest
        {
          var i :| KeptAt(center, raws, limit, dist, i, p);
          if i > 0 {
            assert KeptAt(center, raws[1..], limit, dist, i - 1, p);
          }
        }
        forall p | p in rest
          ensures exists i :: KeptAt(center, raws, limit, dist, i, p)
        {
          var j :| KeptAt(center, raws[1..], limit, dist, j, p);
          assert KeptAt(center, raws, limit, dist, j + 1, p);
        }
        assert forall p :: c == Some(p) && p.distance <= limit ==> KeptAt(center, raws, limit, dist, 0, p);
      }
      if c.Some? && c.value.distance <= limit then [c.value] + rest else rest
  }

  /** One result is kept, converted, exactly when it has both coordinates and
      lies within `limit`. */
  lemma WithinOne(center: Position, raw: RawPlace, limit: real, dist: (Position, Position) -> real)
    ensures var c := Convert(center, raw, dist);
      Within(center, [raw], limit, dist) == if c.Some? && c.value.distance <= limit then [c.value] else []
  {
    assert [raw][1..] == [];
  }

  /** The filter keeps response order: the places kept from a response split in
      two are those kept from the first part, then those from the second. */
  lemma {:induction false} WithinConcat(center: Position, a: seq<RawPlace>, b: seq<RawPlace>, limit: real,
                                        dist: (Position, Position) -> real)
    ensures Within(center, a + b, limit, dist) == Within(center, a, limit, dist) + Within(center, b, limit, dist)
  {
    if a != [] {
      WithinConcat(center, a[1..], b, limit, dist);
      assert (a + b)[1..] == a[1..] + b;
      assert (a + b)[0] == a[0];
    } else {
      assert a + b == b;
    }
  }

  /** `searchNearbyPlaces(query, center, radius)`. A failed or refused request
      yields no places; otherwise every result within the radius (5 km when
      none is given) appears exactly as often as in the response, nearest first. */
  function SearchNearbyPlaces(resp: Response, center: Position, radius: Option<real>,
                              dist: (Position, Position) -> real): (r: seq<Place>)
    ensures !resp.Body? ==> r == []
    ensures SortedOn(r, PlaceDistance)
    ensures forall p :: p in r ==> p.distance <= Radius(radius) && p.distance == dist(center, p.location)
    ensures forall p :: p in r ==> p.name == BeforeFirst(p.address, ',')
    ensures resp.Body? ==> forall p :: p in r <==> exists i :: KeptAt(center, resp.places, Radius(radius), dist, i, p)
    ensures resp.Body? ==> multiset(r) == multiset(Within(center, resp.places, Radius(radius), dist))
  {
    match resp
    case Body(raws) =>
      var kept := Within(center, raws, Radius(radius), dist);
      var r := Sort(kept, PlaceDistance);
      assert forall p :: p in r <==> p in kept by {
        forall p
          ensures p in r <==> p in kept
        {
          assert p in r <==> p in multiset(r);
        }
      }
      r
    case _ => []
  }

  /** Places at the same distance keep their response order. */
  lemma SearchKeepsResponseOrderAtEqualDistance(raws: seq<RawPlace>, center: Position, radius: Option<real>,
                                                dist: (Position, Position) -> real, p: Place -> bool, d: real)
    requires forall x :: p(x) == (x.distance == d)
    ensures Seqs.Filter(SearchNearbyPlaces(Body(raws), center, radius, dist), p)
         == Seqs.Filter(Within(center, raws, Radius(radius), dist), p)
  {
    SortStable(Within(center, raws, Radius(radius), dist), PlaceDistance, p, d);
  }

  /** A place exactly at the radius is kept; one just beyond it is not. */
  lemma RadiusIsInclusive(center: Position, raw: RawPlace, dist: (Position, Position) -> real, r: real)
    requires raw.lat.Some? && raw.lon.Some?
    ensures var d := dist(center, Position(raw.lat.value, raw.lon.value));
      d == r ==> |SearchNearbyPlaces(Body([raw]), center, Some(r), dist)| == 1
    ensures var d := dist(center, Position(raw.lat.value, raw.lon.value));
      d > r ==> SearchNearbyPlaces(Body([raw]), center, Some(r), dist) == []
  {
    var p := Convert(center, raw, dist).value;
    var d := dist(center, Position(raw.lat.value, raw.lon.value));
    if d == r {
      assert KeptAt(center, [raw], r, dist, 0, p);
      assert p in Within(center, [raw], r, dist);
    }
  }

  /** Without a radius the search keeps places up to five kilometres away. */
  lemma NoRadiusMeansFiveKilometres(resp: Response, center: Position, dist: (Position, Position) -> real)
    ensures SearchNearbyPlaces(resp, center, None, dist) == SearchNearbyPlaces(resp, center, Some(5.0), dist)
  {
  }
}

=== FILE: records.dfy ===
/** The records of the five object stores, without their timestamps (only the
    item's `createdAt`, which the grocery grid orders by, is kept). */
module Records {
  import opened Wrappers
  import opened Keys

  /** A favourite store's key: the geocoder's `place_id`, supplied by the caller. */
  type StoreId = nat

  datatype Position = Position(lat: real, lng: real)

  /** A record of `shoppingLists`. */
  datatype ShoppingList = ShoppingList(id: Id, name: string, isDefault: bool)

  /** A record of `shoppingItems`. Items written before schema version 2 have no
      `listId`; `storeId` is `null` when no store was selected. */
  datatype Item = Item(
    id: Id,
    name: string,
    completed: bool,
    storeId: Option<StoreId>,
    listId: Option<Id>,
    createdAt: int)

  /** A record of `favoriteStores`; `location` may be missing. */
  datatype FavoriteStore = FavoriteStore(id: StoreId, name: string, address: string, location: Option<Position>)

  /** A reference as JavaScript holds it: a number, or the string an HTML form
      control yields. Strict equality `===` never equates the two. */
  datatype Key = Num(n: nat) | Text(s: string)

  /** JavaScript truthiness of a reference: 0 and "" are falsy. */
  predicate KeyIsTruthy(k: Key) {
    match k
    case Num(n) => n != 0
    case Text(s) => s != ""
  }

  datatype ReminderKind = TimeBased | LocationBased

  /** A record of `reminders`: a time-based reminder fires at `time`, a
      location-based one near the favourite store `storeId`. */
  datatype Reminder = Reminder(
    id: Id,
    itemId: Key,
    kind: ReminderKind,
    time: string,
    storeId: Key,
    message: string)

  /** A record of `settings`: opaque key/value pairs. */
  datatype Setting = Setting(id: string, value: string)
}

=== FILE: reminders.dfy ===
/** The reminders panel (`Reminders.jsx`): evaluation of location reminders on
    each position update, the add-reminder form and its time scheduling, and
    deletion. Distance is the caller's `dist` (the haversine formula of
    `locationService.js`); notification dispatch is an emitted `Notification` value. */
module Reminders {
  import opened Wrappers
  import opened Keys
  import opened Records
  import opened Text
  import Seqs
  import Storage
  import StorageLemmas

  const ReminderTitle: string := "Shopping Reminder"

  /** The proximity threshold, in kilometres. */
  const NearbyKm: real := 0.5

  /** A request to the notification gateway: title, body and de-duplication tag. */
  datatype Notification = Notification(title: string, body: string, tag: string)

  /** A notification to be shown at epoch millisecond `at`. */
  datatype Scheduled = Scheduled(notification: Notification, at: int)

  datatype Permission = Granted | Denied | Undecided

  /** `reminder-{id}`. */
  function Tag(id: Id): string {
    "reminder-" + NatToString(id)
  }

  /** Distinct reminders get distinct tags. */
  lemma TagInjective(a: Id, b: Id)
    requires Tag(a) == Tag(b)
    ensures a == b
  {
    assert NatToString(a) == Tag(a)[9..];
    assert NatToString(b) == Tag(b)[9..];
    RenderInjective(a, b);
  }

  /** `items.find(i => i.id === key)`. */
  function FindItem(items: seq<Item>, key: Key): (r: Option<Item>)
    ensures r.Some? ==> r.value in items && Num(r.value.id) == key
    ensures r.None? <==> forall i :: 0 <= i < |items| ==> Num(items[i].id) != key
  {
    var r := Seqs.Find(items, (i: Item) => Num(i.id) == key);
    r
  }

  /** `favoriteStores.find(s => s.id === key)`. */
  function FindStore(stores: seq<FavoriteStore>, key: Key): (r: Option<FavoriteStore>)
    ensures r.Some? ==> r.value in stores && Num(r.value.id) == key
    ensures r.None? <==> forall i :: 0 <= i < |stores| ==> Num(stores[i].id) != key
  {
    Seqs.Find(stores, (s: FavoriteStore) => Num(s.id) == key)
  }

  /** The body of a location notification: the custom message when non-empty. */
  function LocationBody(r: Reminder, item: Item, store: FavoriteStore): string {
    if r.message != "" then r.message
    else "Don't forget to buy " + item.name + " at " + store.name + "!"
  }

  /** The conditions under which a reminder fires at `pos`, one per guard of the
      position callback. */
  predicate Fires(r: Reminder, items: seq<Item>, stores: seq<FavoriteStore>, pos: Position,
                  dist: (Position, Position) -> real)
  {
    && r.kind == LocationBased
    && KeyIsTruthy(r.storeId)
    && FindStore(stores, r.storeId).Some?
    && FindStore(stores, r.storeId).value.location.Some?
    && dist(pos, FindStore(stores, r.storeId).value.location.value) <= NearbyKm
    && FindItem(items, r.itemId).Some?
    && !FindItem(items, r.itemId).value.completed
  }

  /** The notification, if any, one reminder requests on a position update. */
  function CheckReminder(r: Reminder, items: seq<Item>, stores: seq<FavoriteStore>, pos: Position,
                         dist: (Position, Position) -> real): (n: Option<Notification>)
    ensures n.Some? <==> Fires(r, items, stores, pos, dist)
    ensures n.Some? ==> n.value.title == ReminderTitle && n.value.tag == Tag(r.id)
    ensures n.Some? ==>
      n.value.body == LocationBody(r, FindItem(items, r.itemId).value, FindStore(stores, r.storeId).value)
  {
    if r.kind != LocationBased || !KeyIsTruthy(r.storeId) then None
    else match FindStore(stores, r.storeId)
      case None => None
      case Some(store) =>
        match store.location
        case None => None
        case Some(loc) =>
          if dist(pos, loc) > NearbyKm then None
          else match FindItem(items, r.itemId)
            case None => None
            case Some(item) =>
              if item.completed then None
              else Some(Notification(ReminderTitle, LocationBody(r, item, store), Tag(r.id)))
  }

  /** The tag of a requested notification names its reminder. */
  lemma CheckReminderTag(r: Reminder, items: seq<Item>, stores: seq<FavoriteStore>, pos: Position,
                         dist: (Position, Position) -> real)
    ensures forall n :: CheckReminder(r, items, stores, pos, dist) == Some(n) ==> n.tag == Tag(r.id)
  {
  }

  /** What one reminder contributes to a position update: its notification, if any. */
  function Requested(r: Reminder, items: seq<Item>, stores: seq<FavoriteStore>, pos: Position,
                     dist: (Position, Position) -> real): (ns: seq<Notification>)
    ensures |ns| <= 1
    ensures ns != [] <==> Fires(r, items, stores, pos, dist)
    ensures ns != [] ==> ns == [CheckReminder(r, items, stores, pos, dist).value]
  {
    match CheckReminder(r, items, stores, pos, dist)
    case None => []
    case Some(n) => [n]
  }

  /** The position callback: the notifications requested, in reminder order. */
  function Evaluate(reminders: seq<Reminder>, items: seq<Item>, stores: seq<FavoriteStore>, pos: Position,
                    dist: (Position, Position) -> real): (ns: seq<Notification>)
    ensures |ns| <= |reminders|
    ensures forall i :: 0 <= i < |ns| ==> ns[i].title == ReminderTitle
  {
    if reminders == [] then []
    else Requested(reminders[0], items, stores, pos, dist) + Evaluate(reminders[1..], items, stores, pos, dist)
  }

  /** One reminder requests its notification exactly when it fires. */
  lemma EvaluateOne(r: Reminder, items: seq<Item>, stores: seq<FavoriteStore>, pos: Position,
                    dist: (Position, Position) -> real)
    ensures Fires(r, items, stores, pos, dist) ==>
      Evaluate([r], items, stores, pos, dist) == [CheckReminder(r, items, stores, pos, dist).value]
    ensures !Fires(r, items, stores, pos, dist) ==> Evaluate([r], items, stores, pos, dist) == []
  {
    assert [r][1..] == [];
  }

  /** One step of `Evaluate` on a run followed by another. */
  lemma EvaluateStep(a: seq<Reminder>, b: seq<Reminder>, items: seq<Item>, stores: seq<FavoriteStore>,
                     pos: Position, dist: (Position, Position) -> real)
    requires a != []
    ensures Evaluate(a + b, items, stores, pos, dist) ==
      Requested(a[0], items, stores, pos, dist) + Evaluate(a[1..] + b, items, stores, pos, dist)
  {
    assert (a + b)[1..] == a[1..] + b && (a + b)[0] == a[0];
  }

  /** The reminders are visited in order (`forEach`): the notifications for a
      run of reminders followed by another are those of the first run, then
      those of the second. */
  lemma {:induction false} EvaluateConcat(a: seq<Reminder>, b: seq<Reminder>, items: seq<Item>,
                                          stores: seq<FavoriteStore>, pos: Position,
                                          dist: (Position, Position) -> real)
    ensures Evaluate(a + b, items, stores, pos, dist) ==
      Evaluate(a, items, stores, pos, dist) + Evaluate(b, items, stores, pos, dist)
  {
    if a == [] {
      assert a + b == b;
    } else {
      EvaluateConcat(a[1..], b, items, stores, pos, dist);
      EvaluateStep(a, b, items, stores, pos, dist);
      Seqs.ConcatAssoc(Requested(a[0], items, stores, pos, dist),
                       Evaluate(a[1..], items, stores, pos, dist), Evaluate(b, items, stores, pos, dist));
    }
  }

  /** Every requested notification is one a firing reminder asked for. */
  lemma {:induction false} EvaluateSound(reminders: seq<Reminder>, items: seq<Item>, stores: seq<FavoriteStore>,
                                         pos: Position, dist: (Position, Position) -> real)
    ensures forall n :: n in Evaluate(reminders, items, stores, pos, dist) ==>
      exists r :: r in reminders && Fires(r, items, stores, pos, dist) && CheckReminder(r, items, stores, pos, dist) == Some(n)
  {
    if reminders != [] {
      EvaluateSound(reminders[1..], items, stores, pos, dist);
      forall n | n in Evaluate(reminders, items, stores, pos, dist)
        ensures exists r :: r in reminders && Fires(r, items, stores, pos, dist) && CheckReminder(r, items, stores, pos, dist) == Some(n)
      {
        if n !in Evaluate(reminders[1..], items, stores, pos, dist) {
          assert CheckReminder(reminders[0], items, stores, pos, dist) == Some(n);
        } else {
          var r :| r in reminders[1..] && Fires(r, items, stores, pos, dist) && CheckReminder(r, items, stores, pos, dist) == Some(n);
          assert r in reminders;
        }
      }
    }
  }

  /** Every firing reminder's notification is requested. */
  lemma {:induction false} EvaluateComplete(reminders: seq<Reminder>, items: seq<Item>, stores: seq<FavoriteStore>,
                                            pos: Position, dist: (Position, Position) -> real)
    ensures forall r :: r in reminders && Fires(r, items, stores, pos, dist) ==>
      CheckReminder(r, items, stores, pos, dist).value in Evaluate(reminders, items, stores, pos, dist)
  {
    if reminders != [] {
      EvaluateComplete(reminders[1..], items, stores, pos, dist);
      assert forall r :: r in reminders ==> r == reminders[0] || r in reminders[1..];
    }
  }

  predicate TagsDistinct(ns: seq<Notification>) {
    forall i, j :: 0 <= i < j < |ns| ==> ns[i].tag != ns[j].tag
  }

  predicate IdsDistinct(rs: seq<Reminder>) {
    forall i, j :: 0 <= i < j < |rs| ==> rs[i].id != rs[j].id
  }

  /** Reminders with distinct ids request notifications with distinct tags: one
      position update asks for at most one notification per reminder. */
  lemma {:induction false} EvaluateTagsDistinct(reminders: seq<Reminder>, items: seq<Item>,
                                                stores: seq<FavoriteStore>, pos: Position,
                                                dist: (Position, Position) -> real)
    requires IdsDistinct(reminders)
    ensures TagsDistinct(Evaluate(reminders, items, stores, pos, dist))
  {
    if reminders != [] {
      var head := reminders[0];
      var tail := reminders[1..];
      var rest := Evaluate(tail, items, stores, pos, dist);
      EvaluateTagsDistinct(tail, items, stores, pos, dist);
      HeadTagIsFresh(head, tail, items, stores, pos, dist);
      var req := Requested(head, items, stores, pos, dist);
      assert Evaluate(reminders, items, stores, pos, dist) == req + rest;
      PrependFreshTag(req, rest, Tag(head.id));
    }
  }

  /** At most one notification tagged `t`, put before notifications with
      distinct tags none of which is `t`, keeps the tags distinct. */
  lemma PrependFreshTag(req: seq<Notification>, rest: seq<Notification>, t: string)
    requires |req| <= 1 && (req != [] ==> req[0].tag == t)
    requires TagsDistinct(rest) && forall n :: n in rest ==> n.tag != t
    ensures TagsDistinct(req + rest)
  {
    if req != [] {
      var ns := req + rest;
      forall i, j | 0 <= i < j < |ns|
        ensures ns[i].tag != ns[j].tag
      {
        assert ns[j] == rest[j - 1];
        if i > 0 {
          assert ns[i] == rest[i - 1];
        }
      }
    } else {
      assert req + rest == rest;
    }
  }

  /** No notification the later reminders request carries the tag of a reminder
      whose id none of them has. */
  lemma HeadTagIsFresh(head: Reminder, tail: seq<Reminder>, items: seq<Item>,
                       stores: seq<FavoriteStore>, pos: Position, dist: (Position, Position) -> real)
    requires forall j :: 0 <= j < |tail| ==> tail[j].id != head.id
    ensures forall n :: n in Evaluate(tail, items, stores, pos, dist) ==> n.tag != Tag(head.id)
  {
    EvaluateSound(tail, items, stores, pos, dist);
    forall n | n in Evaluate(tail, items, stores, pos, dist)
      ensures n.tag != Tag(head.id)
    {
      var r :| r in tail && CheckReminder(r, items, stores, pos, dist) == Some(n);
      CheckReminderTag(r, items, stores, pos, dist);
      assert r.id != head.id;
      if n.tag == Tag(head.id) {
        TagInjective(r.id, head.id);
      }
    }
  }

  /** A time reminder, or one whose store or item is missing, requests nothing. */
  lemma OrphanedOrTimedRemindersAreSilent(r: Reminder, items: seq<Item>, stores: seq<FavoriteStore>,
                                          pos: Position, dist: (Position, Position) -> real)
    requires r.kind == TimeBased || FindStore(stores, r.storeId).None? || FindItem(items, r.itemId).None?
    ensures CheckReminder(r, items, stores, pos, dist).None?
    ensures forall n :: n in Evaluate([r], items, stores, pos, dist) ==> false
  {
  }

  // ---------------------------------------------------------------- time reminders

  /** The body of a scheduled notification: the custom message when non-empty. */
  function TimeBody(r: Reminder, item: Item): string {
    if r.message != "" then r.message else "Don't forget to buy " + item.name + "!"
  }

  /** The scheduling decision after a reminder is added: only a time reminder,
      with notifications granted, whose item exists and whose time (`timeMs`,
      absent when the time does not parse) is strictly after `nowMs`. */
  function Schedule(r: Reminder, permission: Permission, items: seq<Item>, nowMs: int, timeMs: Option<int>): (s: Option<Scheduled>)
    ensures s.Some? <==> r.kind == TimeBased && permission == Granted && FindItem(items, r.itemId).Some?
                         && timeMs.Some? && timeMs.value > nowMs
    ensures s.Some? ==> s.value.at == timeMs.value && s.value.at > nowMs
    ensures s.Some? ==>
      s.value.notification == Notification(ReminderTitle, TimeBody(r, FindItem(items, r.itemId).value), Tag(r.id))
  {
    if r.kind != TimeBased || permission != Granted then None
    else match FindItem(items, r.itemId)
      case None => None
      case Some(item) =>
        if timeMs.Some? && timeMs.value > nowMs
        then Some(Scheduled(Notification(ReminderTitle, TimeBody(r, item), Tag(r.id)), timeMs.value))
        else None
  }

  // ---------------------------------------------------------------- the form

  /** The add-reminder form: every field is the string its control yields. */
  datatype ReminderForm = ReminderForm(itemId: string, kind: ReminderKind, time: string, storeId: string, message: string)

  const BlankForm: ReminderForm := ReminderForm("", TimeBased, "", "", "")

  /** The form lacks what its reminder type needs: submitting does nothing. */
  predicate Incomplete(f: ReminderForm) {
    f.itemId == "" || (f.kind == TimeBased && f.time == "") || (f.kind == LocationBased && f.storeId == "")
  }

  /** The form's reference as `Reminders.jsx` stores it: the control's string. */
  function FormKeyAsWritten(s: string): Key {
    Text(s)
  }

  /** The form's reference read back as the number the option was rendered from. */
  function FormKey(s: string): (k: Key)
    ensures s != "" && AllDigits(s) ==> k == Num(ParseDigits(s))
    ensures !(s != "" && AllDigits(s)) ==> k == Text(s)
  {
    if s != "" && AllDigits(s) then Num(ParseDigits(s)) else Text(s)
  }

  /** The reminder `handleAddReminder` stores, as written: the form's strings. */
  function FormToReminderAsWritten(f: ReminderForm): Reminder {
    Reminder(0, FormKeyAsWritten(f.itemId), f.kind, f.time, FormKeyAsWritten(f.storeId), f.message)
  }

  /** The reminder with its references read back as numbers. */
  function FormToReminder(f: ReminderForm): Reminder {
    Reminder(0, FormKey(f.itemId), f.kind, f.time, FormKey(f.storeId), f.message)
  }

  /** As written, a reminder made from the form never finds its item or store:
      the form holds strings, the records hold numbers, and `===` compares types. */
  lemma FormReminderAsWrittenNeverResolves(f: ReminderForm, items: seq<Item>, stores: seq<FavoriteStore>,
                                           pos: Position, dist: (Position, Position) -> real,
                                           permission: Permission, nowMs: int, timeMs: Option<int>)
    ensures var r := FormToReminderAsWritten(f);
      && FindItem(items, r.itemId).None?
      && FindStore(stores, r.storeId).None?
      && CheckReminder(r, items, stores, pos, dist).None?
      && Schedule(r, permission, items, nowMs, timeMs).None?
  {
  }

  /** Read back as numbers, the option chosen for item `n` finds that item. */
  lemma FormKeyFindsOfferedItem(items: seq<Item>, n: Id)
    requires exists i :: 0 <= i < |items| && items[i].id == n
    ensures FindItem(items, FormKey(NatToString(n))).Some?
    ensures FindItem(items, FormKey(NatToString(n))).value.id == n
  {
    ParseRendered(n);
  }

  /** Read back as numbers, a location reminder made from the form for an
      incomplete item and a nearby store with a location fires. */
  lemma FormReminderFires(f: ReminderForm, items: seq<Item>, stores: seq<FavoriteStore>, pos: Position,
                          dist: (Position, Position) -> real, item: Item, store: FavoriteStore)
    requires f.kind == LocationBased && store.id != 0
    requires f.itemId == NatToString(item.id) && f.storeId == NatToString(store.id)
    requires FindItem(items, Num(item.id)) == Some(item) && !item.completed
    requires FindStore(stores, Num(store.id)) == Some(store)
    requires store.location.Some? && dist(pos, store.location.value) <= NearbyKm
    ensures Fires(FormToReminder(f), items, stores, pos, dist)
  {
    ParseRendered(item.id);
    ParseRendered(store.id);
  }

  // ---------------------------------------------------------------- handlers

  /** The panel's local state: the reminders shown and the form. */
  datatype Panel = Panel(reminders: seq<Reminder>, form: ReminderForm)

  datatype AddOutcome = AddOutcome(db: Storage.Db, panel: Panel, scheduled: Option<Scheduled>)

  /** `handleAddReminder` as written: an incomplete form changes nothing and
      calls no storage; otherwise the reminder is stored with the form's strings
      as references, appended to the panel with its new id, and the form is
      reset. Scheduling is decided on the stored reminder, whose item reference
      is a string. */
  function HandleAddReminderAsWritten(db: Storage.Db, panel: Panel, permission: Permission, items: seq<Item>,
                                      nowMs: int, timeMs: Option<int>): (r: AddOutcome)
    ensures Incomplete(panel.form) ==> r == AddOutcome(db, panel, None)
    ensures !Incomplete(panel.form) ==>
      var w := Storage.AddReminder(db, FormToReminderAsWritten(panel.form));
      var added := FormToReminderAsWritten(panel.form).(id := w.key);
      && r.db == w.db
      && r.panel.reminders == panel.reminders + [added]
      && r.panel.form == BlankForm
      && r.scheduled == Schedule(added, permission, items, nowMs, timeMs)
  {
    if Incomplete(panel.form) then AddOutcome(db, panel, None)
    else
      var draft := FormToReminderAsWritten(panel.form);
      var w := Storage.AddReminder(db, draft);
      var added := draft.(id := w.key);
      AddOutcome(w.db, Panel(panel.reminders + [added], BlankForm), Schedule(added, permission, items, nowMs, timeMs))
  }

  /** As written, adding a reminder never schedules a notification: the stored
      item reference is a string, and no item id is. */
  lemma AsWrittenAddSchedulesNothing(db: Storage.Db, panel: Panel, permission: Permission, items: seq<Item>,
                                     nowMs: int, timeMs: Option<int>)
    ensures HandleAddReminderAsWritten(db, panel, permission, items, nowMs, timeMs).scheduled.None?
  {
  }

  /** `handleAddReminder` with the form's references read back as numbers: the
      same steps, and a time reminder is scheduled exactly when `Schedule`
      decides so for the stored reminder. */
  function HandleAddReminder(db: Storage.Db, panel: Panel, permission: Permission, items: seq<Item>,
                             nowMs: int, timeMs: Option<int>): (r: AddOutcome)
    ensures Incomplete(panel.form) ==> r == AddOutcome(db, panel, None)
    ensures !Incomplete(panel.form) ==>
      var w := Storage.AddReminder(db, FormToReminder(panel.form));
      var added := FormToReminder(panel.form).(id := w.key);
      && r.db == w.db
      && r.panel.reminders == panel.reminders + [added]
      && r.panel.form == BlankForm
      && r.scheduled == Schedule(added, permission, items, nowMs, timeMs)
    ensures r.scheduled.Some? ==> !Incomplete(panel.form) && panel.form.kind == TimeBased && permission == Granted
    ensures r.scheduled.Some? ==> timeMs.Some? && r.scheduled.value.at == timeMs.value > nowMs
  {
    if Incomplete(panel.form) then AddOutcome(db, panel, None)
    else
      var draft := FormToReminder(panel.form);
      var w := Storage.AddReminder(db, draft);
      var added := draft.(id := w.key);
      AddOutcome(w.db, Panel(panel.reminders + [added], BlankForm), Schedule(added, permission, items, nowMs, timeMs))
  }

  /** With the references read back as numbers, a time reminder chosen for an
      existing item, due in the future, with notifications granted, is
      scheduled at its time with the item's default body and its tag. */
  lemma AddedTimeReminderIsScheduled(db: Storage.Db, panel: Panel, items: seq<Item>, nowMs: int, t: int, item: Item)
    requires panel.form.kind == TimeBased && panel.form.time != ""
    requires panel.form.itemId == NatToString(item.id)
    requires FindItem(items, Num(item.id)) == Some(item)
    requires t > nowMs
    ensures var key := Storage.AddReminder(db, FormToReminder(panel.form)).key;
      var body := if panel.form.message != "" then panel.form.message else "Don't forget to buy " + item.name + "!";
      HandleAddReminder(db, panel, Granted, items, nowMs, Some(t)).scheduled ==
        Some(Scheduled(Notification(ReminderTitle, body, Tag(key)), t))
  {
    ParseRendered(item.id);
  }

  /** When the panel shows the store's reminders, it still does after an add. */
  lemma AddKeepsPanelInStep(db: Storage.Db, panel: Panel, permission: Permission, items: seq<Item>,
                            nowMs: int, timeMs: Option<int>)
    requires panel.reminders == Storage.GetReminders(db)
    ensures var r := HandleAddReminder(db, panel, permission, items, nowMs, timeMs);
      r.panel.reminders == Storage.GetReminders(r.db)
  {
    if !Incomplete(panel.form) {
      StorageLemmas.AddReminderThenGetReminders(db, FormToReminder(panel.form));
    }
  }

  /** The test `r.id !== id` of the delete handler. */
  function OtherThan(id: Id): Reminder -> bool {
    (x: Reminder) => x.id != id
  }

  /** `handleDeleteReminder(id)`: deletes it from the store and drops exactly the
      reminders with that id from the panel, keeping the rest in order. */
  function HandleDeleteReminder(db: Storage.Db, panel: Panel, id: Id): (r: (Storage.Db, Panel))
    ensures r.0 == Storage.DeleteReminder(db, id)
    ensures r.1.form == panel.form
    ensures forall x :: x in r.1.reminders <==> x in panel.reminders && x.id != id
  {
    (Storage.DeleteReminder(db, id), Panel(Seqs.Filter(panel.reminders, OtherThan(id)), panel.form))
  }

  /** When the panel shows the store's reminders, it still does after a delete,
      in the same order. */
  lemma DeleteKeepsPanelInStep(db: Storage.Db, panel: Panel, id: Id)
    requires panel.reminders == Storage.GetReminders(db)
    ensures var r := HandleDeleteReminder(db, panel, id);
      r.1.reminders == Storage.GetReminders(r.0)
  {
    StorageLemmas.DeleteReminderKeepsOrder(db, id, OtherThan(id));
  }
}

=== FILE: seqs.dfy ===
/** The array methods the components use (`filter`, `find`, `map`), as functions
    on sequences with the guarantees callers rely on. */
module Seqs {
  import opened Wrappers

  /** `s.filter(p)`: the elements satisfying `p`, in their original order. */
  function Filter<T>(s: seq<T>, p: T -> bool): (r: seq<T>)
    ensures |r| <= |s|
    ensures forall i :: 0 <= i < |r| ==> p(r[i])
    ensures multiset(r) <= multiset(s)
    ensures forall x :: x in r ==> x in s
    ensures forall i :: 0 <= i < |s| && p(s[i]) ==> s[i] in r
    ensures (forall i :: 0 <= i < |s| ==> p(s[i])) ==> r == s
  {
    FilterKeeps(s, p);
    FilterSubMultiset(s, p);
    FilterMembers(s, p);
    FilterComplete(s, p);
    FilterAll(s, p);
    Kept(s, p)
  }

  /** The recursion behind `Filter`. */
  function Kept<T>(s: seq<T>, p: T -> bool): seq<T>
  {
    if s == [] then []
    else if p(s[0]) then [s[0]] + Kept(s[1..], p)
    else Kept(s[1..], p)
  }

  lemma {:induction false} FilterKeeps<T>(s: seq<T>, p: T -> bool)
    ensures |Kept(s, p)| <= |s|
    ensures forall i :: 0 <= i < |Kept(s, p)| ==> p(Kept(s, p)[i])
  {
    if s != [] {
      FilterKeeps(s[1..], p);
    }
  }

  lemma {:induction false} FilterSubMultiset<T>(s: seq<T>, p: T -> bool)
    ensures multiset(Kept(s, p)) <= multiset(s)
  {
    if s != [] {
      FilterSubMultiset(s[1..], p);
      assert s == [s[0]] + s[1..];
    }
  }

  lemma {:induction false} FilterMembers<T>(s: seq<T>, p: T -> bool)
    ensures forall x :: x in Kept(s, p) ==> x in s
  {
    if s != [] {
      FilterMembers(s[1..], p);
    }
  }

  lemma {:induction false} FilterComplete<T>(s: seq<T>, p: T -> bool)
    ensures forall i :: 0 <= i < |s| && p(s[i]) ==> s[i] in Kept(s, p)
  {
    if s != [] {
      FilterComplete(s[1..], p);
      forall i | 1 <= i < |s| && p(s[i])
        ensures s[i] in Kept(s, p)
      {
        assert s[i] == s[1..][i - 1];
      }
    }
  }

  lemma {:induction false} FilterAll<T>(s: seq<T>, p: T -> bool)
    ensures (forall i :: 0 <= i < |s| ==> p(s[i])) ==> Kept(s, p) == s
  {
    if s != [] && forall i :: 0 <= i < |s| ==> p(s[i]) {
      assert forall i :: 0 <= i < |s[1..]| ==> p(s[1..][i]) by {
        forall i | 0 <= i < |s[1..]|
          ensures p(s[1..][i])
        {
          assert s[1..][i] == s[i + 1];
        }
      }
      FilterAll(s[1..], p);
      assert s == [s[0]] + s[1..];
    }
  }

  /** Filtering distributes over concatenation: the kept elements stay in order. */
  lemma {:induction false} FilterConcat<T>(a: seq<T>, b: seq<T>, p: T -> bool)
    ensures Filter(a + b, p) == Filter(a, p) + Filter(b, p)
  {
    KeptConcat(a, b, p);
  }

  lemma {:induction false} KeptConcat<T>(a: seq<T>, b: seq<T>, p: T -> bool)
    ensures Kept(a + b, p) == Kept(a, p) + Kept(b, p)
  {
    if a == [] {
      assert a + b == b;
    } else {
      assert (a + b)[1..] == a[1..] + b;
      KeptConcat(a[1..], b, p);
    }
  }

  /** A single element is kept exactly when it satisfies `p`. */
  lemma FilterOne<T>(x: T, p: T -> bool)
    ensures Filter([x], p) == if p(x) then [x] else []
  {
    assert [x][1..] == [];
  }

  /** The first element kept is the first element satisfying `p`. */
  lemma {:induction false} FilterHead<T>(s: seq<T>, p: T -> bool)
    ensures Filter(s, p) != [] ==>
      exists i :: 0 <= i < |s| && Filter(s, p)[0] == s[i] && forall j :: 0 <= j < i ==> !p(s[j])
  {
    if s != [] && !p(s[0]) {
      FilterHead(s[1..], p);
      if Filter(s, p) != [] {
        var i :| 0 <= i < |s[1..]| && Filter(s[1..], p)[0] == s[1..][i] && forall j :: 0 <= j < i ==> !p(s[1..][j]);
        assert forall j :: 0 <= j < i + 1 ==> !p(s[j]) by {
          assert forall j :: 1 <= j < i + 1 ==> s[j] == s[1..][j - 1];
        }
      }
    }
  }

  /** The index of the first element satisfying `p`, if any. */
  function FirstIndex<T>(s: seq<T>, p: T -> bool): (r: Option<nat>)
    ensures r.Some? ==> r.value < |s| && p(s[r.value])
    ensures r.Some? ==> forall j :: 0 <= j < r.value ==> !p(s[j])
    ensures r.None? ==> forall j :: 0 <= j < |s| ==> !p(s[j])
  {
    if s == [] then None
    else if p(s[0]) then Some(0)
    else match FirstIndex(s[1..], p)
      case None => None
      case Some(i) => Some(i + 1)
  }

  /** `s.find(p)`: the first element satisfying `p`, or `undefined`. */
  function Find<T>(s: seq<T>, p: T -> bool): (r: Option<T>)
    ensures r.None? <==> forall j :: 0 <= j < |s| ==> !p(s[j])
    ensures r.Some? ==> exists i :: 0 <= i < |s| && s[i] == r.value && p(s[i]) && forall j :: 0 <= j < i ==> !p(s[j])
  {
    match FirstIndex(s, p)
    case None => None
    case Some(i) => Some(s[i])
  }

  /** `s.map(f)`. */
  function Map<T, U>(s: seq<T>, f: T -> U): (r: seq<U>)
    ensures |r| == |s|
    ensures forall i :: 0 <= i < |s| ==> r[i] == f(s[i])
  {
    seq(|s|, i requires 0 <= i < |s| => f(s[i]))
  }

  /** Concatenation is associative. */
  lemma ConcatAssoc<T>(a: seq<T>, b: seq<T>, c: seq<T>)
    ensures a + (b + c) == (a + b) + c
  {
  }
}

=== FILE: shopping_list.dfy ===
/** The item view of one list (`ShoppingList.jsx`): loading the active list's
    items, adding, completing, deleting, assigning to the selected store and
    moving items, and clearing the view when its list is deleted. The view's
    local items are kept equal, as a collection, to the store's items of the
    active list; `Shows` states that and each handler keeps it. */
module ShoppingList {
  import opened Wrappers
  import opened Keys
  import opened Records
  import opened Text
  import opened Storage
  import Seqs
  import StoreFilter
  import StorageLemmas

  /** The view's items and its `activeListId` (`null` is `None`). */
  datatype Screen = Screen(items: seq<Item>, active: Option<Id>)

  datatype Outcome = Outcome(db: Db, screen: Screen)

  /** The local items are exactly the stored items filed under list `a`. */
  predicate Shows(items: seq<Item>, db: Db, a: Id) {
    && (forall x :: x in items ==> x.id in db.items && db.items[x.id] == x && x.listId == Some(a))
    && (forall k :: k in db.items && db.items[k].listId == Some(a) ==> db.items[k] in items)
  }

  /** `Shows` is membership in `getItems(a)`. */
  lemma ShowsIsItemsOfList(items: seq<Item>, db: Db, a: Id)
    ensures Shows(items, db, a) <==> forall x :: x in items <==> x in ItemsOfList(db, a)
  {
    if forall x :: x in items <==> x in ItemsOfList(db, a) {
      ListedItemsAreShown(items, db, a);
    }
    if Shows(items, db, a) {
      ShownItemsAreListed(items, db, a);
    }
  }

  lemma ListedItemsAreShown(items: seq<Item>, db: Db, a: Id)
    requires forall x :: x in items <==> x in ItemsOfList(db, a)
    ensures Shows(items, db, a)
  {
    forall k | k in db.items && db.items[k].listId == Some(a)
      ensures db.items[k] in items
    {
      assert db.items[k] in db.items.Values;
    }
    forall x | x in items
      ensures x.id in db.items && db.items[x.id] == x
    {
      var k :| k in db.items && db.items[k] == x;
    }
  }

  lemma ShownItemsAreListed(items: seq<Item>, db: Db, a: Id)
    requires Shows(items, db, a)
    ensures forall x :: x in ItemsOfList(db, a) ==> x in items
  {
    forall x | x in ItemsOfList(db, a)
      ensures x in items
    {
      var k :| k in db.items && db.items[k] == x;
    }
  }

  /** The effect of lines 17-40: with a truthy active list its items are read;
      with none the view is left as it is. */
  function LoadItems(db: Db, s: Screen): (r: Screen)
    ensures !IsTruthy(s.active) ==> r == s
    ensures IsTruthy(s.active) ==> r.active == s.active && Shows(r.items, db, s.active.value)
  {
    if !IsTruthy(s.active) then s
    else
      var items := GetItems(db, s.active);
      ShowsIsItemsOfList(items, db, s.active.value);
      s.(items := items)
  }

  /** `handleAddItem`: a blank name or no active list adds nothing; otherwise the
      trimmed name is stored as an incomplete item of the active list, assigned
      to the selected store, and appended locally. */
  function HandleAddItem(db: Db, s: Screen, text: string, selected: Option<FavoriteStore>, now: int): (r: Outcome)
    ensures Blank(text) || !IsTruthy(s.active) ==> r == Outcome(db, s)
    ensures !Blank(text) && IsTruthy(s.active) ==>
      var w := AddItem(db, ItemDraft(Trim(text), Some(false), StoreFilter.SelectedStoreId(selected), s.active), now);
      && r.db == w.db
      && w.db.items[w.key] == Item(w.key, Trim(text), false, StoreFilter.SelectedStoreId(selected), s.active, now)
      && r.screen == Screen(s.items + [w.db.items[w.key]], s.active)
  {
    if Blank(text) || !IsTruthy(s.active) then Outcome(db, s)
    else
      var storeId := StoreFilter.SelectedStoreId(selected);
      var w := AddItem(db, ItemDraft(Trim(text), Some(false), storeId, s.active), now);
      Outcome(w.db, Screen(s.items + [Item(w.key, Trim(text), false, storeId, s.active, now)], s.active))
  }

  /** Adding keeps the view in step with the store. */
  lemma AddKeepsShows(db: Db, s: Screen, text: string, selected: Option<FavoriteStore>, now: int)
    requires IsTruthy(s.active) && Shows(s.items, db, s.active.value)
    ensures var r := HandleAddItem(db, s, text, selected, now);
      Shows(r.screen.items, r.db, s.active.value)
  {
    if !Blank(text) {
      var w := AddItem(db, ItemDraft(Trim(text), Some(false), StoreFilter.SelectedStoreId(selected), s.active), now);
      assert w.db.items == db.items[w.key := w.db.items[w.key]];
    }
  }

  /** The local items with every entry carrying `updated`'s id replaced by it:
      `items.map(i => i.id === item.id ? updatedItem : i)`. */
  function Replaced(items: seq<Item>, updated: Item): (r: seq<Item>)
    ensures |r| == |items|
    ensures forall i :: 0 <= i < |r| ==> r[i] == if items[i].id == updated.id then updated else items[i]
  {
    Seqs.Map(items, (x: Item) => if x.id == updated.id then updated else x)
  }

  /** Rewriting a shown item in place, keeping its id and list, keeps the view in
      step with the store. */
  lemma ReplaceKeepsShows(db: Db, items: seq<Item>, a: Id, item: Item, updated: Item)
    requires Shows(items, db, a) && item in items
    requires updated.id == item.id && updated.listId == item.listId
    ensures Shows(Replaced(items, updated), UpdateItem(db, updated), a)
  {
    var after := UpdateItem(db, updated);
    var r := Replaced(items, updated);
    var j :| 0 <= j < |items| && items[j] == item;
    assert r[j] == updated;
    forall k | k in after.items && after.items[k].listId == Some(a)
      ensures after.items[k] in r
    {
      if k != updated.id {
        var i :| 0 <= i < |items| && items[i] == db.items[k];
        assert r[i] == items[i];
      }
    }
  }

  /** `handleToggleComplete(item)`: the item is stored with `completed` flipped,
      and every local entry with its id becomes that record. */
  function HandleToggleComplete(db: Db, s: Screen, item: Item): (r: Outcome)
    ensures r.db.items.Keys == db.items.Keys + {item.id}
    ensures r.db.items[item.id] == item.(completed := !item.completed)
    ensures forall k :: k in db.items && k != item.id ==> r.db.items[k] == db.items[k]
    ensures r.db.lists == db.lists
    ensures r.screen.active == s.active && |r.screen.items| == |s.items|
    ensures forall i :: 0 <= i < |s.items| ==>
      r.screen.items[i] == if s.items[i].id == item.id then item.(completed := !item.completed) else s.items[i]
  {
    var updated := item.(completed := !item.completed);
    Outcome(UpdateItem(db, updated), s.(items := Replaced(s.items, updated)))
  }

  /** Completing a shown item keeps the view in step with the store. */
  lemma ToggleKeepsShows(db: Db, s: Screen, a: Id, item: Item)
    requires Shows(s.items, db, a) && item in s.items
    ensures Shows(HandleToggleComplete(db, s, item).screen.items, HandleToggleComplete(db, s, item).db, a)
  {
    ReplaceKeepsShows(db, s.items, a, item, item.(completed := !item.completed));
  }

  /** Toggling a shown item twice restores both the store and the view. */
  lemma ToggleTwiceRestores(db: Db, s: Screen, a: Id, item: Item)
    requires Shows(s.items, db, a) && item in s.items
    ensures var once := HandleToggleComplete(db, s, item);
      HandleToggleComplete(once.db, once.screen, item.(completed := !item.completed)) == Outcome(db, s)
  {
    var once := HandleToggleComplete(db, s, item);
    var twice := HandleToggleComplete(once.db, once.screen, item.(completed := !item.completed));
    assert item.(completed := !item.completed).(completed := !!item.completed) == item;
    assert twice.db.items == db.items;
    forall i | 0 <= i < |s.items|
      ensures twice.screen.items[i] == s.items[i]
    {
      assert s.items[i] in s.items;
    }
  }

  /** `handleDeleteItem(id)`: the key is deleted and every local entry with that
      id dropped. */
  function HandleDeleteItem(db: Db, s: Screen, id: Id): (r: Outcome)
    ensures r.db.items == db.items - {id} && r.db.lists == db.lists
    ensures r.screen.active == s.active
    ensures forall x :: x in r.screen.items <==> x in s.items && x.id != id
  {
    Outcome(DeleteItem(db, id), s.(items := Seqs.Filter(s.items, (x: Item) => x.id != id)))
  }

  /** Deleting keeps the view in step with the store. */
  lemma DeleteKeepsShows(db: Db, s: Screen, a: Id, id: Id)
    requires Shows(s.items, db, a)
    ensures Shows(HandleDeleteItem(db, s, id).screen.items, HandleDeleteItem(db, s, id).db, a)
  {
  }

  /** `handleAssignToStore(item)`: with no store selected nothing changes;
      otherwise the item is stored assigned to that store's id, and every local
      entry with its id becomes that record. */
  function HandleAssignToStore(db: Db, s: Screen, item: Item, selected: Option<FavoriteStore>): (r: Outcome)
    ensures selected.None? ==> r == Outcome(db, s)
    ensures selected.Some? ==>
      && r.db.items.Keys == db.items.Keys + {item.id}
      && r.db.items[item.id] == item.(storeId := Some(selected.value.id))
      && (forall k :: k in db.items && k != item.id ==> r.db.items[k] == db.items[k])
      && r.db.lists == db.lists
      && r.screen.active == s.active && |r.screen.items| == |s.items|
      && (forall i :: 0 <= i < |s.items| ==>
            r.screen.items[i] == if s.items[i].id == item.id then item.(storeId := Some(selected.value.id)) else s.items[i])
  {
    match selected
    case None => Outcome(db, s)
    case Some(store) =>
      var updated := item.(storeId := Some(store.id));
      Outcome(UpdateItem(db, updated), s.(items := Replaced(s.items, updated)))
  }

  /** Assigning a shown item keeps the view in step with the store, and the
      item is then among those shown under that store. */
  lemma AssignKeepsShows(db: Db, s: Screen, a: Id, item: Item, store: FavoriteStore)
    requires Shows(s.items, db, a) && item in s.items
    ensures var r := HandleAssignToStore(db, s, item, Some(store));
      && Shows(r.screen.items, r.db, a)
      && item.(storeId := Some(store.id)) in StoreFilter.ShownItems(r.screen.items, Some(store))
  {
    var updated := item.(storeId := Some(store.id));
    ReplaceKeepsShows(db, s.items, a, item, updated);
    var j :| 0 <= j < |s.items| && s.items[j] == item;
    assert Replaced(s.items, updated)[j] == updated;
  }

  /** Lines 246-247: the lists offered as destinations, every list but the active one. */
  function MoveTargets(lists: seq<ShoppingList>, active: Option<Id>): (r: seq<ShoppingList>)
    ensures forall l :: l in r <==> l in lists && Some(l.id) != active
  {
    Seqs.Filter(lists, (l: ShoppingList) => Some(l.id) != active)
  }

  /** `handleMoveItem(itemId, targetListId)`: a falsy item or target id does
      nothing; otherwise the item is moved in the store and dropped locally. */
  function HandleMoveItem(db: Db, s: Screen, itemId: Option<Id>, target: Option<Id>): (r: Outcome)
    ensures !IsTruthy(itemId) || !IsTruthy(target) ==> r == Outcome(db, s)
    ensures IsTruthy(itemId) && IsTruthy(target) ==>
      && r.db == MoveItemToList(db, itemId.value, target.value).db
      && r.screen.active == s.active
      && forall x :: x in r.screen.items <==> x in s.items && x.id != itemId.value
  {
    if !IsTruthy(itemId) || !IsTruthy(target) then Outcome(db, s)
    else
      var w := MoveItemToList(db, itemId.value, target.value);
      Outcome(w.db, s.(items := Seqs.Filter(s.items, (x: Item) => x.id != itemId.value)))
  }

  /** Moving a shown item to a list the dialog offers keeps the view in step
      with the store, and the item is then filed under the target list. */
  lemma MoveKeepsShows(db: Db, s: Screen, a: Id, item: Item, target: ShoppingList)
    requires Shows(s.items, db, a) && s.active == Some(a) && item in s.items && item.id != 0
    requires target in MoveTargets(GetLists(db), s.active) && target.id != 0
    ensures var r := HandleMoveItem(db, s, Some(item.id), Some(target.id));
      && Shows(r.screen.items, r.db, a)
      && item.(listId := Some(target.id)) in ItemsOfList(r.db, target.id)
  {
    MoveLeavesView(db, s, a, item.id, target.id);
    StorageLemmas.MoveThenGetItems(db, item.id, a, target.id);
  }

  /** Moving an item out of list `a` keeps a view of `a` in step with the store. */
  lemma MoveLeavesView(db: Db, s: Screen, a: Id, itemId: Id, target: Id)
    requires Shows(s.items, db, a) && itemId != 0 && target != 0 && target != a
    ensures var r := HandleMoveItem(db, s, Some(itemId), Some(target));
      Shows(r.screen.items, r.db, a)
  {
  }

  /** `handleListDelete(listId)`: when the deleted list is the active one, the
      view is emptied. */
  function HandleListDelete(s: Screen, listId: Id): (r: Screen)
    ensures s.active == Some(listId) ==> r == Screen([], s.active)
    ensures s.active != Some(listId) ==> r == s
  {
    if s.active == Some(listId) then s.(items := []) else s
  }

  /** After the store deletes a list, the view is still in step with it: the
      deleted list's items are gone from both, and another list's are untouched. */
  lemma ListDeleteKeepsShows(db: Db, s: Screen, a: Id, listId: Id)
    requires Shows(s.items, db, a) && s.active == Some(a) && DeleteList(db, listId).Ok?
    ensures Shows(HandleListDelete(s, listId).items, DeleteList(db, listId).value, a)
  {
  }
}

=== FILE: shopping_lists.dfy ===
/** The list picker (`ShoppingLists.jsx`): loading the lists and the selection,
    creating a list, flagging one default, and deleting one. The parent's
    `activeListId`, which `onListSelect` replaces, is the panel's `active`; a
    `window.confirm` answer is the `confirmed` argument. */
module ShoppingLists {
  import opened Wrappers
  import opened Keys
  import opened Records
  import opened Text
  import opened Storage
  import opened ListViews
  import Seqs
  import DefaultInvariant
  import ListManager

  const DeleteFailed: string := "Failed to delete shopping list"

  /** The picker's lists, the parent's active id and the error banner. */
  datatype Panel = Panel(lists: seq<ShoppingList>, active: Option<Id>, error: Option<string>)

  datatype Outcome = Outcome(db: Db, panel: Panel)

  /** The mount effect: the lists are read from the store and, when no list is
      active (no id, or the falsy id 0), the default list, if there is one, is
      selected. */
  function Load(db: Db, active: Option<Id>): (r: Panel)
    ensures Mirrors(r.lists, db) && r.error.None?
    ensures IsTruthy(active) ==> r.active == active
    ensures !IsTruthy(active) && DefaultIds(db.lists) == {} ==> r.active == active
    ensures !IsTruthy(active) && DefaultIds(db.lists) != {} ==>
      && r.active.Some? && r.active.value in DefaultIds(db.lists)
      && forall k :: k in DefaultIds(db.lists) ==> r.active.value <= k
  {
    var selected :=
      if IsTruthy(active) then active
      else match GetDefaultList(db)
        case Some(d) => Some(d.id)
        case None => active;
    Panel(GetLists(db), selected, None)
  }

  /** With exactly one default list and nothing active, loading selects that list. */
  lemma LoadSelectsTheDefault(db: Db, active: Option<Id>, d: Id)
    requires DefaultIds(db.lists) == {d} && !IsTruthy(active)
    ensures Load(db, active).active == Some(d)
    ensures d in db.lists && db.lists[d] in Load(db, active).lists
  {
    ListedInGetLists(db, d);
  }

  /** `handleCreateList`: a blank name adds nothing; otherwise the trimmed name is
      stored, flagged default exactly when the picker shows no list, appended
      under its new key and selected. */
  function HandleCreateList(db: Db, panel: Panel, text: string): (r: Outcome)
    ensures Blank(text) ==> r == Outcome(db, panel)
    ensures !Blank(text) ==>
      var w := AddList(db, Trim(text), panel.lists == []);
      && r.db == w.db
      && r.panel.lists == panel.lists + [w.db.lists[w.key]]
      && r.panel.active == Some(w.key)
      && r.panel.error == panel.error
  {
    if Blank(text) then Outcome(db, panel)
    else
      var isDefault := panel.lists == [];
      var w := AddList(db, Trim(text), isDefault);
      Outcome(w.db, Panel(panel.lists + [NewList(w, Trim(text), isDefault)], Some(w.key), panel.error))
  }

  /** Creating a list keeps the picker's lists equal to the store's and the store
      with exactly one default. */
  lemma CreateKeepsMirror(db: Db, panel: Panel, text: string)
    requires Mirrors(panel.lists, db)
    requires OneDefault(db.lists) || db.lists == map[]
    ensures var r := HandleCreateList(db, panel, text);
      Mirrors(r.panel.lists, r.db) && (OneDefault(r.db.lists) || r.db.lists == map[])
  {
    if !Blank(text) {
      AddKeepsMirror(db, panel.lists, Trim(text));
    }
  }

  /** The picker and the list manager create lists alike: the same store, the
      same lists and the same selection. */
  lemma CreateMatchesManager(db: Db, panel: Panel, text: string)
    ensures var r := HandleCreateList(db, panel, text);
      var m := ListManager.HandleAddList(db, ListManager.View(panel.lists, panel.active), text);
      r.db == m.db && r.panel.lists == m.view.lists && r.panel.active == m.view.active
  {
  }

  /** `handleSetDefault(list)`: a list already flagged is left alone; otherwise it
      is stored flagged default and, locally, it alone is flagged. */
  function HandleSetDefault(db: Db, panel: Panel, list: ShoppingList): (r: Outcome)
    ensures list.isDefault ==> r == Outcome(db, panel)
    ensures !list.isDefault ==>
      && r.db == UpdateList(db, list.(isDefault := true)).db
      && |r.panel.lists| == |panel.lists|
      && (forall i :: 0 <= i < |panel.lists| ==>
            && r.panel.lists[i].id == panel.lists[i].id
            && r.panel.lists[i].name == panel.lists[i].name
            && (r.panel.lists[i].isDefault <==> panel.lists[i].id == list.id))
      && r.panel.active == panel.active && r.panel.error == panel.error
  {
    if list.isDefault then Outcome(db, panel)
    else
      var w := UpdateList(db, list.(isDefault := true));
      var lists := Seqs.Map(panel.lists, (l: ShoppingList) => l.(isDefault := l.id == list.id));
      Outcome(w.db, Panel(lists, panel.active, panel.error))
  }

  /** Flagging a shown list keeps the picker's lists equal to the store's, and
      leaves that list the store's only default, whether or not it already was. */
  lemma SetDefaultKeepsMirror(db: Db, panel: Panel, list: ShoppingList)
    requires Mirrors(panel.lists, db) && list in panel.lists && OneDefault(db.lists)
    ensures var r := HandleSetDefault(db, panel, list);
      Mirrors(r.panel.lists, r.db) && DefaultIds(r.db.lists) == {list.id}
  {
    if list.isDefault {
      FlaggedIsSoleDefault(db, panel.lists, list);
    } else {
      FlagShownList(db, panel, list);
    }
  }

  /** A shown list already flagged is the store's only default. */
  lemma FlaggedIsSoleDefault(db: Db, lists: seq<ShoppingList>, list: ShoppingList)
    requires Mirrors(lists, db) && list in lists && OneDefault(db.lists) && list.isDefault
    ensures DefaultIds(db.lists) == {list.id}
  {
    MirrorMember(db, lists, list);
    var d := DefaultInvariant.SingletonDefault(db.lists);
    assert list.id in DefaultIds(db.lists);
  }

  /** Flagging a shown list that was not the default. */
  lemma FlagShownList(db: Db, panel: Panel, list: ShoppingList)
    requires Mirrors(panel.lists, db) && list in panel.lists && !list.isDefault
    ensures var r := HandleSetDefault(db, panel, list);
      Mirrors(r.panel.lists, r.db) && DefaultIds(r.db.lists) == {list.id}
  {
    assert HandleSetDefault(db, panel, list).panel.lists == Flagged(panel.lists, list.id);
    FlagKeepsMirror(db, panel.lists, list);
    DefaultInvariant.UpdateDefaultListIsSoleDefault(db, list.(isDefault := true));
  }

  /** Line 159: the delete button is disabled while at most one list is shown. */
  predicate DeleteDisabled(lists: seq<ShoppingList>) {
    |lists| <= 1
  }

  /** With the picker in step with a store holding one default, the button's
      guard is exactly the store's: deleting a shown list fails if and only if
      the button is disabled. */
  lemma DeleteGuardMatchesStore(db: Db, lists: seq<ShoppingList>, l: ShoppingList)
    requires Mirrors(lists, db) && OneDefault(db.lists) && l in lists
    ensures DeleteList(db, l.id).Err? <==> DeleteDisabled(lists)
  {
    MirrorMember(db, lists, l);
    if DeleteDisabled(lists) {
      var d := DefaultInvariant.SingletonDefault(db.lists);
      OnlyListIsDefault(db, l.id, d);
    }
  }

  /** In a store of one list holding one default, that list is the default. */
  lemma OnlyListIsDefault(db: Db, id: Id, d: Id)
    requires id in db.lists && |db.lists| <= 1 && DefaultIds(db.lists) == {d}
    ensures db.lists[id].isDefault
  {
    assert d in db.lists;
    if d != id {
      assert {id, d} <= db.lists.Keys;
      assert |{id, d}| == 2;
      SubsetSize({id, d}, db.lists.Keys);
    }
  }

  lemma SubsetSize(a: set<Id>, b: set<Id>)
    requires a <= b
    ensures |a| <= |b|
  {
    assert b == a + (b - a);
  }

  /** `handleDeleteList(id)` as written: after a successful delete the
      replacement for a deleted active list is looked up among the remaining
      local lists, whose default flags predate the store's promotion. A declined
      confirmation does nothing; a store error shows the banner. */
  function HandleDeleteListAsWritten(db: Db, panel: Panel, id: Id, confirmed: bool): (r: Outcome)
    ensures !confirmed ==> r == Outcome(db, panel)
    ensures confirmed && DeleteList(db, id).Err? ==> r == Outcome(db, panel.(error := Some(DeleteFailed)))
    ensures confirmed && DeleteList(db, id).Ok? ==>
      && r.db == DeleteList(db, id).value
      && (forall l :: l in r.panel.lists <==> l in panel.lists && l.id != id)
      && (panel.active != Some(id) ==> r.panel.active == panel.active)
      && r.panel.error == panel.error
  {
    if !confirmed then Outcome(db, panel)
    else match DeleteList(db, id)
      case Err(_) => Outcome(db, panel.(error := Some(DeleteFailed)))
      case Ok(after) =>
        var lists := Without(panel.lists, id);
        var active :=
          if panel.active == Some(id) then
            match Seqs.Find(lists, (l: ShoppingList) => l.isDefault)
            case Some(d) => Some(d.id)
            case None => panel.active
          else panel.active;
        Outcome(after, Panel(lists, active, panel.error))
  }

  /** Deleting the active default list of several leaves the deleted id selected:
      no remaining local list is flagged, so nothing replaces it. */
  lemma AsWrittenKeepsDeletedSelection(db: Db, panel: Panel, id: Id)
    requires Mirrors(panel.lists, db) && DefaultOfSeveral(db, id) && panel.active == Some(id)
    ensures DeleteList(db, id).Ok?
    ensures var r := HandleDeleteListAsWritten(db, panel, id, true);
      r.panel.active == Some(id) && id !in r.db.lists
  {
    KeptHasNoDefault(db, panel.lists, id);
  }

  /** Two lists, the first the default and active. */
  function TwoListStore(): (db: Db)
    ensures db.lists.Keys == {1, 2}
  {
    Store(map[1 := ShoppingList(1, "Groceries", true), 2 := ShoppingList(2, "Hardware", false)],
      map[], map[], map[], map[], 3, 1, 1)
  }

  /** A concrete scenario: with lists 1 (default, active) and 2, deleting list 1
      leaves list 1 selected although the store no longer holds it. */
  lemma StaleSelectionExample()
    ensures var db := TwoListStore();
      var r := HandleDeleteListAsWritten(db, Panel(GetLists(db), Some(1), None), 1, true);
      r.panel.active == Some(1) && 1 !in r.db.lists
  {
    var db := TwoListStore();
    assert DefaultIds(db.lists) == {1} by {
      assert 1 in DefaultIds(db.lists);
      assert forall k :: k in DefaultIds(db.lists) ==> k == 1;
    }
    assert |db.lists| == 2 by {
      assert |db.lists.Keys| == |{1, 2}| == 2;
    }
    AsWrittenKeepsDeletedSelection(db, Panel(GetLists(db), Some(1), None), 1);
  }

  /** `handleDeleteList(id)` with the replacement read from the store after the
      delete: a deleted active list gives way to the store's default. */
  function HandleDeleteList(db: Db, panel: Panel, id: Id, confirmed: bool): (r: Outcome)
    ensures !confirmed ==> r == Outcome(db, panel)
    ensures confirmed && DeleteList(db, id).Err? ==> r == Outcome(db, panel.(error := Some(DeleteFailed)))
    ensures confirmed && DeleteList(db, id).Ok? ==>
      && r.db == DeleteList(db, id).value
      && (forall l :: l in r.panel.lists <==> l in panel.lists && l.id != id)
      && (panel.active != Some(id) ==> r.panel.active == panel.active)
      && r.panel.error == panel.error
  {
    if !confirmed then Outcome(db, panel)
    else match DeleteList(db, id)
      case Err(_) => Outcome(db, panel.(error := Some(DeleteFailed)))
      case Ok(after) =>
        var active :=
          if panel.active == Some(id) then
            match GetDefaultList(after)
            case Some(d) => Some(d.id)
            case None => panel.active
          else panel.active;
        Outcome(after, Panel(Without(panel.lists, id), active, panel.error))
  }

  /** With one default in the store, a successful delete of the active list
      selects a list the store still holds, and it is the default one. */
  lemma DeleteActiveSelectsLiveDefault(db: Db, panel: Panel, id: Id)
    requires OneDefault(db.lists) && panel.active == Some(id) && DeleteList(db, id).Ok?
    ensures var r := HandleDeleteList(db, panel, id, true);
      && r.panel.active.Some? && r.panel.active.value != id
      && r.panel.active.value in r.db.lists && r.db.lists[r.panel.active.value].isDefault
  {
    DefaultInvariant.DeleteListKeepsOneDefault(db, id);
  }
}

=== FILE: sorting.dfy ===
/** The stable sort of `Array.prototype.sort` with a numeric comparator, as an
    insertion sort by a real-valued key (ascending). Stability is `SortStable`. */
module Sorting {
  import Seqs

  /** Keys never decrease along the sequence. */
  predicate SortedOn<T>(s: seq<T>, key: T -> real) {
    forall i, j :: 0 <= i < j < |s| ==> key(s[i]) <= key(s[j])
  }

  /** Puts `x` before the first element whose key is not smaller, so that `x`
      precedes the elements with an equal key that came after it. */
  function Insert<T>(x: T, s: seq<T>, key: T -> real): (r: seq<T>)
    requires SortedOn(s, key)
    ensures SortedOn(r, key)
    ensures multiset(r) == multiset(s) + multiset{x}
    ensures |r| == |s| + 1
    ensures r[0] == x || (|s| > 0 && r[0] == s[0])
  {
    if s == [] || key(x) <= key(s[0]) then [x] + s
    else
      var rest := Insert(x, s[1..], key);
      assert s == [s[0]] + s[1..];
      [s[0]] + rest
  }

  /** Sorts ascending by `key`, keeping a permutation of the input. */
  function Sort<T>(s: seq<T>, key: T -> real): (r: seq<T>)
    ensures SortedOn(r, key)
    ensures multiset(r) == multiset(s)
    ensures |r| == |s|
  {
    if s == [] then []
    else
      assert s == [s[0]] + s[1..];
      Insert(s[0], Sort(s[1..], key), key)
  }

  /** Inserting `x` puts it before every element of its own key, and leaves the
      elements of any one key in their order. */
  lemma {:induction false} InsertKept<T>(x: T, s: seq<T>, key: T -> real, p: T -> bool, k: real)
    requires SortedOn(s, key)
    requires forall y :: p(y) == (key(y) == k)
    ensures Seqs.Kept(Insert(x, s, key), p) == (if p(x) then [x] else []) + Seqs.Kept(s, p)
  {
    if s == [] || key(x) <= key(s[0]) {
      assert ([x] + s)[1..] == s;
    } else {
      var inserted := Insert(x, s[1..], key);
      assert s == [s[0]] + s[1..];
      assert Insert(x, s, key) == [s[0]] + inserted;
      assert ([s[0]] + inserted)[1..] == inserted;
      InsertKept(x, s[1..], key, p, k);
      assert p(x) ==> !p(s[0]);
    }
  }

  /** The sort is stable: the elements of any one key keep their input order. */
  lemma SortStable<T>(s: seq<T>, key: T -> real, p: T -> bool, k: real)
    requires forall y :: p(y) == (key(y) == k)
    ensures Seqs.Filter(Sort(s, key), p) == Seqs.Filter(s, p)
  {
    SortKept(s, key, p, k);
  }

  lemma {:induction false} SortKept<T>(s: seq<T>, key: T -> real, p: T -> bool, k: real)
    requires forall y :: p(y) == (key(y) == k)
    ensures Seqs.Kept(Sort(s, key), p) == Seqs.Kept(s, p)
  {
    if s != [] {
      SortKept(s[1..], key, p, k);
      InsertKept(s[0], Sort(s[1..], key), key, p, k);
    }
  }
}

=== FILE: storage.dfy ===
/** The persistent store (`storageService.js`): five object stores and the
    operations the components call. Every exported operation is one atomic
    transition; a thrown error is an `Err` and leaves the store unchanged. */
module Storage {
  import opened Wrappers
  import opened Keys
  import opened Records
  import Seqs

  const DefaultListName: string := "My Shopping List"
  const OnlyListError: string := "Cannot delete the only shopping list"

  /** The object stores, each a map from key to record, and the key generators of
      the three auto-increment stores. */
  datatype Store = Store(
    lists: map<Id, ShoppingList>,
    items: map<Id, Item>,
    favorites: map<StoreId, FavoriteStore>,
    reminders: map<Id, Reminder>,
    settings: map<string, Setting>,
    nextList: Id,
    nextItem: Id,
    nextReminder: Id)

  /** Every record sits under its own `id` (the key path), and every key generator
      is above the keys of its store and starts at 1. */
  predicate Valid(s: Store) {
    && (forall k :: k in s.lists ==> s.lists[k].id == k && k < s.nextList)
    && (forall k :: k in s.items ==> s.items[k].id == k && k < s.nextItem)
    && (forall k :: k in s.reminders ==> s.reminders[k].id == k && k < s.nextReminder)
    && (forall k :: k in s.favorites ==> s.favorites[k].id == k)
    && (forall k :: k in s.settings ==> s.settings[k].id == k)
    && 1 <= s.nextList && 1 <= s.nextItem && 1 <= s.nextReminder
  }

  type Db = s: Store | Valid(s) witness Store(map[], map[], map[], map[], map[], 1, 1, 1)

  /** A store after a write, and the key the operation returns. */
  datatype Written = Written(db: Db, key: nat)

  /** The key generator after a record is `put` under an explicit key: it moves
      above that key. */
  function Bump(next: Id, key: Id): (r: Id)
    ensures key < r && next <= r
    ensures key < next ==> r == next
  {
    if key >= next then key + 1 else next
  }

  // ---------------------------------------------------------------- default flag

  /** The keys of the lists flagged default. */
  function DefaultIds(lists: map<Id, ShoppingList>): set<Id> {
    set k | k in lists && lists[k].isDefault
  }

  /** Exactly one list carries `isDefault`. */
  predicate OneDefault(lists: map<Id, ShoppingList>) {
    |DefaultIds(lists)| == 1
  }

  /** Every list with `isDefault` cleared. */
  function ClearDefaults(lists: map<Id, ShoppingList>): (r: map<Id, ShoppingList>)
    ensures r.Keys == lists.Keys
    ensures DefaultIds(r) == {}
    ensures forall k :: k in r ==> r[k].id == lists[k].id && r[k].name == lists[k].name
  {
    map k | k in lists :: lists[k].(isDefault := false)
  }

  /** The key of the first default list in key order (the order `getAll` returns). */
  function FirstDefault(lists: map<Id, ShoppingList>): (r: Option<Id>)
    ensures r.None? <==> DefaultIds(lists) == {}
    ensures r.Some? ==> r.value in lists && lists[r.value].isDefault
    ensures r.Some? ==> forall k :: k in lists && lists[k].isDefault ==> r.value <= k
  {
    var ds := DefaultIds(lists);
    assert forall k :: k in lists && lists[k].isDefault ==> k in ds;
    if ds == {} then None else Some(Least(ds))
  }

  // ---------------------------------------------------------------- upgrade

  /** The upgrade of a fresh database (old version 0): empty stores and one list
      named "My Shopping List" flagged default, under the first generated key. */
  function Seed(): (db: Db)
    ensures db.lists.Keys == DefaultIds(db.lists) == {1}
    ensures db.lists[1].name == DefaultListName
    ensures db.items == map[] && db.favorites == map[] && db.reminders == map[] && db.settings == map[]
  {
    Store(map[1 := ShoppingList(1, DefaultListName, true)], map[], map[], map[], map[], 2, 1, 1)
  }

  /** The list pre-version-2 items are assigned to: the default list, else key 1. */
  function MigrationTarget(lists: map<Id, ShoppingList>): (d: Id)
    ensures DefaultIds(lists) != {} ==> d in lists && lists[d].isDefault
    ensures DefaultIds(lists) == {} ==> d == 1
  {
    match FirstDefault(lists)
    case Some(k) => k
    case None => 1
  }

  /** The upgrade from version 1 to 2: every existing item is put back with
      `listId` set to the migration target, and nothing else changes. */
  function MigrateItems(db: Db): (r: Db)
    ensures r.items.Keys == db.items.Keys
    ensures forall k :: k in r.items ==> r.items[k].listId == Some(MigrationTarget(db.lists))
    ensures forall k :: k in r.items ==> r.items[k].(listId := db.items[k].listId) == db.items[k]
    ensures r.(items := db.items) == db
  {
    var d := MigrationTarget(db.lists);
    db.(items := map k | k in db.items :: db.items[k].(listId := Some(d)))
  }

  // ---------------------------------------------------------------- lists

  /** `getLists`: every list, in key order. */
  function GetLists(db: Db): (r: seq<ShoppingList>)
    ensures |r| == |db.lists|
    ensures forall i, j :: 0 <= i < j < |r| ==> r[i].id < r[j].id
    ensures forall i :: 0 <= i < |r| ==> r[i].id in db.lists && db.lists[r[i].id] == r[i]
  {
    InKeyOrder(db.lists)
  }

  /** Every stored list appears in `getLists`. */
  lemma ListedInGetLists(db: Db, k: Id)
    requires k in db.lists
    ensures db.lists[k] in GetLists(db)
  {
    InKeyOrderValues(db.lists);
    assert db.lists[k] in db.lists.Values;
  }

  /** `getList(id)`. */
  function GetList(db: Db, id: Id): (r: Option<ShoppingList>)
    ensures r.Some? <==> id in db.lists
    ensures r.Some? ==> r.value == db.lists[id] && r.value.id == id
  {
    if id in db.lists then Some(db.lists[id]) else None
  }

  /** `getDefaultList`: the first list, in key order, whose `isDefault` is true. */
  function GetDefaultList(db: Db): (r: Option<ShoppingList>)
    ensures r.None? <==> DefaultIds(db.lists) == {}
    ensures r.Some? ==> r.value.id in db.lists && db.lists[r.value.id] == r.value && r.value.isDefault
    ensures r.Some? ==> forall k :: k in DefaultIds(db.lists) ==> r.value.id <= k
  {
    match FirstDefault(db.lists)
    case Some(k) => Some(db.lists[k])
    case None => None
  }

  /** `addList`: stores a new list under a fresh key. A list flagged default
      first clears the flag on every existing list; otherwise no existing list
      is touched (in particular nothing is promoted on an empty store). */
  function AddList(db: Db, name: string, isDefault: bool): (r: Written)
    ensures forall k :: k in db.lists ==> k < r.key
    ensures r.db.lists.Keys == db.lists.Keys + {r.key}
    ensures r.db.lists[r.key] == ShoppingList(r.key, name, isDefault)
    ensures forall k :: k in db.lists ==>
      r.db.lists[k] == if isDefault then db.lists[k].(isDefault := false) else db.lists[k]
    ensures r.db.(lists := db.lists, nextList := db.nextList) == db
  {
    var id := db.nextList;
    var base := if isDefault then ClearDefaults(db.lists) else db.lists;
    Written(db.(lists := base[id := ShoppingList(id, name, isDefault)], nextList := id + 1), id)
  }

  /** `updateList`: puts the list under its own key. A list flagged default first
      clears the flag on every other list; otherwise the record is stored as is. */
  function UpdateList(db: Db, list: ShoppingList): (r: Written)
    ensures r.key == list.id
    ensures r.db.lists.Keys == db.lists.Keys + {list.id}
    ensures r.db.lists[list.id] == list
    ensures forall k :: k in db.lists && k != list.id ==>
      r.db.lists[k] == if list.isDefault then db.lists[k].(isDefault := false) else db.lists[k]
    ensures r.db.(lists := db.lists, nextList := db.nextList) == db
  {
    var base := if list.isDefault then ClearDefaults(db.lists) else db.lists;
    Written(db.(lists := base[list.id := list], nextList := Bump(db.nextList, list.id)), list.id)
  }

  /** The list `deleteList(id)` flags default before deleting: the first other
      list in key order, when the deleted list is the default one and is not alone. */
  function Promoted(lists: map<Id, ShoppingList>, id: Id): (r: Option<Id>)
    ensures r.Some? <==> id in lists && lists[id].isDefault && |lists| > 1
    ensures r.Some? ==> r.value in lists && r.value != id
    ensures r.Some? ==> forall k :: k in lists && k != id ==> r.value <= k
  {
    if id in lists && lists[id].isDefault && |lists| > 1 then
      assert lists.Keys - {id} != {} by {
        assert |lists.Keys - {id}| == |lists.Keys| - 1;
      }
      assert forall k :: k in lists && k != id ==> k in lists.Keys - {id};
      Some(Least(lists.Keys - {id}))
    else None
  }

  /** The lists with the promoted list, if any, flagged default. */
  function Promote(lists: map<Id, ShoppingList>, id: Id): (r: map<Id, ShoppingList>)
    ensures r.Keys == lists.Keys
    ensures forall k :: k in r ==>
      r[k] == if Promoted(lists, id) == Some(k) then lists[k].(isDefault := true) else lists[k]
  {
    match Promoted(lists, id)
    case Some(p) => lists[p := lists[p].(isDefault := true)]
    case None => lists
  }

  /** The items that survive deleting list `id`: those whose `listId` is not `id`. */
  function Cascade(items: map<Id, Item>, id: Id): (r: map<Id, Item>)
    ensures forall k :: k in r <==> k in items && items[k].listId != Some(id)
    ensures forall k :: k in r ==> r[k] == items[k]
  {
    map k | k in items && items[k].listId != Some(id) :: items[k]
  }

  /** The writes of a `deleteList(id)` that passed its guard: promotion, then
      the cascade, then the list itself. */
  function Cascaded(db: Db, id: Id): (r: Db)
    ensures r.lists.Keys == db.lists.Keys - {id}
    ensures forall k :: k in r.lists ==>
      r.lists[k] == if Promoted(db.lists, id) == Some(k) then db.lists[k].(isDefault := true) else db.lists[k]
    ensures forall k :: k in r.items <==> k in db.items && db.items[k].listId != Some(id)
    ensures forall k :: k in r.items ==> r.items[k] == db.items[k]
    ensures r.(lists := db.lists, items := db.items) == db
  {
    var lists := Promote(db.lists, id) - {id};
    var items := Cascade(db.items, id);
    assert forall k :: k in lists ==> k in db.lists && lists[k].id == k;
    assert forall k :: k in items ==> k in db.items && items[k].id == k;
    db.(lists := lists, items := items)
  }

  /** `deleteList(id)`. Deleting the default list when it is the only list throws
      before any write. Otherwise the first other list is promoted when the
      default list is deleted, every item whose `listId` is `id` is deleted, and
      the list itself is deleted; favourites, reminders and settings are untouched. */
  function DeleteList(db: Db, id: Id): (r: Result<Db>)
    ensures r.Err? <==> id in db.lists && db.lists[id].isDefault && |db.lists| <= 1
    ensures r.Err? ==> r.message == OnlyListError
    ensures r.Ok? ==> r.value.lists.Keys == db.lists.Keys - {id}
    ensures r.Ok? ==> forall k :: k in r.value.lists ==>
      r.value.lists[k] == if Promoted(db.lists, id) == Some(k) then db.lists[k].(isDefault := true) else db.lists[k]
    ensures r.Ok? ==> forall k :: k in r.value.items <==> k in db.items && db.items[k].listId != Some(id)
    ensures r.Ok? ==> forall k :: k in r.value.items ==> r.value.items[k] == db.items[k]
    ensures r.Ok? ==> r.value.(lists := db.lists, items := db.items) == db
  {
    if id in db.lists && db.lists[id].isDefault && |db.lists| <= 1 then
      Err(OnlyListError)
    else
      Ok(Cascaded(db, id))
  }

  // ---------------------------------------------------------------- items

  /** The items of one list, in key order (`getAllFromIndex('listId', id)`). */
  function ItemsOfList(db: Db, listId: Id): (r: seq<Item>)
    ensures forall x :: x in r <==> x in db.items.Values && x.listId == Some(listId)
  {
    var all := InKeyOrder(db.items);
    InKeyOrderValues(db.items);
    Seqs.Filter(all, (x: Item) => x.listId == Some(listId))
  }

  /** `getItems(listId)`: the given list's items, or with a falsy `listId` the
      default list's items, or none when there is no default list. */
  function GetItems(db: Db, listId: Option<Id>): (r: seq<Item>)
    ensures IsTruthy(listId) ==> r == ItemsOfList(db, listId.value)
    ensures !IsTruthy(listId) && GetDefaultList(db).Some? ==> r == ItemsOfList(db, GetDefaultList(db).value.id)
    ensures !IsTruthy(listId) && GetDefaultList(db).None? ==> r == []
  {
    if IsTruthy(listId) then ItemsOfList(db, listId.value)
    else match GetDefaultList(db)
      case Some(d) => ItemsOfList(db, d.id)
      case None => []
  }

  /** The fields a caller passes to `addItem`; `completed` and `listId` may be unset. */
  datatype ItemDraft = ItemDraft(name: string, completed: Option<bool>, storeId: Option<StoreId>, listId: Option<Id>)

  /** The list `addItem` files an item under: the given `listId` when truthy,
      else the default list, else a newly added default "My Shopping List". */
  function ResolveList(db: Db, listId: Option<Id>): (r: Written)
    ensures IsTruthy(listId) ==> r == Written(db, listId.value)
    ensures !IsTruthy(listId) ==> r.key in r.db.lists && r.db.lists[r.key].isDefault
    ensures !IsTruthy(listId) && GetDefaultList(db).Some? ==> r == Written(db, GetDefaultList(db).value.id)
    ensures !IsTruthy(listId) && GetDefaultList(db).None? ==> r == AddList(db, DefaultListName, true)
  {
    if IsTruthy(listId) then Written(db, listId.value)
    else match GetDefaultList(db)
      case Some(d) => Written(db, d.id)
      case None => AddList(db, DefaultListName, true)
  }

  /** `addItem(draft)`: stores a new item under a fresh key, in the resolved list,
      with `completed` false unless it was set to true; `now` is its `createdAt`. */
  function AddItem(db: Db, draft: ItemDraft, now: int): (r: Written)
    ensures var target := ResolveList(db, draft.listId);
      && r.key !in target.db.items
      && r.db.items == target.db.items[r.key := Item(r.key, draft.name, draft.completed == Some(true), draft.storeId, Some(target.key), now)]
      && r.db.(items := target.db.items, nextItem := target.db.nextItem) == target.db
    ensures forall k :: k in db.items ==> k < r.key
  {
    var target := ResolveList(db, draft.listId);
    var base := target.db;
    var id := base.nextItem;
    var item := Item(id, draft.name, draft.completed == Some(true), draft.storeId, Some(target.key), now);
    Written(base.(items := base.items[id := item], nextItem := id + 1), id)
  }

  /** `updateItem(item)`: puts the item under its own key; nothing else changes. */
  function UpdateItem(db: Db, item: Item): (r: Db)
    ensures r.items == db.items[item.id := item]
    ensures r.(items := db.items, nextItem := db.nextItem) == db
  {
    db.(items := db.items[item.id := item], nextItem := Bump(db.nextItem, item.id))
  }

  /** `deleteItem(id)`: removes that key; deleting a missing key changes nothing. */
  function DeleteItem(db: Db, id: Id): (r: Db)
    ensures r.items == db.items - {id}
    ensures r.(items := db.items) == db
  {
    db.(items := db.items - {id})
  }

  /** `moveItemToList(itemId, newListId)`: rewrites only that item's `listId`;
      a missing item is a no-op, and `itemId` is returned either way. */
  function MoveItemToList(db: Db, itemId: Id, newListId: Id): (r: Written)
    ensures r.key == itemId
    ensures itemId in db.items ==> r.db.items == db.items[itemId := db.items[itemId].(listId := Some(newListId))]
    ensures itemId !in db.items ==> r.db == db
    ensures r.db.(items := db.items) == db
  {
    if itemId in db.items then
      Written(db.(items := db.items[itemId := db.items[itemId].(listId := Some(newListId))]), itemId)
    else Written(db, itemId)
  }

  // ---------------------------------------------------------------- favourite stores

  /** `getFavoriteStores`, in key order. */
  function GetFavoriteStores(db: Db): (r: seq<FavoriteStore>)
    ensures forall x :: x in r <==> x in db.favorites.Values
  {
    InKeyOrderValues(db.favorites);
    InKeyOrder(db.favorites)
  }

  /** `addFavoriteStore(store)`: a `put` under the caller's id, so re-adding a
      store replaces it. */
  function AddFavoriteStore(db: Db, store: FavoriteStore): (r: Written)
    ensures r.key == store.id
    ensures r.db.favorites == db.favorites[store.id := store]
    ensures r.db.(favorites := db.favorites) == db
  {
    Written(db.(favorites := db.favorites[store.id := store]), store.id)
  }

  /** `deleteFavoriteStore(id)`: no cascade; items and reminders keep their references. */
  function DeleteFavoriteStore(db: Db, id: StoreId): (r: Db)
    ensures r.favorites == db.favorites - {id}
    ensures r.(favorites := db.favorites) == db
  {
    db.(favorites := db.favorites - {id})
  }

  // ---------------------------------------------------------------- reminders

  /** `getReminders`, in key order. */
  function GetReminders(db: Db): (r: seq<Reminder>)
    ensures forall x :: x in r <==> x in db.reminders.Values
  {
    InKeyOrderValues(db.reminders);
    InKeyOrder(db.reminders)
  }

  /** `addReminder(draft)`: stores the draft under a fresh generated key (the
      draft's own `id` is ignored: the form has none). */
  function AddReminder(db: Db, draft: Reminder): (r: Written)
    ensures r.key !in db.reminders && forall k :: k in db.reminders ==> k < r.key
    ensures r.db.reminders == db.reminders[r.key := draft.(id := r.key)]
    ensures r.db.(reminders := db.reminders, nextReminder := db.nextReminder) == db
  {
    var id := db.nextReminder;
    Written(db.(reminders := db.reminders[id := draft.(id := id)], nextReminder := id + 1), id)
  }

  /** `updateReminder(reminder)`: puts it under its own key. */
  function UpdateReminder(db: Db, reminder: Reminder): (r: Written)
    ensures r.key == reminder.id
    ensures r.db.reminders == db.reminders[reminder.id := reminder]
    ensures r.db.(reminders := db.reminders, nextReminder := db.nextReminder) == db
  {
    Written(db.(reminders := db.reminders[reminder.id := reminder],
                nextReminder := Bump(db.nextReminder, reminder.id)), reminder.id)
  }

  /** `deleteReminder(id)`. */
  function DeleteReminder(db: Db, id: Id): (r: Db)
    ensures r.reminders == db.reminders - {id}
    ensures r.(reminders := db.reminders) == db
  {
    db.(reminders := db.reminders - {id})
  }

  // ---------------------------------------------------------------- settings

  /** `getSetting(id)`. */
  function GetSetting(db: Db, id: string): (r: Option<Setting>)
    ensures r.Some? <==> id in db.settings
    ensures r.Some? ==> r.value == db.settings[id]
  {
    if id in db.settings then Some(db.settings[id]) else None
  }

  /** A store after a write to `settings`, and the string key the `put` returns. */
  datatype SettingWritten = SettingWritten(db: Db, key: string)

  /** `saveSetting(setting)`: a `put` under the setting's id, which it returns. */
  function SaveSetting(db: Db, setting: Setting): (r: SettingWritten)
    ensures r.key == setting.id
    ensures r.db.settings == db.settings[setting.id := setting]
    ensures r.db.(settings := db.settings) == db
  {
    SettingWritten(db.(settings := db.settings[setting.id := setting]), setting.id)
  }
}

=== FILE: storage_lemmas.dfy ===
/** Properties relating several store operations: reads after writes, the
    cascade, moves, and two end-to-end runs of the list lifecycle. */
module StorageLemmas {
  import opened Wrappers
  import opened Keys
  import opened Records
  import opened Storage
  import DefaultInvariant

  /** A list added without the default flag is read back last by `getLists`,
      after the lists that were there, which are unchanged. */
  lemma AddListThenGetLists(db: Db, name: string)
    ensures var r := AddList(db, name, false);
      GetLists(r.db) == GetLists(db) + [ShoppingList(r.key, name, false)]
  {
    var r := AddList(db, name, false);
    assert r.db.lists == db.lists[r.key := ShoppingList(r.key, name, false)];
    InKeyOrderAppend(db.lists, r.key, ShoppingList(r.key, name, false));
  }

  /** A new reminder is read back last by `getReminders`, under its new key. */
  lemma AddReminderThenGetReminders(db: Db, draft: Reminder)
    ensures var r := AddReminder(db, draft);
      GetReminders(r.db) == GetReminders(db) + [draft.(id := r.key)]
  {
    var r := AddReminder(db, draft);
    InKeyOrderAppend(db.reminders, r.key, draft.(id := r.key));
  }

  /** `getList(id)` agrees with finding that id in `getLists()`. */
  lemma GetListFindsInGetLists(db: Db, id: Id)
    ensures GetList(db, id) == Seqs.Find(GetLists(db), (l: ShoppingList) => l.id == id)
  {
    var all := GetLists(db);
    if id in db.lists {
      ListedInGetLists(db, id);
      var i :| 0 <= i < |all| && all[i] == db.lists[id];
      assert all[i].id == id;
    }
  }

  /** After the upgrade every item is read back under the migration target, in
      key order. */
  lemma MigrateFilesEveryItem(db: Db)
    ensures var after := MigrateItems(db);
      && ItemsOfList(after, MigrationTarget(db.lists)) == InKeyOrder(after.items)
      && |ItemsOfList(after, MigrationTarget(db.lists))| == |db.items|
  {
    var after := MigrateItems(db);
    var d := MigrationTarget(db.lists);
    var all := InKeyOrder(after.items);
    forall i | 0 <= i < |all|
      ensures all[i].listId == Some(d)
    {
      assert SortedKeys(after.items.Keys)[i] in after.items;
    }
    assert after.items.Keys == db.items.Keys;
  }

  /** After the upgrade no list but the migration target has any item. */
  lemma MigrateLeavesOtherListsEmpty(db: Db, other: Id)
    requires other != MigrationTarget(db.lists)
    ensures ItemsOfList(MigrateItems(db), other) == []
  {
    var after := MigrateItems(db);
    var none := ItemsOfList(after, other);
    assert forall x :: x in after.items.Values ==> x.listId == Some(MigrationTarget(db.lists));
    assert forall x :: x !in none;
  }

  /** Updating a stored reminder replaces it in place in `getReminders`. */
  lemma UpdateReminderThenGetReminders(db: Db, reminder: Reminder)
    requires reminder.id in db.reminders
    ensures var before := GetReminders(db);
      var after := GetReminders(UpdateReminder(db, reminder).db);
      && |after| == |before|
      && forall i :: 0 <= i < |before| ==>
           after[i] == if before[i].id == reminder.id then reminder else before[i]
  {
    var r := UpdateReminder(db, reminder).db;
    var before := GetReminders(db);
    var after := GetReminders(r);
    assert r.reminders.Keys == db.reminders.Keys;
    var ks := SortedKeys(db.reminders.Keys);
    forall i | 0 <= i < |before|
      ensures after[i] == if before[i].id == reminder.id then reminder else before[i]
    {
      assert ks[i] in db.reminders && before[i] == db.reminders[ks[i]] && after[i] == r.reminders[ks[i]];
    }
  }

  /** Updating under a key above every stored key appends to `getReminders`. */
  lemma UpdateNewReminderThenGetReminders(db: Db, reminder: Reminder)
    requires forall k :: k in db.reminders ==> k < reminder.id
    ensures GetReminders(UpdateReminder(db, reminder).db) == GetReminders(db) + [reminder]
  {
    InKeyOrderAppend(db.reminders, reminder.id, reminder);
  }

  /** A deleted reminder is no longer read back; the others still are. */
  lemma DeleteReminderThenGetReminders(db: Db, id: Id)
    ensures forall x :: x in GetReminders(DeleteReminder(db, id)) <==> x in GetReminders(db) && x.id != id
  {
    var r := DeleteReminder(db, id);
    forall x
      ensures x in r.reminders.Values <==> x in db.reminders.Values && x.id != id
    {
      if x in db.reminders.Values && x.id != id {
        var k :| k in db.reminders && db.reminders[k] == x;
        assert k in r.reminders;
      }
    }
  }

  /** Deleting a reminder reads back the other reminders in the order they were
      read before: `getReminders` is filtered by `p`, any test that tells the
      reminders of other ids. */
  lemma DeleteReminderKeepsOrder(db: Db, id: Id, p: Reminder -> bool)
    requires forall x :: p(x) == (x.id != id)
    ensures GetReminders(DeleteReminder(db, id)) == Seqs.Filter(GetReminders(db), p)
  {
    InKeyOrderRemove(db.reminders, id, p);
  }

  /** A favourite store read back after `addFavoriteStore`: the added store, and
      every other store that was there, under its own id. */
  lemma AddFavoriteThenGetFavorites(db: Db, store: FavoriteStore)
    ensures forall x :: x in GetFavoriteStores(AddFavoriteStore(db, store).db) <==>
      x == store || (x in GetFavoriteStores(db) && x.id != store.id)
  {
    var after := AddFavoriteStore(db, store).db;
    forall x
      ensures x in after.favorites.Values <==> x == store || (x in db.favorites.Values && x.id != store.id)
    {
      if x in db.favorites.Values && x.id != store.id {
        var k :| k in db.favorites && db.favorites[k] == x;
        assert after.favorites[k] == x;
      }
      if x in after.favorites.Values && x != store {
        var k :| k in after.favorites && after.favorites[k] == x;
        assert k != store.id && db.favorites[k] == x;
      }
      if x == store {
        assert after.favorites[store.id] == x;
      }
    }
  }

  /** A deleted favourite store is no longer read back; the others still are. */
  lemma DeleteFavoriteThenGetFavorites(db: Db, id: StoreId)
    ensures forall x :: x in GetFavoriteStores(DeleteFavoriteStore(db, id)) <==>
      x in GetFavoriteStores(db) && x.id != id
  {
    var after := DeleteFavoriteStore(db, id);
    forall x
      ensures x in after.favorites.Values <==> x in db.favorites.Values && x.id != id
    {
      if x in db.favorites.Values && x.id != id {
        var k :| k in db.favorites && db.favorites[k] == x;
        assert after.favorites[k] == x;
      }
    }
  }

  /** A saved setting is read back under its id; every other setting reads as before. */
  lemma SaveThenGetSetting(db: Db, setting: Setting, id: string)
    ensures GetSetting(SaveSetting(db, setting).db, id) ==
      if id == setting.id then Some(setting) else GetSetting(db, id)
  {
  }

  /** Deleting a list removes from every list's item view exactly the items of
      that list: `getItems` of any other list is unchanged. */
  lemma DeleteListKeepsOtherItems(db: Db, id: Id, other: Id)
    requires DeleteList(db, id).Ok?
    requires other != id
    ensures forall x :: x in ItemsOfList(DeleteList(db, id).value, other) <==> x in ItemsOfList(db, other)
    ensures forall x :: x !in ItemsOfList(DeleteList(db, id).value, id)
  {
    var r := DeleteList(db, id).value;
    forall x
      ensures x in r.items.Values && x.listId == Some(other) <==> x in db.items.Values && x.listId == Some(other)
    {
      if x in db.items.Values && x.listId == Some(other) {
        var k :| k in db.items && db.items[k] == x;
        assert k in r.items;
      }
    }
  }

  /** Moving an item of list `a` to list `target` makes it appear among the
      target's items and no longer among `a`'s. */
  lemma MoveThenGetItems(db: Db, itemId: Id, a: Id, target: Id)
    requires itemId in db.items && db.items[itemId].listId == Some(a) && a != target
    ensures var after := MoveItemToList(db, itemId, target).db;
      && db.items[itemId].(listId := Some(target)) in ItemsOfList(after, target)
      && forall x :: x in ItemsOfList(after, a) ==> x.id != itemId
  {
    var after := MoveItemToList(db, itemId, target).db;
    var moved := db.items[itemId].(listId := Some(target));
    assert after.items[itemId] == moved;
    assert moved in after.items.Values;
    forall x | x in after.items.Values && x.listId == Some(a)
      ensures x.id != itemId
    {
      var k :| k in after.items && after.items[k] == x;
      assert k != itemId;
    }
  }

  /** Deleting the default list of two lists leaves the other one as the default. */
  lemma DeleteDefaultOfTwoPromotesOther(db: Db, a: Id, b: Id)
    requires db.lists.Keys == {a, b} && a != b
    requires db.lists[a].isDefault && !db.lists[b].isDefault
    ensures DeleteList(db, a).Ok?
    ensures GetDefaultList(DeleteList(db, a).value) == Some(db.lists[b].(isDefault := true))
  {
    assert |db.lists| == 2 by {
      assert |db.lists.Keys| == 2;
    }
    var r := DeleteList(db, a).value;
    assert Promoted(db.lists, a) == Some(b);
    assert r.lists.Keys == {b};
    assert DefaultIds(r.lists) == {b};
  }

  /** An add-then-read sequence on an empty store: add the default
      list "Groceries", add "Milk" with no list, and `getItems()` yields Milk, filed
      under Groceries. */
  lemma GroceriesScenario(db: Db, now: int)
    requires db.lists == map[] && db.items == map[]
    ensures var lists := AddList(db, "Groceries", true);
      var added := AddItem(lists.db, ItemDraft("Milk", None, None, None), now);
      var got := GetItems(added.db, None);
      |got| == 1 && got[0].name == "Milk" && got[0].listId == Some(lists.key) && !got[0].completed
  {
    var lists := AddList(db, "Groceries", true);
    DefaultInvariant.AddDefaultListIsSoleDefault(db, "Groceries");
    var d := GetDefaultList(lists.db);
    assert d.Some? && d.value.id == lists.key by {
      assert lists.key in DefaultIds(lists.db.lists);
    }
    var added := AddItem(lists.db, ItemDraft("Milk", None, None, None), now);
    var milk := added.db.items[added.key];
    assert added.db.items == map[added.key := milk];
    assert GetDefaultList(added.db) == d;
    InKeyOrderAppend(lists.db.items, added.key, milk);
    assert InKeyOrder(added.db.items) == [milk];
    var got := GetItems(added.db, None);
    assert got == ItemsOfList(added.db, lists.key);
    assert got == [milk] by {
      assert Seqs.Filter([milk], (x: Item) => x.listId == Some(lists.key)) == [milk];
    }
  }
}

=== FILE: store_filter.dfy ===
/** The store filter both item views apply before rendering. */
module StoreFilter {
  import opened Wrappers
  import opened Records
  import Seqs

  /** `selectedStore?.id || null`: the store an added item is assigned to; a
      falsy id 0 counts as no store. */
  function SelectedStoreId(selected: Option<FavoriteStore>): (r: Option<StoreId>)
    ensures r.Some? <==> selected.Some? && selected.value.id != 0
    ensures r.Some? ==> r.value == selected.value.id
  {
    if selected.Some? && selected.value.id != 0 then Some(selected.value.id) else None
  }

  /** The test `item.storeId === selectedStore.id`. */
  function AssignedTo(id: StoreId): (p: Item -> bool)
    ensures forall x :: p(x) <==> x.storeId == Some(id)
  {
    (x: Item) => x.storeId == Some(id)
  }

  /** `filteredItems`: with a store selected, the items assigned to exactly that
      store, in order (`ShownItemsConcat`); with none, every item. */
  function ShownItems(items: seq<Item>, selected: Option<FavoriteStore>): (r: seq<Item>)
    ensures selected.None? ==> r == items
    ensures selected.Some? ==> forall x :: x in r <==> x in items && x.storeId == Some(selected.value.id)
    ensures multiset(r) <= multiset(items)
  {
    match selected
    case None => items
    case Some(store) =>
      Seqs.Filter(items, AssignedTo(store.id))
  }

  /** The filter keeps the items' order: it distributes over concatenation. */
  lemma ShownItemsConcat(a: seq<Item>, b: seq<Item>, selected: Option<FavoriteStore>)
    ensures ShownItems(a + b, selected) == ShownItems(a, selected) + ShownItems(b, selected)
  {
    if selected.Some? {
      Seqs.FilterConcat(a, b, AssignedTo(selected.value.id));
    }
  }

  /** An item the view shows under a selected store is one assigned to it; the
      unassigned items (`storeId` null) are hidden under every store. */
  lemma UnassignedHiddenUnderAnyStore(items: seq<Item>, store: FavoriteStore)
    ensures forall x :: x in ShownItems(items, Some(store)) ==> x.storeId.Some?
    ensures forall x :: x in items && x.storeId.None? ==> x !in ShownItems(items, Some(store))
  {
  }
}

=== FILE: text.dfy ===
/** The string operations the components use: `trim`, ASCII `toLowerCase`,
    `includes`, `split(',')[0]` and decimal rendering of ids. */
module Text {

  /** The code points JavaScript's `trim` removes: WhiteSpace and LineTerminator. */
  predicate IsSpace(c: char) {
    || c == ' ' || c == '\t' || c == '\n' || c == '\r'
    || c == '\U{B}' || c == '\U{C}' || c == '\U{A0}' || c == '\U{FEFF}'
    || c == '\U{1680}' || ('\U{2000}' <= c <= '\U{200A}')
    || c == '\U{2028}' || c == '\U{2029}' || c == '\U{202F}' || c == '\U{205F}' || c == '\U{3000}'
  }

  /** Drops leading white space. */
  function TrimStart(s: string): (r: string)
    ensures |r| <= |s| && r == s[|s| - |r|..]
    ensures forall i :: 0 <= i < |s| - |r| ==> IsSpace(s[i])
    ensures r == "" || !IsSpace(r[0])
  {
    if s != "" && IsSpace(s[0]) then TrimStart(s[1..]) else s
  }

  /** Drops trailing white space. */
  function TrimEnd(s: string): (r: string)
    ensures |r| <= |s| && r == s[..|r|]
    ensures forall i :: |r| <= i < |s| ==> IsSpace(s[i])
    ensures r == "" || !IsSpace(r[|r| - 1])
  {
    if s != "" && IsSpace(s[|s| - 1]) then TrimEnd(s[..|s| - 1]) else s
  }

  /** `s.trim()`. */
  function Trim(s: string): string {
    TrimEnd(TrimStart(s))
  }

  /** `!s.trim()`: nothing but white space. */
  predicate Blank(s: string) {
    Trim(s) == ""
  }

  /** A string is blank exactly when every character of it is white space, and a
      trimmed string neither starts nor ends with white space. */
  lemma TrimSpec(s: string)
    ensures Blank(s) <==> forall i :: 0 <= i < |s| ==> IsSpace(s[i])
    ensures Trim(s) == "" || (!IsSpace(Trim(s)[0]) && !IsSpace(Trim(s)[|Trim(s)| - 1]))
  {
    var t := TrimStart(s);
    var k := |s| - |t|;
    assert forall j :: 0 <= j < |t| ==> t[j] == s[k + j];
    if Trim(s) != "" {
      var r := Trim(s);
      assert r[0] == t[0];
    }
  }

  function LowerChar(c: char): char {
    if 'A' <= c <= 'Z' then (c as int + 32) as char else c
  }

  /** `s.toLowerCase()` restricted to ASCII letters. */
  function Lower(s: string): (r: string)
    ensures |r| == |s|
    ensures forall i :: 0 <= i < |s| ==> r[i] == LowerChar(s[i])
  {
    seq(|s|, i requires 0 <= i < |s| => LowerChar(s[i]))
  }

  /** `sub` occurs in `s` starting at index `i`. */
  predicate OccursAt(s: string, sub: string, i: int) {
    0 <= i <= |s| - |sub| && sub == s[i..i + |sub|]
  }

  /** `s.includes(sub)`. */
  function Contains(s: string, sub: string): (b: bool)
    ensures b <==> exists i :: OccursAt(s, sub, i)
  {
    if sub <= s then
      assert OccursAt(s, sub, 0);
      true
    else if s == "" then
      assert forall i :: OccursAt(s, sub, i) ==> i == 0;
      false
    else
      var b := Contains(s[1..], sub);
      assert b ==> exists i :: OccursAt(s, sub, i) by {
        if b {
          var i :| OccursAt(s[1..], sub, i);
          assert OccursAt(s, sub, i + 1);
        }
      }
      assert (exists i :: OccursAt(s, sub, i)) ==> b by {
        if exists i :: OccursAt(s, sub, i) {
          var i :| OccursAt(s, sub, i);
          assert i != 0;
          assert OccursAt(s[1..], sub, i - 1);
        }
      }
      b
  }

  /** `s.split(sep)[0]`: everything before the first `sep`, or all of `s`. */
  function BeforeFirst(s: string, sep: char): (r: string)
    ensures r <= s
    ensures sep !in r
    ensures |r| < |s| ==> s[|r|] == sep
  {
    if s == "" || s[0] == sep then ""
    else [s[0]] + BeforeFirst(s[1..], sep)
  }

  predicate IsDigit(c: char) {
    '0' <= c <= '9'
  }

  predicate AllDigits(s: string) {
    forall i :: 0 <= i < |s| ==> IsDigit(s[i])
  }

  function DigitChar(d: nat): (c: char)
    requires d < 10
    ensures IsDigit(c)
  {
    ('0' as int + d) as char
  }

  /** `String(n)` for a non-negative integer: decimal digits, no leading zero. */
  function NatToString(n: nat): (r: string)
    ensures |r| >= 1 && AllDigits(r)
    ensures r[0] == '0' ==> n == 0
  {
    if n < 10 then [DigitChar(n)]
    else NatToString(n / 10) + [DigitChar(n % 10)]
  }

  /** The value of a string of decimal digits. */
  function ParseDigits(s: string): nat
    requires AllDigits(s)
  {
    if s == "" then 0
    else ParseDigits(s[..|s| - 1]) * 10 + (s[|s| - 1] as int - '0' as int)
  }

  /** Reading back a rendered number gives the number. */
  lemma {:induction false} ParseRendered(n: nat)
    ensures ParseDigits(NatToString(n)) == n
  {
    var r := NatToString(n);
    if n >= 10 {
      var front := NatToString(n / 10);
      assert r[..|r| - 1] == front;
      ParseRendered(n / 10);
    }
  }

  /** Decimal rendering is injective. */
  lemma RenderInjective(a: nat, b: nat)
    requires NatToString(a) == NatToString(b)
    ensures a == b
  {
    ParseRendered(a);
    ParseRendered(b);
  }
}

=== FILE: wrappers.dfy ===
/** Failure-compatible wrappers shared by the whole model. */
module Wrappers {

  /** A value that may be absent: JavaScript's `undefined` / `null`. */
  datatype Option<+T> = None | Some(value: T) {

    /** The wrapped value, or `default` when absent. */
    function GetOr(default: T): T {
      match this
      case Some(v) => v
      case None => default
    }
  }

  /** The outcome of an operation that may throw: `Err` carries the error's message
      and stands for "the operation had no effect". */
  datatype Result<+T> = Ok(value: T) | Err(message: string)
}
